=== FILE: README.md ===
# magmacraft rendering core in Dafny

magmacraft is a small Vulkan game engine written in Rust. Its rendering core does three jobs:

- It builds the Vulkan objects it needs through consuming builders: the state (loader entry, instance, debug messenger), the physical and logical device, render pass, framebuffers, command pool, pipelines and render states.
- It records one command buffer per frame slot.
- It drives a two-frames-in-flight loop: wait and reset, acquire, record, submit, present, advance.

This project models that core as pure Dafny functions and methods over immutable datatypes, and proves what each step promises.

The model works as follows:

- Every driver call is an oracle parameter of type `DriverCall<T>`. It holds either the value the driver returned or the `VkResult` it failed with. Driver objects are opaque `Handle`s.
- Operations return `Result` values whose errors are the engine's own `VulkanError` and `RenderingError` variants.
- A path that panics in Rust returns a `Termination` or `Outcome` that says so.
- A fence wait that can never finish is `Blocked` / `NeverReturns`.
- The GPU-facing side effects are kept as explicit logs:
  - the commands recorded into a buffer;
  - the queue operations a frame hands to the GPU;
  - the destroy calls a `Drop` makes.

One Dafny module per source file:

| module | file | models |
|---|---|---|
| `Wrappers`, `Vk` | wrappers.dfy, vk.dfy | Option/Result, handles, status codes, the error enumerations |
| `Builder` | builder.dfy | `BuilderRequirement`, `BuilderInternal`, `BuilderProduct` |
| `CStringCollection` | c_string_collection.dfy | the owned-strings-plus-pointers collection |
| `DoubleTypeBuffer` | double_type_buffer.dfy | the byte/word aliasing buffer |
| `Shader` | shader.dfy | SPIR-V loading and stage create infos |
| `Synchronization` | synchronization.dfy | semaphores and fences |
| `PhysicalDevice` | physical_device.dfy | queue-family indices and device suitability |
| `LogicalDevice` | logical_device.dfy | the logical device builder |
| `CommandPool`, `CommandBuffer` | command_pool.dfy, command_buffer.dfy | pools, allocation, the recorder lifecycle |
| `Framebuffers`, `RenderPass`, `Pipeline` | framebuffers.dfy, render_pass.dfy, pipeline.dfy | the fixed-function setup |
| `RenderState` | render_state.dfy | per-draw pipeline plus push-constant payloads |
| `Renderer` | renderer.dfy | frame slots and `render` |
| `DebugUtils`, `Instance`, `VulkanState` | debug_utils.dfy, instance.dfy, state.dfy | instance and debug-messenger creation |

Behaviour worth knowing, as the code has it:

- **Transfer queue selection.** The transfer index goes to the first family whose flags are exactly TRANSFER. Failing that, it goes to the last TRANSFER-flagged family, then to the last graphics-or-compute family. For `[GRAPHICS, COMPUTE|TRANSFER]` the code therefore picks family 1 (`PhysicalDevice.GraphicsThenComputeTransfer`), not family 0.
- **Pipeline layout.** Every pipeline layout is created from an empty create info. The push-constant sizes a render state builder registers per stage are computed (`RenderState.Request`) but never reach the layout (`Pipeline.LayoutHasNoPushConstantRanges`).
- **Failed end of recording.** A failing `end_recording` leaves the recorder recording, so its drop panics; the error never reaches the caller (`CommandBuffer.EndFailureIsFatal`, `Renderer.RenderPanics`).
- **Unchecked buffer size.** `DoubleTypeBuffer::with_lengths` multiplies element size by length in `usize` without a check. In a release build an overflowing product wraps, and a view can come out shorter than requested (`DoubleTypeBuffer.OverflowShortensView`). The shader loader never gets near the bound.
- **Failure after the fence reset.** If a frame fails after its fence was reset but before it submitted, the next frame waits on that fence forever (`Renderer.FailureAfterResetStallsNextFrame`).

## Model

| member | source | states |
|---|---|---|
| Builder.Empty | src/builder.rs:26-28 | a defaulted wrapper holds nothing |
| Builder.Set | src/builder.rs:9-11 | after `set(v)` the wrapper holds exactly `v`, whatever it held before |
| Builder.RequirementGet | src/builder.rs:13-19 | `get` succeeds iff the field was set, returns the stored value, and otherwise fails with `RequiredFieldNotSpecified` |
| Builder.RequirementTake | src/builder.rs:21-23 | `take` answers like `get` and always leaves the field empty |
| Builder.InternalGet | src/builder.rs:38-44 | reading an internal field returns the stored value iff it was set, and otherwise panics with "internal builder field not set before use or after" |
| Builder.InternalTake | src/builder.rs:46-48 | moving an internal value out returns the stored value and leaves the field empty iff it was set, and otherwise panics with "internal builder field not set before moving out" |
| Builder.ProductUnwrap | src/builder.rs:63-65 | unwrapping the product returns what was set iff it was set (a product that yields `v` is exactly one set to `v`), and otherwise panics with "builder product not created before use" |
| Builder.EmptyRequirementFails | src/builder.rs:13-23 | a never-set required field makes both `get` and `take` report `RequiredFieldNotSpecified` |
| Builder.SetThenGet | src/builder.rs:9-15 | `get` after `set(v)` returns `v`; a second `set(w)` overwrites it |
| Builder.EmptyInternalPanics | src/builder.rs:38-65 | a never-set internal field panics on `get` and `take`, and a never-set product panics on `unwrap` |
| Builder.TakeTwiceFails | src/builder.rs:21-48 | `take` hands a value out once and empties the wrapper: a second requirement `take` fails, a second internal `take` panics |
| CStringCollection.Names | src/c_string_collection.rs:67-69 | the strings' characters in insertion order, one per string |
| CStringCollection.Len | src/c_string_collection.rs:71-73 | the number of strings, which equals the number of pointers whenever they are in lockstep |
| CStringCollection.New | src/c_string_collection.rs:12-17 | a new collection is empty and keeps the pointer invariant |
| CStringCollection.AddString | src/c_string_collection.rs:42-47 | appends exactly the given name and leaves the pointers untouched |
| CStringCollection.AddNextPointer | src/c_string_collection.rs:57-61 | appends the address of the first string without a pointer, keeping earlier pointers |
| CStringCollection.Push | src/c_string_collection.rs:37-40 | push keeps pointer i equal to string i's address, grows the length by one and appends the name |
| CStringCollection.ReconstructPointers | src/c_string_collection.rs:49-55 | rebuilding leaves the strings alone and restores one correct pointer per string |
| CStringCollection.FromVec | src/c_string_collection.rs:19-28 | the collection holds the given names in order, with valid pointers |
| CStringCollection.Clone | src/c_string_collection.rs:76-86 | a clone has the same names, and its pointers address its own copies |
| CStringCollection.CopiedPointersWouldDangle | src/c_string_collection.rs:76-86 | copying the pointer vector verbatim would break the invariant, which is why clone rebuilds it |
| DoubleTypeBuffer.WithLengths | src/double_type_buffer.rs:19-38 | the allocation size is a `usize`; when neither `size * length` product overflows it is the larger of the two requested byte sizes; the alignment is the stricter of the two |
| DoubleTypeBuffer.AsSlice | src/double_type_buffer.rs:56-70 | a zero-sized element type panics on the division; otherwise a view starts at the buffer and holds as many whole elements as fit, and no more |
| DoubleTypeBuffer.ViewsCoverRequestedLengths | src/double_type_buffer.rs:19-70 | when neither product overflows, each typed view is at least as long as was requested for it |
| DoubleTypeBuffer.OverflowShortensView | src/double_type_buffer.rs:24-26 | an overflowing product wraps: 2-byte elements times 2^63 allocate one byte, and that view is empty |
| DoubleTypeBuffer.ViewsAlias | src/double_type_buffer.rs:56-70 | both views start at the same address and lie inside the allocation |
| DoubleTypeBuffer.Deallocation | src/double_type_buffer.rs:73-78 | drop frees the buffer's own address with the layout it was allocated with |
| DoubleTypeBuffer.DeallocationFreesAllocation | src/double_type_buffer.rs:19-78 | dropping a buffer frees the base `with_lengths` got and a layout of max(sizeV*lenV, sizeW*lenW) bytes aligned to max(alignV, alignW) |
| Shader.WordLength | src/vulkan/shader.rs:118-120 | the rounded-up word count holds every byte and wastes less than one word |
| Shader.WordLengthIsCeiling | src/vulkan/shader.rs:118-120 | no smaller word count holds the file |
| Shader.BufferForFile | src/vulkan/shader.rs:114-123 | for any file length an `off_t` can hold, neither view panics, the byte view covers the file and is exactly four bytes per word of the word view |
| Shader.ReadCount | src/vulkan/shader.rs:129-133 | one read returns at most the room and the bytes remaining, and 0 exactly when either is exhausted |
| Shader.ReadFileToBuffer | src/vulkan/shader.rs:125-134 | the read loop copies the file's prefix that fits and leaves the rest of the buffer unchanged |
| Shader.CStrFromBytesWithNul | src/vulkan/shader.rs:151-153 | succeeds exactly on bytes whose single NUL is the last one, returning what precedes it |
| Shader.EntryPointIsMain | src/vulkan/shader.rs:85 | the entry point name is `main`, and its unwrap cannot panic |
| Shader.StageCreateInfo | src/vulkan/shader.rs:151-159 | the stage info carries the module, the stage and the entry point `main` |
| Shader.FromFile | src/vulkan/shader.rs:87-149 | open or metadata failures become `ShaderOpenFileError` before any module is created; otherwise the module is created from the file's words, and a failure is `ShaderCreateError` |
| Shader.StageOf | src/vulkan/shader.rs:74-76 | each wrapper passes its own stage flag: vertex, fragment, geometry |
| Synchronization.NewSemaphore | src/vulkan/synchronization.rs:21-32 | succeeds iff the driver does, keeping its handle; failure is `SemaphoreCreateError` |
| Synchronization.CreateFlags | src/vulkan/synchronization.rs:68-75 | SIGNALED is requested exactly for a fence asked to start ready |
| Synchronization.InitialState | src/vulkan/synchronization.rs:53-75 | a fence starts signalled iff SIGNALED was requested, and never with work pending |
| Synchronization.NewFence | src/vulkan/synchronization.rs:53-66 | a created fence starts signalled iff asked to be ready; failure is `FenceCreateError` |
| Synchronization.Status | src/vulkan/synchronization.rs:81-92 | success is Ready, NOT_READY is NotReady, any other code is `FenceGetStatusError` |
| Synchronization.Reset | src/vulkan/synchronization.rs:94-101 | a successful reset leaves the fence unsignalled; failure is `FenceResetError` |
| Synchronization.WaitArguments | src/vulkan/synchronization.rs:103-106 | a timeout above u64 is refused with `FenceTimeoutTooLargeError`; otherwise one fence is waited on with wait-all |
| Synchronization.Wait | src/vulkan/synchronization.rs:103-113 | a wait never returns exactly when the timeout is unbounded and the fence has no work to signal it; a successful wait sees the fence signalled |
| Synchronization.TimeoutBoundary | src/vulkan/synchronization.rs:105-106 | `u64::MAX` nanoseconds is accepted and one more is refused |
| PhysicalDevice.TrySetTransfer | src/vulkan/physical_device.rs:253-262 | a TRANSFER family takes the transfer index unless an exactly-TRANSFER family already holds it, and raises the strong flag iff its flags are exactly TRANSFER |
| PhysicalDevice.TrySetNotDedicatedTransfer | src/vulkan/physical_device.rs:284-288 | the fallback writes transfer only while no TRANSFER family has been seen |
| PhysicalDevice.TrySetGraphics | src/vulkan/physical_device.rs:264-269 | a graphics family takes the graphics index and, before any TRANSFER family, the transfer index |
| PhysicalDevice.TrySetCompute | src/vulkan/physical_device.rs:271-276 | likewise for compute |
| PhysicalDevice.TrySetSparseBinding | src/vulkan/physical_device.rs:278-282 | a sparse-binding family takes that index, and nothing else changes |
| PhysicalDevice.UpdateSurfaceSupport | src/vulkan/physical_device.rs:290-298 | a presentable family takes the presentation index, and nothing else changes |
| PhysicalDevice.VulkanStep | src/vulkan/physical_device.rs:246-251 | one family's update, field by field, with transfer tried before graphics and compute |
| PhysicalDevice.UpdateVulkanFamilySupport | src/vulkan/physical_device.rs:246-251 | graphics, compute and sparse binding take the family iff it has the flag; transfer either stays or takes the family; presentation is untouched; the strong-implies-weak transfer invariant is kept |
| PhysicalDevice.UpdateFamilySupport | src/vulkan/physical_device.rs:238-244 | the presentation query changes only the presentation index, and only when a surface is given and accepts the family |
| PhysicalDevice.FoldFamilies | src/vulkan/physical_device.rs:231-233 | after the first n families every recorded index is below n, the transfer invariant holds, and without a surface nothing is presentable |
| PhysicalDevice.FromProperties | src/vulkan/physical_device.rs:226-236 | every recorded index names an enumerated family; without a surface there is no presentation index |
| PhysicalDevice.StepMatchesClosedForm | src/vulkan/physical_device.rs:238-251 | one fold step carries the closed form over n-1 families to the closed form over n |
| PhysicalDevice.FoldMatchesClosedForm | src/vulkan/physical_device.rs:226-236 | the fold over any prefix equals an independent closed-form description |
| PhysicalDevice.FromPropertiesClosedForm | src/vulkan/physical_device.rs:226-236 | graphics, compute and sparse binding are the last family with that flag; presentation is the last presentable family (none without a surface); transfer follows the exact/last/fallback rule |
| PhysicalDevice.StronglyDedicatedOnlyByExactTransfer | src/vulkan/physical_device.rs:253-262 | only a family whose flags are exactly TRANSFER raises the strong flag, and it then holds the transfer index |
| PhysicalDevice.StronglyDedicatedIsSticky | src/vulkan/physical_device.rs:253-262 | once the strong flag is set, no later family moves the transfer index |
| PhysicalDevice.TransferTriedFirst | src/vulkan/physical_device.rs:246-251 | a TRANSFER-flagged family takes transfer through the transfer rule, unless an exactly-TRANSFER family came earlier |
| PhysicalDevice.FallbackOnlyBeforeTransferFamily | src/vulkan/physical_device.rs:264-288 | graphics or compute families set transfer only before any TRANSFER family |
| PhysicalDevice.IndicesInRange | src/vulkan/physical_device.rs:226-236 | every recorded index names an enumerated family |
| PhysicalDevice.GetFamilySet | src/vulkan/physical_device.rs:315-335 | the set holds exactly the roles with an index, and never presentation |
| PhysicalDevice.GetIndice | src/vulkan/physical_device.rs:300-308 | each role reads its own index |
| PhysicalDevice.DoesSupportFamilies | src/vulkan/physical_device.rs:310-313 | support implies every required role has an index and none is presentation |
| PhysicalDevice.DoesSupportFamiliesMeaning | src/vulkan/physical_device.rs:310-313 | support means every required role has an index; requiring presentation always fails |
| PhysicalDevice.GetQueueFamilyIndex | src/vulkan/logical_device.rs:135-142 | a role's index, or `QueueFamilyNotSupported(role)` when it has none |
| PhysicalDevice.CStrFromArray | src/vulkan/physical_device.rs:185-187 | a name read from a fixed array is its longest NUL-free prefix |
| PhysicalDevice.IsExtensionSupported | src/vulkan/physical_device.rs:182-196 | found iff some device extension name equals the required one |
| PhysicalDevice.AreRequiredExtensionsSupported | src/vulkan/physical_device.rs:155-180 | an enumeration failure is `OperationFailed`; otherwise true iff every required extension is supported |
| PhysicalDevice.IsDeviceSuitable | src/vulkan/physical_device.rs:98-176 | suitable iff the required roles are supported and every required extension is present; extensions are checked only after the families pass; once they are, a failed enumeration is `OperationFailed("enumerate physical device extensions", ...)` and a successful one always gives an answer |
| PhysicalDevice.GraphicsThenComputeTransfer | src/vulkan/physical_device.rs:246-288 | for `[GRAPHICS, COMPUTE\|TRANSFER]` transfer is family 1 and graphics family 0 |
| PhysicalDevice.DedicatedTransferScenario | src/vulkan/physical_device.rs:226-313 | an exactly-TRANSFER family becomes the dedicated transfer family while family 0 serves graphics and presentation |
| LogicalDevice.SetToSeq | src/vulkan/logical_device.rs:128-130 | draining the index set yields each element once, and nothing else |
| LogicalDevice.InitUniqueQueueFamilyIndices | src/vulkan/logical_device.rs:120-142 | succeeds iff every requested role resolves; the error names the first role that does not; the result lists each distinct family exactly once |
| LogicalDevice.QueueCreateInfos | src/vulkan/logical_device.rs:144-156 | one queue of priority 1.0 per listed family, in order |
| LogicalDevice.Build | src/vulkan/logical_device.rs:102-201 | unresolved roles fail before any driver call; the device request covers the distinct families and the requested extensions; a driver failure is `LogicalDeviceCreateError`; success binds the swapchain loader to the new device and keeps the physical device |
| CommandPool.CreateFlags | src/vulkan/command_pool.rs:101-108 | RESET_COMMAND_BUFFER always; TRANSIENT iff often-rerecorded was set to true |
| CommandPool.Build | src/vulkan/command_pool.rs:93-133 | an unresolved queue family fails before creation; the pool is created for the family's index with the flags above; a driver failure is `CommandPoolCreateError` |
| CommandPool.AllocateRequest | src/vulkan/command_pool.rs:37-40 | primary buffers from this pool, with the count truncated to u32 |
| CommandPool.AllocateCommandBuffers | src/vulkan/command_pool.rs:36-48 | a failure is `CommandBufferAllocateError`; otherwise one wrapper per allocated handle, in order |
| CommandPool.Drop | src/vulkan/command_pool.rs:51-57 | drop makes one destroy call, for this pool on its device |
| CommandPool.DropUndoesBuild | src/vulkan/command_pool.rs:51-133 | dropping a pool that `build` produced destroys the driver's handle on the device it was built for, and nothing else |
| Framebuffers.CreateInfoFor | src/vulkan/framebuffers.rs:97-110 | one attachment, the swapchain extent and one layer |
| Framebuffers.Build | src/vulkan/framebuffers.rs:76-118 | succeeds iff every framebuffer is created, with handles in view order; otherwise it stops at the first refused view with its error |
| Framebuffers.Handle | src/vulkan/framebuffers.rs:30-32 | the framebuffer of the indexed view; an index past the last one panics |
| Framebuffers.ImageExtent | src/vulkan/framebuffers.rs:34-36 | the extent the framebuffers were built for |
| Framebuffers.Drop | src/vulkan/framebuffers.rs:39-47 | one destroy per framebuffer, in order |
| Framebuffers.DropDestroysEachBuiltFramebuffer | src/vulkan/framebuffers.rs:39-47 | a handle is destroyed iff it is one of the framebuffers |
| CommandBuffer.BeginInfoFlags | src/vulkan/command_buffer.rs:66-73 | ONE_TIME_SUBMIT exactly for buffers submitted once |
| CommandBuffer.New | src/vulkan/command_buffer.rs:39-64 | a recorder exists iff begin succeeds; it starts recording with no commands; failure is `CommandBufferRecordError` |
| CommandBuffer.RenderArea | src/vulkan/command_buffer.rs:101-112 | the whole framebuffer extent from the origin |
| CommandBuffer.BeginPass | src/vulkan/command_buffer.rs:75-99 | appends one begin-render-pass with the indexed framebuffer, full render area, the single black clear value and inline contents |
| CommandBuffer.EndPass | src/vulkan/command_buffer.rs:122-129 | appends end-render-pass and changes nothing else |
| CommandBuffer.Bind | src/vulkan/command_buffer.rs:131-141 | appends a graphics bind of the pipeline |
| CommandBuffer.Push | src/rendering/renderer.rs:277-280 | appends one push-constant command for the pipeline, stage and payload |
| CommandBuffer.DrawVertices | src/vulkan/command_buffer.rs:143-150 | appends one draw of the count with one instance from vertex 0 |
| CommandBuffer.Drop | src/vulkan/command_buffer.rs:163-169 | dropping panics exactly while recording |
| CommandBuffer.EndRecording | src/vulkan/command_buffer.rs:152-160 | success returns the recorded commands; a failure leaves recording on, so the drop panics |
| CommandBuffer.EndFailureIsFatal | src/vulkan/command_buffer.rs:152-169 | for a recorder from a successful begin, any end failure ends in a panic |
| CommandBuffer.StepsPreserveLifecycle | src/vulkan/command_buffer.rs:75-150 | builder steps keep buffer, flags and recording state and only append commands |
| RenderPass.AttachmentDescriptions | src/vulkan/render_pass.rs:80-94 | one swapchain-format attachment, cleared, stored, undefined → present |
| RenderPass.AttachmentReferences | src/vulkan/render_pass.rs:96-104 | attachment 0 in colour-attachment layout |
| RenderPass.SubpassDescriptions | src/vulkan/render_pass.rs:106-114 | one graphics subpass using that reference |
| RenderPass.SubpassDependencies | src/vulkan/render_pass.rs:116-128 | external → subpass 0 at the colour-output stage: with no source access and `COLOR_ATTACHMENT_WRITE` as the destination access, the subpass's colour writes wait for the external colour-output stage |
| RenderPass.CreateInfo | src/vulkan/render_pass.rs:130-134 | the create info gathers the three lists above |
| RenderPass.CreateInfoIsWellFormed | src/vulkan/render_pass.rs:80-134 | every reference names an existing attachment and every dependency an existing subpass or external |
| RenderPass.Build | src/vulkan/render_pass.rs:130-144 | the driver is handed the well-formed create info for the image format; success keeps the driver's handle; failure is `RenderPassCreateError` |
| Pipeline.VertexInput | src/vulkan/pipeline.rs:138-147 | no vertex bindings or attributes |
| Pipeline.InputAssembly | src/vulkan/pipeline.rs:149-156 | triangle list without primitive restart |
| Pipeline.ViewportFor | src/vulkan/pipeline.rs:158-188 | one viewport and one scissor covering the swapchain extent |
| Pipeline.Rasterization | src/vulkan/pipeline.rs:190-202 | filled, clockwise, no culling, clamp, discard or bias |
| Pipeline.Multisample | src/vulkan/pipeline.rs:204-214 | single sample and no sample tricks |
| Pipeline.ColorBlend | src/vulkan/pipeline.rs:216-236 | one attachment writing RGBA with blending and logic ops off |
| Pipeline.PushIfSome | src/vulkan/pipeline.rs:279-289 | a present shader appends its stage info; an absent one changes nothing |
| Pipeline.StageList | src/vulkan/pipeline.rs:250-253 | at most `MAX_SHADER_STAGES` stages |
| Pipeline.PushKeepsOrder | src/vulkan/pipeline.rs:279-289 | pushing a later-ranked stage keeps the list ordered |
| Pipeline.StageListShape | src/vulkan/pipeline.rs:250-253 | stages appear geometry, vertex, fragment; a stage is listed iff its shader was supplied, with that shader's info |
| Pipeline.Build | src/vulkan/pipeline.rs:238-277 | the layout comes from an empty create info; its failure stops the build with `PipelineLayoutCreateError`; otherwise one pipeline request carries the fixed states, stages, layout, render pass and subpass, and a failure is `PipelineCreateError` |
| Pipeline.LayoutHasNoPushConstantRanges | src/vulkan/pipeline.rs:238-247 | no layout request carries push-constant ranges |
| Pipeline.Drop | src/vulkan/pipeline.rs:37-44 | the pipeline is destroyed, then its layout |
| Pipeline.DropUndoesBuild | src/vulkan/pipeline.rs:37-277 | dropping a pipeline that `build` produced destroys the driver's pipeline and then the layout it was built with, on the configured device |
| RenderState.Insert | src/rendering/render_state.rs:57-67 | the stage's payload is replaced or added; other stages and the pipeline are untouched |
| RenderState.PipelineOf | src/rendering/render_state.rs:53-55 | the state's shared pipeline |
| RenderState.PushGeometryConstants | src/rendering/render_state.rs:57-59 | replaces only the geometry payload |
| RenderState.PushVertexConstants | src/rendering/render_state.rs:61-63 | replaces only the vertex payload |
| RenderState.PushFragmentConstants | src/rendering/render_state.rs:65-67 | replaces only the fragment payload |
| RenderState.PushNeverShrinks | src/rendering/render_state.rs:57-67 | pushing never removes a payload, and there are never more than three |
| RenderState.IterateShaders | src/rendering/render_state.rs:84-90 | yields exactly the map's (stage, payload) pairs, each stage once |
| RenderState.Request | src/rendering/render_state.rs:145-214 | the pipeline is requested for the renderer's device, extent and render pass at subpass 0 with the supplied shaders; push sizes are registered only for supplied stages |
| RenderState.Build | src/rendering/render_state.rs:133-143 | succeeds iff the pipeline builds; starts with no payloads; pipeline errors surface as `Vulkan(...)` |
| Renderer.New | src/rendering/renderer.rs:72-103 | allocation failure is `CommandBufferAllocateError`; success iff all six sync objects are created; each slot gets its buffer, two semaphores and a signalled fence; frame 0 and nothing submitted; otherwise the first failing creation's error |
| Renderer.PushAllAppends | src/rendering/renderer.rs:277-280 | pushing the pairs appends one push per pair, in order |
| Renderer.RecordRenderStateAppends | src/rendering/renderer.rs:270-283 | one render state appends bind, its pushes and a three-vertex draw |
| Renderer.RecordRenderStatesAppends | src/rendering/renderer.rs:259-261 | recording the states appends exactly their concatenated streams |
| Renderer.PushAll | src/rendering/renderer.rs:277-280 | the pushes leave buffer, flags and recording state alone and append one command per pair after what was recorded |
| Renderer.RecordRenderState | src/rendering/renderer.rs:270-283 | one render state adds its pushes plus two commands after what was recorded, and leaves buffer, flags and recording state alone |
| Renderer.RecordRenderStates | src/rendering/renderer.rs:259-261 | recording the states leaves buffer, flags and recording state alone |
| Renderer.Render | src/rendering/renderer.rs:219-228 | blocks iff the slot's fence has nothing pending and the wait does not fail; on return the renderer is valid, and the frame advanced iff the frame succeeded |
| Renderer.WaitForCurrentFrame | src/rendering/renderer.rs:230-236 | blocks forever exactly on an unsignalled fence with nothing pending; on success only the current fence changes, to unsignalled |
| Renderer.AcquireNextImage | src/rendering/renderer.rs:238-249 | acquires with the unbounded timeout signalling the slot's image-acquired semaphore; failure is `AcquireImageError` |
| Renderer.RerecordCommandBuffer | src/rendering/renderer.rs:251-268 | begin failure is returned; a missing framebuffer or an end failure panics; success stores begin-pass, the states' streams and end-pass in the slot |
| Renderer.SubmitForRendering | src/rendering/renderer.rs:285-306 | submits the slot's buffer waiting at colour output and signalling its semaphore and fence, which then has work pending; failures are the queue lookup's error or `RenderImageError` |
| Renderer.SubmitForPresentation | src/rendering/renderer.rs:308-325 | presents the image after its rendered semaphore; failures are the queue lookup's error or `PresentImageError` |
| Renderer.AdvanceFrame | src/rendering/renderer.rs:327-329 | moves to the other slot, round-robin modulo `FRAMES_IN_FLIGHT` |
| Renderer.RenderAccounting | src/rendering/renderer.rs:219-228 | render blocks iff the fence has nothing pending; on return the renderer is valid, other slots are unchanged, and the frame advanced iff it succeeded |
| Renderer.RenderSuccess | src/rendering/renderer.rs:219-228 | a successful frame logs exactly acquire, submit and present, chained through the slot's semaphores and fence, and records the reference stream |
| Renderer.FailureAfterResetStallsNextFrame | src/rendering/renderer.rs:219-236 | a failure between reset and submit leaves the fence unsignalled with nothing pending, so the next frame blocks forever |
| Renderer.TwoFramesReturnToStart | src/rendering/renderer.rs:327-329 | two successful frames return to the starting slot |
| Renderer.RenderPanics | src/rendering/renderer.rs:251-268 | render panics iff the acquire succeeded and the image has no framebuffer or ending the recording fails |
| Renderer.Drop | src/rendering/renderer.rs:344-353 | dropping panics iff the device cannot go idle |
| DebugUtils.CreateInfo | src/vulkan/debug_utils.rs:35-51 | warnings and errors only, for every message type |
| DebugUtils.SeverityLabel | src/vulkan/debug_utils.rs:67-73 | each single known severity bit has its name; any other value is unknown |
| DebugUtils.TypeLabel | src/vulkan/debug_utils.rs:75-80 | each single known type bit has its name; any other value is unknown |
| DebugUtils.SeverityLabelsAreDistinct | src/vulkan/debug_utils.rs:67-73 | a known severity label identifies its severity |
| DebugUtils.TypeLabelsAreDistinct | src/vulkan/debug_utils.rs:75-80 | a known type label identifies its type |
| DebugUtils.Callback | src/vulkan/debug_utils.rs:62-88 | the callback writes the labelled line and always answers false |
| DebugUtils.NewMessenger | src/vulkan/debug_utils.rs:20-33 | success keeps the handle and instance; failure is `OperationFailed("create debug messenger")` |
| Instance.DebugMode | src/vulkan/instance.rs:127-129 | debugging is on exactly when some validation layer was requested |
| Instance.IsValidationLayerInProperties | src/vulkan/instance.rs:159-171 | found iff some enumerated layer name equals the requested one |
| Instance.CheckValidationLayers | src/vulkan/instance.rs:139-157 | enumeration failure is `ValidationLayersError`; otherwise ok iff every requested layer is available, else `ValidationLayersNotAvailable` |
| Instance.EncodeChar | src/vulkan/instance.rs:180 | a character's UTF-8 encoding takes 1 to 4 bytes by code-point range, one byte iff ASCII, and contains a zero byte iff the character is NUL |
| Instance.Utf8 | src/vulkan/instance.rs:180 | `as_bytes` has as many bytes as the characters' widths add up to |
| Instance.Utf8Append | src/vulkan/instance.rs:180 | the bytes of a concatenation are the concatenated bytes |
| Instance.FirstZeroByteOfUtf8 | src/vulkan/instance.rs:180 | the first zero byte of a name's UTF-8 bytes lies where the bytes of the characters before its first NUL end, and there is none iff the name has no NUL |
| Instance.AsciiNulPositionIsIndex | src/vulkan/instance.rs:180 | in an ASCII name the NUL's byte offset equals its character index |
| Instance.MakeAppInfo | src/vulkan/instance.rs:179-191 | fails iff the name has a NUL, with `InstanceExtensionsCreationError` at the NUL's UTF-8 byte offset; otherwise application and engine share name and version, on API 1.0.0 |
| Instance.NulPositionCountsBytes | src/vulkan/instance.rs:180 | for the name "é" followed by NUL, the error reports byte 2, not character index 1 |
| Instance.MakeCreateInfo | src/vulkan/instance.rs:193-208 | extensions and layers pass through; the messenger info is chained iff debugging |
| Instance.Build | src/vulkan/instance.rs:114-223 | layer checks in debug mode come first, then the app info, whose NUL in the name fails with `InstanceExtensionsCreationError` at the NUL's UTF-8 byte offset; a request is made only after both pass, and the result follows the driver |
| VulkanState.AddInstanceDebugExtension | src/vulkan/state.rs:134-141 | in debug mode the debug-utils extension is appended; otherwise the extensions are unchanged |
| VulkanState.ValidationLayers | src/vulkan/state.rs:104-108 | the Khronos validation layer in debug mode, none otherwise |
| VulkanState.InstanceRequest | src/vulkan/state.rs:97-108 | the instance is asked for as "Magmacraft" 0.0.0 with the caller's extensions (plus debug-utils when debugging); debugging is on iff debug mode |
| VulkanState.Build | src/vulkan/state.rs:75-156 | a loader failure is `LibraryLoadError` before anything else; in debug mode a failed layer enumeration is `ValidationLayersError` and a missing validation layer is `ValidationLayersNotAvailable`; once the layers pass, a failed instance creation is `InstanceCreateError`; a messenger is requested iff debug mode and the instance was created; success holds the instance, loaders bound to it, and a messenger iff debug mode |

## Left out

- Window, surface, swapchain, `main.rs`, `debugging.rs` and the older top-level `src/renderer.rs` are not part of this model. The swapchain is a stub in the source; the surface and window are platform I/O. Where the core needs them, their answers are parameters: the presentation oracle, the image format, the image views and the extent.
- Physical-device selection policy is not modelled: the scan loop in `select_suitable_device` never records a chosen device. Only the per-device suitability test (`PhysicalDevice.IsDeviceSuitable`) is.
- Renderer::new's chain of builders before the command buffers is not modelled: each builder is modelled on its own, and `Renderer.New` starts from their products.
- Calls to helpers that the shown sources do not define are modelled abstractly:
  - `device_queue` and `get_queue_family_index` are driver answers or `PhysicalDevice.GetQueueFamilyIndex`;
  - `push_constant` is `CommandBuffer.Push`;
  - `push_constants_size` is the size map of `RenderState.Request`;
  - `submit_buffers_once` is the `submitOnce` flag;
  - `DebugMessenger::create_info` is `DebugUtils.CreateInfo`;
  - `VulkanError::operation_failed_mapping` is the `OperationFailed` variant, built with the operation's name and the driver's status;
  - `CStringCollection::get_strings` is `CStringCollection.Names`, which `PhysicalDevice.AreRequiredExtensionsSupported` receives as its `required` names;
  - `get_requested_extensions` is the `requestedExtensions` field of `PhysicalDevice.SelectedDevice`;
  - `get_pointers` is the `enabledExtensions` of `LogicalDevice.DeviceCreateInfo`, stated as the names those pointers address (`CStringCollection.Names` of the requested collection);
  - `get_handle` is the `handle` field of `PhysicalDevice.SelectedDevice` and of `Instance.Instance`.
- CommandBuffer.Push: the recorder defines no push-constant method, so the command's contents are an opaque payload.
- Resources created before a later failure (earlier framebuffers, a pipeline layout whose pipeline failed, earlier semaphores) leak in the source. The model does not track their destruction.
- Renderer.New: it assumes the driver allocates exactly the `FRAMES_IN_FLIGHT` buffers it was asked for.
- Version packing (`vk_make_version!`) is kept as a (major, minor, patch) triple. The viewport's width and height are the extent's natural numbers; the source's `u32` to `f32` cast, exact below 2^24, is not modelled. The other floating-point state (the viewport's origin and depth range, the line width, queue priorities, clear colour) appears only as constants.
- The standard-error output of the debug callback is the returned line, not I/O.
- Destruction of the instance, debug messenger, semaphores, fences, shaders, render pass and logical device is not modelled. Each drop is a single destroy call with no logic.
- CStringCollection.Push: a name with an interior NUL is excluded by a precondition. The source's `unwrap` panics on it, although its comment assumes UTF-8 rules that case out.
- Shader.BufferForFile and Shader.FromFile: an empty shader file is excluded by a precondition (a zero byte count, and a zero metadata length). Its zero-size allocation is undefined behaviour in the source. File lengths are bounded by 2^63 - 1, the largest a signed 64-bit `off_t` holds; below that bound no `usize` arithmetic of the buffer overflows.
- DoubleTypeBuffer.WithLengths: `usize` is 64 bits and the products wrap, as in a release build. A debug build panics on the overflow instead; that panic is not modelled. A zero-sized allocation is undefined behaviour for the allocator and is excluded by a precondition.
- Shader.ReadFileToBuffer: read errors are not modelled. The source unwraps them, which panics.
- Generic payload types are not modelled: `size_of` of the payload types is a parameter (`PayloadSizes`), and push-constant payloads are opaque numbers.
- `iterate_shaders` draws its order from a `HashMap`, which is unspecified. The model fixes geometry, vertex, fragment and proves only membership and uniqueness.

=== FILE: builder.dfy ===
/**
 * The three optional-value wrappers that every staged builder is made of.
 * All three hold an optional value and start empty; they differ in how an
 * empty wrapper is treated:
 *  - a requirement (a field the caller must supply) reports
 *    `RequiredFieldNotSpecified`;
 *  - an internal field (set by the builder's own earlier steps) panics;
 *  - a product panics on `unwrap`.
 * A panic is a `Vk.Termination` that ends in `Panicked` with the message
 * the wrapper's `expect` carries.
 * In a value model `get_mut` coincides with `get`.
 */
module Builder {
  import opened Wrappers
  import Vk

  datatype BuilderError = RequiredFieldNotSpecified

  /** The state shared by the three wrappers: the optional value they hold. */
  datatype Slot<T> = Slot(contents: Option<T>) {
    predicate IsSet() {
      contents.Some?
    }
  }

  /** `Default` for all three wrappers. */
  function Empty<T>(): (s: Slot<T>)
    ensures !s.IsSet()
  {
    Slot(None)
  }

  /** `set`: stores `v`, replacing whatever the wrapper held. */
  function Set<T>(s: Slot<T>, v: T): (s': Slot<T>)
    ensures s'.IsSet() && s'.contents.value == v
  {
    Slot(Some(v))
  }

  /** `BuilderRequirement::get` (and `get_mut`). */
  function RequirementGet<T>(s: Slot<T>): (r: Result<T, BuilderError>)
    ensures r.Ok? <==> s.IsSet()
    ensures r.Ok? ==> r.value == s.contents.value
    ensures r.Err? ==> r.error == RequiredFieldNotSpecified
  {
    match s.contents
    case Some(v) => Ok(v)
    case None => Err(RequiredFieldNotSpecified)
  }

  /** `BuilderRequirement::take`: moves the value out, leaving the wrapper empty. */
  function RequirementTake<T>(s: Slot<T>): (r: (Result<T, BuilderError>, Slot<T>))
    ensures r.0 == RequirementGet(s)
    ensures !r.1.IsSet()
  {
    (RequirementGet(s), Slot(None))
  }

  /** `BuilderInternal::get` (and `get_mut`): an empty internal field is a bug and panics. */
  function InternalGet<T>(s: Slot<T>): (r: Vk.Termination<T>)
    ensures r.Returned? <==> s.IsSet()
    ensures r.Returned? ==> r.value == s.contents.value
    ensures r.Panicked? ==> r.message == "internal builder field not set before use or after"
  {
    match s.contents
    case Some(v) => Vk.Returned(v)
    case None => Vk.Panicked("internal builder field not set before use or after")
  }

  /** `BuilderInternal::take`: moves the value out, leaving the field empty; an empty field panics. */
  function InternalTake<T>(s: Slot<T>): (r: Vk.Termination<(T, Slot<T>)>)
    ensures r.Returned? <==> s.IsSet()
    ensures r.Returned? ==> r.value.0 == s.contents.value && !r.value.1.IsSet()
    ensures r.Panicked? ==> r.message == "internal builder field not set before moving out"
  {
    match s.contents
    case Some(v) => Vk.Returned((v, Slot(None)))
    case None => Vk.Panicked("internal builder field not set before moving out")
  }

  /** `BuilderProduct::unwrap`: consumes the product, moving its value out; a builder that never produced it panics. */
  function ProductUnwrap<T>(s: Slot<T>): (r: Vk.Termination<T>)
    ensures r.Returned? <==> s.IsSet()
    ensures r.Returned? ==> r.value == s.contents.value
    ensures r.Panicked? ==> r.message == "builder product not created before use"
    ensures r.Returned? ==> s == Set(Empty(), r.value)
  {
    match s.contents
    case Some(v) => Vk.Returned(v)
    case None => Vk.Panicked("builder product not created before use")
  }

  /** A required field that was never set reports an error from all three accessors. */
  lemma EmptyRequirementFails<T>()
    ensures RequirementGet(Empty<T>()) == Err(RequiredFieldNotSpecified)
    ensures RequirementTake(Empty<T>()).0 == Err(RequiredFieldNotSpecified)
  {
  }

  /** An internal field or product that was never set panics on every accessor. */
  lemma EmptyInternalPanics<T>()
    ensures InternalGet(Empty<T>()).Panicked?
    ensures InternalTake(Empty<T>()).Panicked?
    ensures ProductUnwrap(Empty<T>()).Panicked?
  {
  }

  /** After `set(v)`, `get` returns `v`; a later `set(w)` overwrites it. */
  lemma SetThenGet<T>(s: Slot<T>, v: T, w: T)
    ensures RequirementGet(Set(s, v)) == Ok(v)
    ensures RequirementGet(Set(Set(s, v), w)) == Ok(w)
    ensures InternalGet(Set(s, v)) == Vk.Returned(v)
    ensures ProductUnwrap(Set(s, v)) == Vk.Returned(v)
  {
  }

  /** `take` hands out the value once: a second `take` fails. */
  lemma TakeTwiceFails<T>(s: Slot<T>, v: T)
    ensures RequirementTake(Set(s, v)).0 == Ok(v)
    ensures RequirementTake(RequirementTake(Set(s, v)).1).0 == Err(RequiredFieldNotSpecified)
    ensures InternalTake(Set(s, v)) == Vk.Returned((v, Empty()))
    ensures InternalTake(InternalTake(Set(s, v)).value.1).Panicked?
  {
  }
}

=== FILE: c_string_collection.dfy ===
/**
 * The collection of NUL-terminated strings handed to the driver as name
 * lists (extensions, validation layers). It owns the strings and keeps, in
 * lockstep, the array of pointers to their buffers that the driver reads.
 * A pointer is modelled as the address of the string's heap buffer; a
 * fresh `CString` allocation receives its address from the caller.
 */
module CStringCollection {
  import opened Vk

  /** A `CString`: its characters (without the terminator) and the address of its buffer. */
  datatype CString = CString(chars: Name, address: nat)

  /** The `strings` vector and the `pointers` vector. */
  datatype Collection = Collection(strings: seq<CString>, pointers: seq<nat>)

  /** `CString::new` succeeds exactly on inputs with no interior NUL. */
  predicate HasNoNul(s: Name) {
    forall i :: 0 <= i < |s| ==> s[i] != '\0'
  }

  predicate AllHaveNoNul(names: seq<Name>) {
    forall k :: 0 <= k < |names| ==> HasNoNul(names[k])
  }

  /** Pointer `i` is the address of string `i`, and there are as many pointers as strings. */
  predicate PointersMatch(c: Collection) {
    && |c.pointers| == |c.strings|
    && forall i :: 0 <= i < |c.strings| ==> c.pointers[i] == c.strings[i].address
  }

  /** The collection invariant. */
  predicate Valid(c: Collection) {
    && PointersMatch(c)
    && forall i :: 0 <= i < |c.strings| ==> HasNoNul(c.strings[i].chars)
  }

  /** `strings()`: the owned strings' characters, in insertion order. */
  function Names(c: Collection): (names: seq<Name>)
    ensures |names| == |c.strings|
    ensures forall i :: 0 <= i < |c.strings| ==> names[i] == c.strings[i].chars
  {
    seq(|c.strings|, i requires 0 <= i < |c.strings| => c.strings[i].chars)
  }

  /** `new`, `with_capacity` and `Default`. */
  function New(): (c: Collection)
    ensures Valid(c) && Len(c) == 0 && Names(c) == []
  {
    Collection([], [])
  }

  /** `len()`: the number of strings, which is also the number of pointers handed to the driver. */
  function Len(c: Collection): (n: nat)
    ensures n == |Names(c)|
    ensures PointersMatch(c) ==> n == |c.pointers|
  {
    |c.strings|
  }

  /** `add_string`: appends one `CString`; `unwrap` on an interior NUL panics, hence the precondition. */
  function AddString(c: Collection, s: Name, address: nat): (r: Collection)
    requires HasNoNul(s)
    ensures r.pointers == c.pointers
    ensures Names(r) == Names(c) + [s]
  {
    Collection(c.strings + [CString(s, address)], c.pointers)
  }

  /** `add_next_c_string_pointer`: appends the address of the first string that has no pointer yet. */
  function AddNextPointer(c: Collection): (r: Collection)
    requires |c.pointers| < |c.strings|
    ensures r.strings == c.strings
    ensures |r.pointers| == |c.pointers| + 1 && r.pointers[..|c.pointers|] == c.pointers
    ensures r.pointers[|c.pointers|] == c.strings[|c.pointers|].address
  {
    Collection(c.strings, c.pointers + [c.strings[|c.pointers|].address])
  }

  /** `push`: appends one string and one pointer, keeping the two vectors in lockstep. */
  function Push(c: Collection, s: Name, address: nat): (r: Collection)
    requires Valid(c)
    requires HasNoNul(s)
    ensures Valid(r)
    ensures Len(r) == Len(c) + 1
    ensures Names(r) == Names(c) + [s]
    ensures r.pointers[..|c.pointers|] == c.pointers
  {
    AddNextPointer(AddString(c, s, address))
  }

  /** `reconstruct_pointers`: discards the pointers and rebuilds one per string, in order. */
  method ReconstructPointers(c: Collection) returns (r: Collection)
    requires forall i :: 0 <= i < |c.strings| ==> HasNoNul(c.strings[i].chars)
    ensures Valid(r)
    ensures r.strings == c.strings
  {
    r := Collection(c.strings, []);
    var k := 0;
    while k < |c.strings|
      invariant 0 <= k <= |c.strings|
      invariant r.strings == c.strings
      invariant |r.pointers| == k
      invariant forall i :: 0 <= i < k ==> r.pointers[i] == c.strings[i].address
    {
      r := AddNextPointer(r);
      k := k + 1;
    }
  }

  /**
   * `from_vec`: pushes every string in order; `addresses[k]` is the buffer
   * the allocator gives the k-th `CString`.
   */
  method FromVec(strings: seq<Name>, addresses: seq<nat>) returns (c: Collection)
    requires |addresses| == |strings|
    requires AllHaveNoNul(strings)
    ensures Valid(c)
    ensures Len(c) == |strings|
    ensures Names(c) == strings
  {
    c := New();
    var k := 0;
    while k < |strings|
      invariant 0 <= k <= |strings|
      invariant Valid(c)
      invariant Names(c) == strings[..k]
    {
      c := Push(c, strings[k], addresses[k]);
      assert strings[..k + 1] == strings[..k] + [strings[k]];
      k := k + 1;
    }
  }

  /**
   * `clone`: copies every string into a fresh buffer (`addresses[k]` for
   * the k-th) and rebuilds the pointers so they refer to the copies.
   */
  method Clone(c: Collection, addresses: seq<nat>) returns (r: Collection)
    requires Valid(c)
    requires |addresses| == |c.strings|
    ensures Valid(r)
    ensures Len(r) == Len(c)
    ensures Names(r) == Names(c)
    ensures forall i :: 0 <= i < |r.pointers| ==> r.pointers[i] == addresses[i]
  {
    var copies := seq(|c.strings|, i requires 0 <= i < |c.strings| => CString(c.strings[i].chars, addresses[i]));
    r := ReconstructPointers(Collection(copies, []));
  }

  /**
   * Why `clone` rebuilds the pointers: copying the original's pointers next
   * to freshly allocated strings would leave them pointing at the original's
   * buffers.
   */
  lemma CopiedPointersWouldDangle(c: Collection, addresses: seq<nat>)
    requires Valid(c) && |c.strings| > 0
    requires |addresses| == |c.strings|
    requires forall i :: 0 <= i < |addresses| ==> addresses[i] != c.strings[i].address
    ensures !PointersMatch(Collection(
      seq(|c.strings|, i requires 0 <= i < |c.strings| => CString(c.strings[i].chars, addresses[i])),
      c.pointers))
  {
    var copies := seq(|c.strings|, i requires 0 <= i < |c.strings| => CString(c.strings[i].chars, addresses[i]));
    assert c.pointers[0] == c.strings[0].address != copies[0].address;
  }
}

=== FILE: command_buffer.dfy ===
/**
 * Command recording. A recorder exists only after `begin` succeeded and
 * is then recording; every builder step appends one command and hands the
 * same recorder on; only `end_recording` clears the flag, and dropping a
 * recorder that is still recording panics.
 */
module CommandBuffer {
  import opened Wrappers
  import opened Vk
  import opened CommandPool
  import Framebuffers

  datatype UsageFlag = OneTimeSubmit

  /** `begin_info_flags`: one-time submission exactly for buffers submitted once. */
  function BeginInfoFlags(submitOnce: bool): (flags: set<UsageFlag>)
    ensures OneTimeSubmit in flags <==> submitOnce
    ensures !submitOnce ==> flags == {}
  {
    if submitOnce then {OneTimeSubmit} else {}
  }

  /** An RGBA clear colour. */
  datatype ClearColor = ClearColor(r: real, g: real, b: real, a: real)

  /** `render_clear_values`: opaque black, and nothing else. */
  const RENDER_CLEAR_VALUES: seq<ClearColor> := [ClearColor(0.0, 0.0, 0.0, 1.0)]

  /** A push-constant value; its contents are opaque to recording. */
  type PushPayload = nat

  datatype SubpassContents = Inline

  datatype PipelineBindPoint = GraphicsBindPoint

  /** The commands a recorder can append to its buffer. */
  datatype Command =
    | BeginRenderPass(renderPass: Handle, framebuffer: Handle, renderArea: Rect2D,
                      clearValues: seq<ClearColor>, contents: SubpassContents)
    | BindPipeline(bindPoint: PipelineBindPoint, pipeline: Handle)
    | PushConstant(pipeline: Handle, stage: ShaderStage, payload: PushPayload)
    | Draw(vertexCount: nat, instanceCount: nat, firstVertex: nat, firstInstance: nat)
    | EndRenderPass

  /** A recorder: the buffer it records into, its begin flags, the recording flag, and what it recorded. */
  datatype Recorder = Recorder(buffer: CommandBuffer, beginFlags: set<UsageFlag>, recording: bool, commands: seq<Command>)

  /** `CommandBufferRecorder::new` (via `CommandBuffer::record`); `begin` is the driver's answer. */
  function New(buffer: CommandBuffer, begin: DriverCall<()>): (r: Result<Recorder, VulkanError>)
    ensures begin.Ok? <==> r.Ok?
    ensures r.Ok? ==> r.value.recording && r.value.commands == [] && r.value.buffer == buffer
    ensures r.Ok? ==> (OneTimeSubmit in r.value.beginFlags <==> buffer.submitOnce)
    ensures r.Err? ==> r.error == CommandBufferRecordError(begin.error)
  {
    match begin
    case Err(code) => Err(CommandBufferRecordError(code))
    case Ok(_) => Ok(Recorder(buffer, BeginInfoFlags(buffer.submitOnce), true, []))
  }

  /** `render_area`: the whole framebuffer, from the origin. */
  function RenderArea(f: Framebuffers.Framebuffers): (area: Rect2D)
    ensures area.offset == Offset2D(0, 0)
    ensures area.extent == Framebuffers.ImageExtent(f)
  {
    Rect2D(Offset2D(0, 0), Framebuffers.ImageExtent(f))
  }

  /** `begin_render_pass`; the framebuffer index must name one of the framebuffers. */
  function BeginPass(rec: Recorder, renderPass: Handle, f: Framebuffers.Framebuffers, index: nat): (r: Recorder)
    requires index < |f.handles|
    ensures r.buffer == rec.buffer && r.recording == rec.recording && r.beginFlags == rec.beginFlags
    ensures |r.commands| == |rec.commands| + 1 && r.commands[..|rec.commands|] == rec.commands
    ensures var c := r.commands[|rec.commands|];
      && c.BeginRenderPass? && c.renderPass == renderPass && c.framebuffer == f.handles[index]
      && c.renderArea == Rect2D(Offset2D(0, 0), f.extent) && |c.clearValues| == 1
  {
    var c := BeginRenderPass(renderPass, Framebuffers.Handle(f, index).value, RenderArea(f), RENDER_CLEAR_VALUES, Inline);
    rec.(commands := rec.commands + [c])
  }

  /** `end_render_pass`. */
  function EndPass(rec: Recorder): (r: Recorder)
    ensures r.buffer == rec.buffer && r.recording == rec.recording && r.beginFlags == rec.beginFlags
    ensures r.commands == rec.commands + [EndRenderPass]
  {
    rec.(commands := rec.commands + [EndRenderPass])
  }

  /** `bind_pipeline`, always at the graphics bind point. */
  function Bind(rec: Recorder, pipeline: Handle): (r: Recorder)
    ensures r.buffer == rec.buffer && r.recording == rec.recording && r.beginFlags == rec.beginFlags
    ensures r.commands == rec.commands + [BindPipeline(GraphicsBindPoint, pipeline)]
  {
    rec.(commands := rec.commands + [BindPipeline(GraphicsBindPoint, pipeline)])
  }

  /** The push-constant step the renderer records through; the recorder does not define its body. */
  function Push(rec: Recorder, pipeline: Handle, stage: ShaderStage, payload: PushPayload): (r: Recorder)
    ensures r.buffer == rec.buffer && r.recording == rec.recording && r.beginFlags == rec.beginFlags
    ensures r.commands == rec.commands + [PushConstant(pipeline, stage, payload)]
  {
    rec.(commands := rec.commands + [PushConstant(pipeline, stage, payload)])
  }

  /** `draw`: one instance from vertex 0 and instance 0; the vertex count is a u32. */
  function DrawVertices(rec: Recorder, vertexCount: nat): (r: Recorder)
    requires vertexCount < U32_MODULUS
    ensures r.buffer == rec.buffer && r.recording == rec.recording && r.beginFlags == rec.beginFlags
    ensures r.commands == rec.commands + [Draw(vertexCount, 1, 0, 0)]
  {
    rec.(commands := rec.commands + [Draw(vertexCount, 1, 0, 0)])
  }

  /** The drop of a recorder: fatal while it is still recording. */
  function Drop(rec: Recorder): (t: Termination<()>)
    ensures t.Panicked? <==> rec.recording
  {
    if rec.recording then Panicked("Error: vulkan command buffer recorder went out of scope while recording")
    else Returned(())
  }

  /**
   * `end_recording` followed by the drop of the consumed recorder. On
   * success the flag is cleared and the recorded commands are final. On
   * failure `?` returns early with the flag still set, so the drop panics
   * and the error never reaches the caller.
   */
  function EndRecording(rec: Recorder, end: DriverCall<()>): (t: Termination<Result<seq<Command>, VulkanError>>)
    ensures end.Ok? ==> t == Returned(Ok(rec.commands))
    ensures end.Err? ==> (t.Panicked? <==> rec.recording)
    ensures end.Err? && !rec.recording ==> t == Returned(Err(CommandBufferRecordError(end.error)))
  {
    match end
    case Ok(_) =>
      var finished := rec.(recording := false);
      (match Drop(finished)
       case Panicked(m) => Panicked(m)
       case Returned(_) => Returned(Ok(rec.commands)))
    case Err(code) =>
      match Drop(rec)
      case Panicked(m) => Panicked(m)
      case Returned(_) => Returned(Err(CommandBufferRecordError(code)))
  }

  /** A recorder obtained from a successful begin never hands an end failure back as an error. */
  lemma EndFailureIsFatal(buffer: CommandBuffer, begin: DriverCall<()>, code: VkResult)
    requires begin.Ok?
    ensures EndRecording(New(buffer, begin).value, Err(code)).Panicked?
  {
  }

  /** One consuming builder step. */
  datatype Step =
    | StepBeginPass(renderPass: Handle, framebuffers: Framebuffers.Framebuffers, index: nat)
    | StepBind(pipeline: Handle)
    | StepPush(pushPipeline: Handle, stage: ShaderStage, payload: PushPayload)
    | StepDraw(vertexCount: nat)
    | StepEndPass

  /** The step's own precondition holds. */
  predicate Applicable(s: Step) {
    match s
    case StepBeginPass(_, f, index) => index < |f.handles|
    case StepDraw(n) => n < U32_MODULUS
    case _ => true
  }

  function Apply(rec: Recorder, s: Step): Recorder
    requires Applicable(s)
  {
    match s
    case StepBeginPass(renderPass, f, index) => BeginPass(rec, renderPass, f, index)
    case StepBind(p) => Bind(rec, p)
    case StepPush(p, stage, payload) => Push(rec, p, stage, payload)
    case StepDraw(n) => DrawVertices(rec, n)
    case StepEndPass => EndPass(rec)
  }

  function ApplyAll(rec: Recorder, steps: seq<Step>): Recorder
    requires forall k :: 0 <= k < |steps| ==> Applicable(steps[k])
    decreases |steps|
  {
    if steps == [] then rec else ApplyAll(Apply(rec, steps[0]), steps[1..])
  }

  /**
   * Any chain of builder steps keeps the same buffer, begin flags and
   * recording flag, and appends exactly one command per step after what
   * was already recorded.
   */
  lemma {:induction false} StepsPreserveLifecycle(rec: Recorder, steps: seq<Step>)
    requires forall k :: 0 <= k < |steps| ==> Applicable(steps[k])
    ensures var r := ApplyAll(rec, steps);
      && r.buffer == rec.buffer && r.beginFlags == rec.beginFlags && r.recording == rec.recording
      && |r.commands| == |rec.commands| + |steps|
      && r.commands[..|rec.commands|] == rec.commands
    decreases |steps|
  {
    if steps != [] {
      var next := Apply(rec, steps[0]);
      StepsPreserveLifecycle(next, steps[1..]);
      var r := ApplyAll(next, steps[1..]);
      assert r.commands[..|rec.commands|] == r.commands[..|next.commands|][..|rec.commands|];
    }
  }
}

=== FILE: command_pool.dfy ===
/**
 * Command pools: the creation flags, the pool's queue family, and the
 * allocation of primary command buffers.
 */
module CommandPool {
  import opened Wrappers
  import opened Vk
  import opened PhysicalDevice

  datatype CreateFlag = ResetCommandBuffer | Transient

  /**
   * `init_create_flags`: buffers can always be reset individually; the
   * pool is marked transient only when the caller said its buffers are
   * often re-recorded (an unset choice counts as no).
   */
  function CreateFlags(oftenRerecorded: Option<bool>): (flags: set<CreateFlag>)
    ensures ResetCommandBuffer in flags
    ensures Transient in flags <==> oftenRerecorded == Some(true)
    ensures flags <= {ResetCommandBuffer, Transient}
  {
    if oftenRerecorded == Some(true) then {ResetCommandBuffer, Transient} else {ResetCommandBuffer}
  }

  datatype PoolCreateInfo = PoolCreateInfo(queueFamilyIndex: nat, flags: set<CreateFlag>)

  datatype CommandPool = CommandPool(handle: Handle, device: Handle)

  /** The outcome of `build`, with the create info passed to the driver if it got that far. */
  datatype BuildOutcome = BuildOutcome(pool: Result<CommandPool, VulkanError>, attempted: Option<PoolCreateInfo>)

  /**
   * `build` (`init_create_flags`, `init_vk_command_pool`,
   * `create_command_pool`): the pool's family is the physical device's
   * family for the chosen role; a missing family aborts before the driver
   * is asked, and a driver failure is `CommandPoolCreateError`.
   */
  function Build(d: SelectedDevice, device: Handle, family: QueueFamily, oftenRerecorded: Option<bool>,
                 create: DriverCall<Handle>): (o: BuildOutcome)
    ensures GetIndice(d.indices, family).None? ==>
      o.pool == Err(QueueFamilyNotSupported(family)) && o.attempted.None?
    ensures GetIndice(d.indices, family).Some? ==>
      && o.attempted.Some?
      && o.attempted.value.queueFamilyIndex == GetIndice(d.indices, family).value
      && (Transient in o.attempted.value.flags <==> oftenRerecorded == Some(true))
      && ResetCommandBuffer in o.attempted.value.flags
    ensures o.attempted.Some? && create.Err? ==> o.pool == Err(CommandPoolCreateError(create.error))
    ensures o.attempted.Some? && create.Ok? ==> o.pool == Ok(CommandPool(create.value, device))
  {
    var flags := CreateFlags(oftenRerecorded);
    match GetQueueFamilyIndex(d, family)
    case Err(e) => BuildOutcome(Err(e), None)
    case Ok(index) =>
      var info := PoolCreateInfo(index, flags);
      match create
      case Err(code) => BuildOutcome(Err(CommandPoolCreateError(code)), Some(info))
      case Ok(h) => BuildOutcome(Ok(CommandPool(h, device)), Some(info))
  }

  datatype CommandBufferLevel = Primary

  datatype AllocateInfo = AllocateInfo(pool: Handle, level: CommandBufferLevel, count: nat)

  /** A command buffer and whether its recordings are submitted once only. */
  datatype CommandBuffer = CommandBuffer(handle: Handle, submitOnce: bool)

  /** The `count as u32` conversion of the requested buffer count. */
  function AllocateRequest(pool: CommandPool, count: nat): (info: AllocateInfo)
    ensures info.pool == pool.handle && info.level == Primary
    ensures info.count < U32_MODULUS
    ensures count < U32_MODULUS ==> info.count == count
  {
    AllocateInfo(pool.handle, Primary, count % U32_MODULUS)
  }

  /**
   * `allocate_command_buffers`: every returned handle is wrapped, in the
   * driver's order; a failure is `CommandBufferAllocateError`.
   * `submitOnce` is the per-buffer flag the recorder reads.
   */
  function AllocateCommandBuffers(pool: CommandPool, count: nat, submitOnce: bool, allocate: DriverCall<seq<Handle>>)
    : (r: Result<seq<CommandBuffer>, VulkanError>)
    ensures allocate.Err? ==> r == Err(CommandBufferAllocateError(allocate.error))
    ensures allocate.Ok? ==> r.Ok? && |r.value| == |allocate.value|
    ensures allocate.Ok? ==> forall k :: 0 <= k < |r.value| ==>
      r.value[k].handle == allocate.value[k] && r.value[k].submitOnce == submitOnce
  {
    match allocate
    case Err(code) => Err(CommandBufferAllocateError(code))
    case Ok(handles) => Ok(seq(|handles|, k requires 0 <= k < |handles| => CommandBuffer(handles[k], submitOnce)))
  }

  /** The pool's drop destroys exactly the pool it created, on the device that created it. */
  datatype Destroy = DestroyCommandPool(device: Handle, pool: Handle)

  function Drop(pool: CommandPool): (events: seq<Destroy>)
    ensures |events| == 1 && events[0].device == pool.device && events[0].pool == pool.handle
  {
    [DestroyCommandPool(pool.device, pool.handle)]
  }

  /** Dropping a pool that `build` produced destroys the driver's handle on the device it was built for, and nothing else. */
  lemma DropUndoesBuild(d: SelectedDevice, device: Handle, family: QueueFamily, oftenRerecorded: Option<bool>, h: Handle)
    requires Build(d, device, family, oftenRerecorded, Ok(h)).pool.Ok?
    ensures Drop(Build(d, device, family, oftenRerecorded, Ok(h)).pool.value) == [DestroyCommandPool(device, h)]
  {
    var o := Build(d, device, family, oftenRerecorded, Ok(h));
    assert o.attempted.Some?;
    assert o.pool.value == CommandPool(h, device);
  }
}

=== FILE: debug_utils.dfy ===
/**
 * The debug messenger: which validation messages it asks for, how the
 * callback labels them, and its creation.
 */
module DebugUtils {
  import opened Wrappers
  import opened Vk

  /** A Vulkan flag word. */
  type Flags = bv32

  /** Message severity bits (`VkDebugUtilsMessageSeverityFlagBitsEXT`). */
  const SEVERITY_VERBOSE: Flags := 0x0001
  const SEVERITY_INFO: Flags := 0x0010
  const SEVERITY_WARNING: Flags := 0x0100
  const SEVERITY_ERROR: Flags := 0x1000

  /** Message type bits (`VkDebugUtilsMessageTypeFlagBitsEXT`). */
  const TYPE_GENERAL: Flags := 0x1
  const TYPE_VALIDATION: Flags := 0x2
  const TYPE_PERFORMANCE: Flags := 0x4

  /** The Vulkan boolean the callback answers with; false lets the triggering call proceed. */
  const VK_FALSE: nat := 0

  datatype MessengerCreateInfo = MessengerCreateInfo(severities: Flags, messageTypes: Flags)

  /** `get_create_info`: warnings and errors, of every message type. */
  function CreateInfo(): (info: MessengerCreateInfo)
    ensures info.severities & SEVERITY_WARNING != 0 && info.severities & SEVERITY_ERROR != 0
    ensures info.severities & (SEVERITY_VERBOSE | SEVERITY_INFO) == 0
    ensures info.severities & !(SEVERITY_WARNING | SEVERITY_ERROR) == 0
    ensures info.messageTypes == TYPE_GENERAL | TYPE_VALIDATION | TYPE_PERFORMANCE
  {
    MessengerCreateInfo(SEVERITY_WARNING | SEVERITY_ERROR, TYPE_GENERAL | TYPE_VALIDATION | TYPE_PERFORMANCE)
  }

  /** The severity label of `debug_callback`: one name per single known bit, anything else is unknown. */
  function SeverityLabel(severity: Flags): (name: string)
    ensures name == "Unknown severity" <==>
      severity !in {SEVERITY_VERBOSE, SEVERITY_INFO, SEVERITY_WARNING, SEVERITY_ERROR}
    ensures severity == SEVERITY_WARNING ==> name == "warning"
    ensures severity == SEVERITY_ERROR ==> name == "error"
  {
    if severity == SEVERITY_INFO then "info"
    else if severity == SEVERITY_VERBOSE then "verbose"
    else if severity == SEVERITY_WARNING then "warning"
    else if severity == SEVERITY_ERROR then "error"
    else "Unknown severity"
  }

  /** The type label of `debug_callback`, likewise. */
  function TypeLabel(messageType: Flags): (name: string)
    ensures name == "Unknown type" <==> messageType !in {TYPE_GENERAL, TYPE_VALIDATION, TYPE_PERFORMANCE}
    ensures messageType == TYPE_VALIDATION ==> name == "validation"
  {
    if messageType == TYPE_GENERAL then "general"
    else if messageType == TYPE_VALIDATION then "validation"
    else if messageType == TYPE_PERFORMANCE then "performance"
    else "Unknown type"
  }

  /** Distinct known severities get distinct labels, so a label names its severity. */
  lemma SeverityLabelsAreDistinct(a: Flags, b: Flags)
    requires SeverityLabel(a) != "Unknown severity"
    ensures SeverityLabel(a) == SeverityLabel(b) <==> a == b
  {
  }

  /** Distinct known types get distinct labels. */
  lemma TypeLabelsAreDistinct(a: Flags, b: Flags)
    requires TypeLabel(a) != "Unknown type"
    ensures TypeLabel(a) == TypeLabel(b) <==> a == b
  {
  }

  /** `debug_callback`: the line it writes to standard error, and its answer, which is always false. */
  function Callback(severity: Flags, messageType: Flags, message: string): (r: (nat, string))
    ensures r.0 == VK_FALSE
    ensures r.1 == "VL " + SeverityLabel(severity) + " (" + TypeLabel(messageType) + "): " + message
  {
    (VK_FALSE, "VL " + SeverityLabel(severity) + " (" + TypeLabel(messageType) + "): " + message)
  }

  datatype DebugMessenger = DebugMessenger(handle: Handle, instance: Handle)

  /** `DebugMessenger::new`: a failure is reported as the failed operation "create debug messenger". */
  function NewMessenger(instance: Handle, create: DriverCall<Handle>): (r: Result<DebugMessenger, VulkanError>)
    ensures create.Ok? <==> r.Ok?
    ensures r.Ok? ==> r.value == DebugMessenger(create.value, instance)
    ensures r.Err? ==> r.error == OperationFailed("create debug messenger", create.error)
  {
    match create
    case Err(code) => Err(OperationFailed("create debug messenger", code))
    case Ok(h) => Ok(DebugMessenger(h, instance))
  }
}

=== FILE: double_type_buffer.dfy ===
/**
 * A raw heap buffer viewed as a slice of either of two element types. The
 * allocation is large enough for the longer of two requested views and
 * aligned for both; each view then covers as many whole elements of its
 * type as fit in the allocation. Addresses are byte offsets.
 */
module DoubleTypeBuffer {
  import opened Vk

  /** `size_of` and `align_of` of an element type. */
  datatype TypeLayout = TypeLayout(size: nat, align: nat)

  /** `alloc::Layout`. */
  datatype Layout = Layout(size: nat, align: nat)

  /** The allocation: its base address and layout. */
  datatype Buffer = Buffer(base: nat, layout: Layout)

  /** A slice view: start address, element count and element size. */
  datatype View = View(start: nat, length: nat, elementSize: nat) {
    /** The last byte address the view covers, plus one. */
    function End(): nat {
      start + length * elementSize
    }
  }

  function Max(a: nat, b: nat): nat {
    if a >= b then a else b
  }

  /** `usize` on the 64-bit targets the engine is built for. */
  const USIZE_MODULUS: nat := 0x1_0000_0000_0000_0000

  /** `a * b` on `usize` in a release build: the product wraps around. */
  function WrappingMul(a: nat, b: nat): (p: nat)
    ensures p < USIZE_MODULUS
    ensures a * b < USIZE_MODULUS ==> p == a * b
  {
    (a * b) % USIZE_MODULUS
  }

  /** The byte size `with_lengths` asks for: the larger of the two wrapped products. */
  function RequestedSize(v: TypeLayout, lengthV: nat, w: TypeLayout, lengthW: nat): nat {
    Max(WrappingMul(v.size, lengthV), WrappingMul(w.size, lengthW))
  }

  /** Neither `size * length` product overflows `usize`. */
  predicate NoOverflow(v: TypeLayout, lengthV: nat, w: TypeLayout, lengthW: nat) {
    v.size * lengthV < USIZE_MODULUS && w.size * lengthW < USIZE_MODULUS
  }

  /**
   * `with_lengths::<V, W>`: allocates `max(sizeV*lenV, sizeW*lenW)` bytes
   * aligned to `max(alignV, alignW)` at `base` (the allocator's answer).
   * The products are `usize` and wrap around; only when neither overflows
   * is the allocation as large as both views need. A zero-sized layout is
   * undefined behaviour for the allocator, hence the precondition.
   */
  function WithLengths(v: TypeLayout, lengthV: nat, w: TypeLayout, lengthW: nat, base: nat): (b: Buffer)
    requires RequestedSize(v, lengthV, w, lengthW) > 0
    ensures b.base == base
    ensures b.layout.size < USIZE_MODULUS
    ensures NoOverflow(v, lengthV, w, lengthW) ==>
      && b.layout.size >= v.size * lengthV && b.layout.size >= w.size * lengthW
      && (b.layout.size == v.size * lengthV || b.layout.size == w.size * lengthW)
    ensures b.layout.align >= v.align && b.layout.align >= w.align
    ensures b.layout.align == v.align || b.layout.align == w.align
    ensures b.layout.size > 0
  {
    Buffer(base, Layout(RequestedSize(v, lengthV, w, lengthW), Max(v.align, w.align)))
  }

  /**
   * `as_slice` / `as_mut_slice`: as many whole elements as fit, starting at
   * the buffer's base. The element count is `size / size_of::<V>()`, so a
   * zero-sized element type panics on the division.
   */
  function AsSlice(b: Buffer, t: TypeLayout): (r: Termination<View>)
    ensures r.Panicked? <==> t.size == 0
    ensures r.Returned? ==> r.value.start == b.base && r.value.elementSize == t.size
    ensures r.Returned? ==> r.value.End() <= b.base + b.layout.size
    ensures r.Returned? ==> r.value.End() + t.size > b.base + b.layout.size
  {
    if t.size == 0 then
      Termination.Panicked("attempt to divide by zero")
    else
      Termination.Returned(View(b.base, b.layout.size / t.size, t.size))
  }

  /** Each view is at least as long as was asked for it, provided neither product overflowed. */
  lemma ViewsCoverRequestedLengths(v: TypeLayout, lengthV: nat, w: TypeLayout, lengthW: nat, base: nat)
    requires v.size > 0 && w.size > 0
    requires lengthV > 0 || lengthW > 0
    requires NoOverflow(v, lengthV, w, lengthW)
    ensures RequestedSize(v, lengthV, w, lengthW) > 0
    ensures var b := WithLengths(v, lengthV, w, lengthW, base);
      AsSlice(b, v).Returned? && AsSlice(b, w).Returned? &&
      AsSlice(b, v).value.length >= lengthV && AsSlice(b, w).value.length >= lengthW
  {
    if lengthV > 0 {
      MulMono(v.size, 1, lengthV);
    } else {
      MulMono(w.size, 1, lengthW);
    }
    var b := WithLengths(v, lengthV, w, lengthW, base);
    LengthAtLeast(b.layout.size, v.size, lengthV);
    LengthAtLeast(b.layout.size, w.size, lengthW);
  }

  /**
   * When a product overflows the views can come out shorter than asked:
   * two-byte elements times 2^63 wrap to zero bytes, so with one byte asked
   * for the other view the allocation is a single byte and the first view
   * is empty instead of 2^63 elements long.
   */
  lemma OverflowShortensView()
    ensures var v := TypeLayout(2, 2);
      var w := TypeLayout(1, 1);
      var b := WithLengths(v, 0x8000_0000_0000_0000, w, 1, 0);
      && !NoOverflow(v, 0x8000_0000_0000_0000, w, 1)
      && AsSlice(b, v) == Termination.Returned(View(0, 0, 2))
  {
    assert WrappingMul(2, 0x8000_0000_0000_0000) == 0;
  }

  lemma LengthAtLeast(size: nat, elementSize: nat, length: nat)
    requires elementSize > 0 && size >= elementSize * length
    ensures size / elementSize >= length
  {
    var q := size / elementSize;
    assert size < elementSize * (q + 1);
    MulCancel(elementSize, length, q + 1);
  }

  lemma MulCancel(a: nat, b: nat, c: nat)
    requires a > 0 && a * b < a * c
    ensures b < c
  {
    if b >= c {
      MulMono(a, c, b);
    }
  }

  lemma MulMono(a: nat, b: nat, c: nat)
    requires b <= c
    ensures a * b <= a * c
  {
    assert a * c == a * b + a * (c - b);
  }

  /** Both views start at the buffer and lie inside it, so the shorter one's bytes are also the longer one's. */
  lemma ViewsAlias(b: Buffer, v: TypeLayout, w: TypeLayout)
    requires v.size > 0 && w.size > 0
    ensures AsSlice(b, v).Returned? && AsSlice(b, w).Returned?
    ensures AsSlice(b, v).value.start == AsSlice(b, w).value.start == b.base
    ensures AsSlice(b, v).value.End() <= b.base + b.layout.size && AsSlice(b, w).value.End() <= b.base + b.layout.size
  {
  }

  /** `drop`: deallocates the buffer's own address with the layout it was allocated with. */
  function Deallocation(b: Buffer): (r: (nat, Layout))
    ensures r.0 == b.base && r.1 == b.layout
  {
    (b.base, b.layout)
  }

  /** Dropping a buffer frees exactly the address and layout `with_lengths` allocated. */
  lemma DeallocationFreesAllocation(v: TypeLayout, lengthV: nat, w: TypeLayout, lengthW: nat, base: nat)
    requires RequestedSize(v, lengthV, w, lengthW) > 0
    ensures Deallocation(WithLengths(v, lengthV, w, lengthW, base))
      == (base, Layout(RequestedSize(v, lengthV, w, lengthW), Max(v.align, w.align)))
    ensures NoOverflow(v, lengthV, w, lengthW) ==>
      Deallocation(WithLengths(v, lengthV, w, lengthW, base))
      == (base, Layout(Max(v.size * lengthV, w.size * lengthW), Max(v.align, w.align)))
  {
  }
}

=== FILE: framebuffers.dfy ===
/**
 * Framebuffers: one per swapchain image view, all sharing the render pass
 * and the swapchain extent.
 */
module Framebuffers {
  import opened Wrappers
  import opened Vk

  datatype FramebufferCreateInfo = FramebufferCreateInfo(
    renderPass: Handle, attachments: seq<Handle>, width: nat, height: nat, layers: nat)

  /** The framebuffers, in image-view order, and the extent of the swapchain they were made for. */
  datatype Framebuffers = Framebuffers(device: Handle, handles: seq<Handle>, extent: Extent2D)

  /** The create info for the framebuffer of one image view. */
  function CreateInfoFor(renderPass: Handle, view: Handle, extent: Extent2D): (info: FramebufferCreateInfo)
    ensures info.renderPass == renderPass && info.attachments == [view]
    ensures info.width == extent.width && info.height == extent.height && info.layers == 1
  {
    FramebufferCreateInfo(renderPass, [view], extent.width, extent.height, 1)
  }

  /** `views[k]` is the first view whose framebuffer the driver refused. */
  predicate FirstFailure(views: seq<Handle>, create: nat -> DriverCall<Handle>, k: int) {
    && 0 <= k < |views|
    && create(k).Err?
    && forall j :: 0 <= j < k ==> create(j).Ok?
  }

  /** The build stopped at the k-th view, after k + 1 requests, with that view's error. */
  predicate FailedAt(views: seq<Handle>, create: nat -> DriverCall<Handle>, k: int, e: VulkanError, requestCount: nat) {
    && FirstFailure(views, create, k)
    && e == FramebuffersCreateError(create(k).error)
    && requestCount == k + 1
  }

  /**
   * `init_vk_framebuffers` with `push_framebuffer_with_image_to_vec` and
   * `create_framebuffers`. `create(k)` is the driver's answer to the k-th
   * creation; `requests` are the create infos passed to it, in order.
   */
  method Build(device: Handle, renderPass: Handle, views: seq<Handle>, extent: Extent2D, create: nat -> DriverCall<Handle>)
    returns (r: Result<Framebuffers, VulkanError>, requests: seq<FramebufferCreateInfo>)
    ensures |requests| <= |views|
    ensures forall k :: 0 <= k < |requests| ==> requests[k] == CreateInfoFor(renderPass, views[k], extent)
    ensures r.Ok? <==> forall k :: 0 <= k < |views| ==> create(k).Ok?
    ensures r.Ok? ==> |requests| == |views| && r.value.device == device && r.value.extent == extent
    ensures r.Ok? ==> |r.value.handles| == |views|
    ensures r.Ok? ==> forall k :: 0 <= k < |views| ==> r.value.handles[k] == create(k).value
    ensures r.Err? ==> exists k :: FailedAt(views, create, k, r.error, |requests|)
  {
    var handles: seq<Handle> := [];
    requests := [];
    var k := 0;
    while k < |views|
      invariant 0 <= k <= |views|
      invariant |handles| == k && |requests| == k
      invariant forall j :: 0 <= j < k ==> create(j).Ok? && handles[j] == create(j).value
      invariant forall j :: 0 <= j < k ==> requests[j] == CreateInfoFor(renderPass, views[j], extent)
    {
      requests := requests + [CreateInfoFor(renderPass, views[k], extent)];
      match create(k)
      case Err(code) =>
        assert FailedAt(views, create, k, FramebuffersCreateError(code), |requests|);
        return Err(FramebuffersCreateError(code)), requests;
      case Ok(h) =>
        handles := handles + [h];
      k := k + 1;
    }
    r := Ok(Framebuffers(device, handles, extent));
  }

  /** `handle(index)`: the framebuffer of the index-th image view; an index past the last one panics, as `Vec` indexing does. */
  function Handle(f: Framebuffers, index: nat): (t: Termination<Handle>)
    ensures t.Panicked? <==> index >= |f.handles|
    ensures t.Returned? ==> t.value == f.handles[index]
  {
    if index < |f.handles| then Termination.Returned(f.handles[index])
    else Termination.Panicked("index out of bounds")
  }

  /** `image_extent`: the extent of the swapchain the framebuffers were built for. */
  function ImageExtent(f: Framebuffers): (e: Extent2D)
    ensures e == f.extent
  {
    f.extent
  }

  datatype Destroy = DestroyFramebuffer(device: Handle, framebuffer: Handle)

  /** The drop's calls, in order: one per framebuffer. */
  function Drop(f: Framebuffers): (events: seq<Destroy>)
    ensures |events| == |f.handles|
    ensures forall k :: 0 <= k < |events| ==> events[k] == DestroyFramebuffer(f.device, f.handles[k])
  {
    seq(|f.handles|, k requires 0 <= k < |f.handles| => DestroyFramebuffer(f.device, f.handles[k]))
  }

  /** Every framebuffer of a successful build is destroyed, and nothing else is. */
  lemma DropDestroysEachBuiltFramebuffer(f: Framebuffers, h: Handle)
    ensures DestroyFramebuffer(f.device, h) in Drop(f) <==> h in f.handles
  {
    if h in f.handles {
      var k :| 0 <= k < |f.handles| && f.handles[k] == h;
      assert Drop(f)[k] == DestroyFramebuffer(f.device, h);
    }
  }
}

=== FILE: instance.dfy ===
/**
 * Instance creation: debug mode is implied by a non-empty validation-layer
 * list, the requested layers are checked against the available ones, the
 * application info is filled in, and the debug messenger's create info is
 * chained into the instance's in debug mode.
 */
module Instance {
  import opened Wrappers
  import opened Vk
  import CStringCollection
  import PhysicalDevice
  import DebugUtils

  /**
   * A version as given to `vk_make_version!`. The packing into one
   * integer belongs to the Vulkan specification and is not modelled.
   */
  datatype Version = Version(major: nat, minor: nat, patch: nat)

  /** The Vulkan API version the engine targets. */
  const API_VERSION := Version(1, 0, 0)

  datatype AppInfo = AppInfo(appName: Name, appVersion: Version, engineName: Name, engineVersion: Version, apiVersion: Version)

  datatype InstanceCreateInfo = InstanceCreateInfo(
    appInfo: AppInfo,
    enabledExtensions: seq<Name>,
    enabledLayers: seq<Name>,
    next: Option<DebugUtils.MessengerCreateInfo>)

  /** What the instance builder was given. */
  datatype InstanceConfig = InstanceConfig(
    name: Name, version: Version,
    extensions: CStringCollection.Collection,
    validationLayers: CStringCollection.Collection)

  datatype Instance = Instance(handle: Handle)

  /** `init_debug_information`: debugging is on exactly when some validation layer was asked for. */
  function DebugMode(c: InstanceConfig): (debug: bool)
    ensures debug <==> CStringCollection.Names(c.validationLayers) != []
  {
    CStringCollection.Len(c.validationLayers) != 0
  }

  /** A layer is available when some enumerated layer name equals it. */
  ghost predicate LayerAvailable(properties: seq<string>, layer: Name) {
    exists k :: 0 <= k < |properties| && PhysicalDevice.CStrFromArray(properties[k]) == layer
  }

  /** `is_validation_layer_in_properties`. */
  method IsValidationLayerInProperties(layer: Name, properties: seq<string>) returns (found: bool)
    ensures found <==> LayerAvailable(properties, layer)
  {
    var k := 0;
    while k < |properties|
      invariant 0 <= k <= |properties|
      invariant forall j :: 0 <= j < k ==> PhysicalDevice.CStrFromArray(properties[j]) != layer
    {
      if PhysicalDevice.CStrFromArray(properties[k]) == layer {
        return true;
      }
      k := k + 1;
    }
    return false;
  }

  /**
   * `check_if_validation_layers_are_available`: an enumeration failure is
   * `ValidationLayersError`; otherwise every requested layer must be
   * available, else `ValidationLayersNotAvailable`.
   */
  method CheckValidationLayers(layers: seq<Name>, enumeration: DriverCall<seq<string>>) returns (r: Result<(), VulkanError>)
    ensures enumeration.Err? ==> r == Err(ValidationLayersError(enumeration.error))
    ensures enumeration.Ok? ==> (r.Ok? <==> forall j :: 0 <= j < |layers| ==> LayerAvailable(enumeration.value, layers[j]))
    ensures enumeration.Ok? && r.Err? ==> r.error == ValidationLayersNotAvailable
  {
    if enumeration.Err? {
      return Err(ValidationLayersError(enumeration.error));
    }
    var j := 0;
    while j < |layers|
      invariant 0 <= j <= |layers|
      invariant forall i :: 0 <= i < j ==> LayerAvailable(enumeration.value, layers[i])
    {
      var available := IsValidationLayerInProperties(layers[j], enumeration.value);
      if !available {
        return Err(ValidationLayersNotAvailable);
      }
      j := j + 1;
    }
    return Ok(());
  }

  /** The index of the first occurrence of `x` in `s`, if any. */
  function FirstIndex<T(==)>(s: seq<T>, x: T): (p: Option<nat>)
    ensures p.None? <==> x !in s
    ensures p.Some? ==> p.value < |s| && s[p.value] == x
  {
    if |s| == 0 then None
    else if s[0] == x then Some(0)
    else match FirstIndex(s[1..], x)
      case None => None
      case Some(i) => Some(i + 1)
  }

  /** No element before the index `FirstIndex` finds is `x`. */
  lemma {:induction false} FirstIndexIsFirst<T>(s: seq<T>, x: T, i: nat)
    requires FirstIndex(s, x).Some? && i < FirstIndex(s, x).value
    ensures s[i] != x
  {
    if i > 0 {
      FirstIndexIsFirst(s[1..], x, i - 1);
    }
  }

  /** The number of bytes UTF-8 takes for a character, by code-point range (section 3 of RFC 3629). */
  function Utf8Width(c: char): (n: nat)
    ensures 1 <= n <= 4
    ensures n == 1 <==> c as int < 0x80
  {
    if c as int < 0x80 then 1
    else if c as int < 0x800 then 2
    else if c as int < 0x10000 then 3
    else 4
  }

  /**
   * The UTF-8 encoding of one character (section 3 of RFC 3629): one byte
   * below 0x80, otherwise a lead byte and continuation bytes, every one of
   * them at least 0x80.
   */
  function EncodeChar(c: char): (bytes: seq<byte>)
    ensures |bytes| == Utf8Width(c)
    ensures 0 in bytes <==> c == '\0'
    ensures |bytes| > 1 ==> forall i :: 0 <= i < |bytes| ==> bytes[i] >= 0x80
  {
    var cp := c as int;
    if cp < 0x80 then [cp as byte]
    else if cp < 0x800 then [(0xC0 + cp / 0x40) as byte, (0x80 + cp % 0x40) as byte]
    else if cp < 0x10000 then
      [(0xE0 + cp / 0x1000) as byte, (0x80 + cp / 0x40 % 0x40) as byte, (0x80 + cp % 0x40) as byte]
    else
      [(0xF0 + cp / 0x40000) as byte, (0x80 + cp / 0x1000 % 0x40) as byte,
       (0x80 + cp / 0x40 % 0x40) as byte, (0x80 + cp % 0x40) as byte]
  }

  /** The number of bytes in a string's UTF-8 encoding. */
  function Utf8Length(s: string): (n: nat)
    ensures |s| <= n <= 4 * |s|
  {
    if |s| == 0 then 0 else Utf8Width(s[0]) + Utf8Length(s[1..])
  }

  /** `str::as_bytes`: the UTF-8 encoding of a string, character by character. */
  function Utf8(s: string): (bytes: seq<byte>)
    ensures |bytes| == Utf8Length(s)
  {
    if |s| == 0 then [] else EncodeChar(s[0]) + Utf8(s[1..])
  }

  /** The byte offset in the UTF-8 encoding at which a string's first NUL starts. */
  function NulBytePosition(s: string): nat
    requires '\0' in s
  {
    Utf8Length(s[..FirstIndex(s, '\0').value])
  }

  /** Searching `a + b` for an `x` that `a` lacks finds it in `b`, shifted by `|a|`. */
  lemma {:induction false} FirstIndexAfter<T>(a: seq<T>, b: seq<T>, x: T)
    requires x !in a
    ensures FirstIndex(a + b, x) == if x in b then Some(|a| + FirstIndex(b, x).value) else None
  {
    if |a| > 0 {
      assert (a + b)[0] == a[0];
      assert (a + b)[1..] == a[1..] + b;
      FirstIndexAfter(a[1..], b, x);
    } else {
      assert a + b == b;
    }
  }

  /** Encoding a concatenation concatenates the encodings. */
  lemma {:induction false} Utf8Append(a: string, b: string)
    ensures Utf8(a + b) == Utf8(a) + Utf8(b)
  {
    if |a| > 0 {
      assert (a + b)[0] == a[0];
      assert (a + b)[1..] == a[1..] + b;
      Utf8Append(a[1..], b);
    } else {
      assert a + b == b;
    }
  }

  /** A string without NUL encodes to bytes without a zero. */
  lemma {:induction false} NoNulNoZeroByte(s: string)
    requires '\0' !in s
    ensures 0 !in Utf8(s)
  {
    if |s| > 0 {
      assert s == [s[0]] + s[1..];
      NoNulNoZeroByte(s[1..]);
    }
  }

  /** The characters before the first NUL are NUL-free. */
  lemma NulFreeBeforeFirstNul(s: string)
    requires '\0' in s
    ensures '\0' !in s[..FirstIndex(s, '\0').value]
  {
    var k := FirstIndex(s, '\0').value;
    forall i | 0 <= i < k
      ensures s[..k][i] != '\0'
    {
      FirstIndexIsFirst(s, '\0', i);
    }
  }

  /** Splitting a string at any index splits its encoding. */
  lemma Utf8Split(s: string, k: nat)
    requires k <= |s|
    ensures Utf8(s) == Utf8(s[..k]) + Utf8(s[k..])
  {
    assert s == s[..k] + s[k..];
    Utf8Append(s[..k], s[k..]);
  }

  /** An `x`-free prefix followed by a sequence that starts with `x` puts the first `x` right after the prefix. */
  lemma FirstIndexAtJoin<T>(a: seq<T>, b: seq<T>, x: T)
    requires x !in a && |b| > 0 && b[0] == x
    ensures FirstIndex(a + b, x) == Some(|a|)
  {
    FirstIndexAfter(a, b, x);
  }

  /** With a NUL in the string, the first zero byte sits at the NUL's byte offset. */
  lemma FirstZeroByteAtNul(s: string)
    requires '\0' in s
    ensures FirstIndex(Utf8(s), 0) == Some(NulBytePosition(s))
  {
    var k := FirstIndex(s, '\0').value;
    Utf8Split(s, k);
    NulFreeBeforeFirstNul(s);
    NoNulNoZeroByte(s[..k]);
    assert Utf8(s[k..])[0] == 0;
    FirstIndexAtJoin(Utf8(s[..k]), Utf8(s[k..]), 0);
  }

  /**
   * The first zero byte of a string's UTF-8 encoding is where the bytes of
   * the characters before its first NUL end; with no NUL there is none.
   */
  lemma FirstZeroByteOfUtf8(s: string)
    ensures FirstIndex(Utf8(s), 0) == if '\0' in s then Some(NulBytePosition(s)) else None
  {
    if '\0' in s {
      FirstZeroByteAtNul(s);
    } else {
      NoNulNoZeroByte(s);
    }
  }

  /** Every character of an ASCII string takes one byte. */
  lemma {:induction false} AsciiUtf8Length(s: string)
    requires forall i :: 0 <= i < |s| ==> s[i] as int < 0x80
    ensures Utf8Length(s) == |s|
  {
    if |s| > 0 {
      AsciiUtf8Length(s[1..]);
    }
  }

  /** In an ASCII name the NUL's byte offset is its character index. */
  lemma AsciiNulPositionIsIndex(s: string)
    requires forall i :: 0 <= i < |s| ==> s[i] as int < 0x80
    requires '\0' in s
    ensures NulBytePosition(s) == FirstIndex(s, '\0').value
  {
    AsciiUtf8Length(s[..FirstIndex(s, '\0').value]);
  }

  /**
   * `init_app_info`: the name's UTF-8 bytes become a C string, which fails
   * at the first zero byte; application and engine are both named after it
   * and versioned with the given version.
   */
  function MakeAppInfo(name: Name, version: Version): (r: Result<AppInfo, VulkanError>)
    ensures r.Err? <==> '\0' in name
    ensures r.Err? ==> r.error == InstanceExtensionsCreationError(Utf8Length(name[..FirstIndex(name, '\0').value]))
    ensures r.Ok? ==> r.value == AppInfo(name, version, name, version, API_VERSION)
  {
    FirstZeroByteOfUtf8(name);
    match FirstIndex(Utf8(name), 0)
    case Some(p) => Err(InstanceExtensionsCreationError(p))
    case None => Ok(AppInfo(name, version, name, version, API_VERSION))
  }

  /** A two-byte character before the NUL puts it at byte 2, not at character 1. */
  lemma NulPositionCountsBytes(v: Version)
    ensures MakeAppInfo("\U{E9}\0", v) == Err(InstanceExtensionsCreationError(2))
  {
    var name := "\U{E9}\0";
    assert FirstIndex(name, '\0') == Some(1);
    assert name[..1] == "\U{E9}";
    assert Utf8Length("\U{E9}") == 2;
  }

  /** `init_instance_create_info`: extensions and layers pass through; the messenger info is chained in debug mode. */
  function MakeCreateInfo(c: InstanceConfig, app: AppInfo): (info: InstanceCreateInfo)
    ensures info.appInfo == app
    ensures info.enabledExtensions == CStringCollection.Names(c.extensions)
    ensures info.enabledLayers == CStringCollection.Names(c.validationLayers)
    ensures info.next.Some? <==> DebugMode(c)
    ensures info.next.Some? ==> info.next.value == DebugUtils.CreateInfo()
  {
    InstanceCreateInfo(app, CStringCollection.Names(c.extensions), CStringCollection.Names(c.validationLayers),
                       if DebugMode(c) then Some(DebugUtils.CreateInfo()) else None)
  }

  /**
   * `InstanceBuilder::build`. `enumeration` answers the layer query (asked
   * only in debug mode); `createInstance` fails with an opaque instance
   * error. `attempted` is the create info handed to the driver.
   */
  method Build(c: InstanceConfig, enumeration: DriverCall<seq<string>>, createInstance: Result<Handle, nat>)
    returns (r: Result<Instance, VulkanError>, attempted: Option<InstanceCreateInfo>)
    ensures DebugMode(c) && enumeration.Err? ==> r == Err(ValidationLayersError(enumeration.error)) && attempted.None?
    ensures DebugMode(c) && enumeration.Ok? &&
      !(forall j :: 0 <= j < |CStringCollection.Names(c.validationLayers)| ==>
          LayerAvailable(enumeration.value, CStringCollection.Names(c.validationLayers)[j]))
      ==> r == Err(ValidationLayersNotAvailable) && attempted.None?
    ensures attempted.Some? ==> '\0' !in c.name
    ensures attempted.Some? ==> attempted.value == MakeCreateInfo(c, AppInfo(c.name, c.version, c.name, c.version, API_VERSION))
    ensures attempted.None? ==> r.Err?
    ensures attempted.Some? && createInstance.Err? ==> r == Err(InstanceCreateError(createInstance.error))
    ensures attempted.Some? && createInstance.Ok? ==> r == Ok(Instance(createInstance.value))
    ensures r.Err? && r.error.InstanceExtensionsCreationError? ==> '\0' in c.name
    ensures !DebugMode(c) && '\0' in c.name ==>
      r == Err(InstanceExtensionsCreationError(NulBytePosition(c.name))) && attempted.None?
    ensures DebugMode(c) && '\0' in c.name && enumeration.Ok? &&
      (forall j :: 0 <= j < |CStringCollection.Names(c.validationLayers)| ==>
          LayerAvailable(enumeration.value, CStringCollection.Names(c.validationLayers)[j]))
      ==> r == Err(InstanceExtensionsCreationError(NulBytePosition(c.name))) && attempted.None?
    ensures !DebugMode(c) && '\0' !in c.name ==> attempted.Some?
    ensures DebugMode(c) && '\0' !in c.name && enumeration.Ok? &&
      (forall j :: 0 <= j < |CStringCollection.Names(c.validationLayers)| ==>
          LayerAvailable(enumeration.value, CStringCollection.Names(c.validationLayers)[j]))
      ==> attempted.Some?
  {
    attempted := None;
    if DebugMode(c) {
      var check := CheckValidationLayers(CStringCollection.Names(c.validationLayers), enumeration);
      if check.Err? {
        return Err(check.error), None;
      }
    }
    var app := MakeAppInfo(c.name, c.version);
    if app.Err? {
      return Err(app.error), None;
    }
    var info := MakeCreateInfo(c, app.value);
    attempted := Some(info);
    match createInstance
    case Err(e) => r := Err(InstanceCreateError(e));
    case Ok(h) => r := Ok(Instance(h));
  }
}

=== FILE: logical_device.dfy ===
/**
 * Logical-device construction: the requested roles' queue-family indices
 * are deduplicated, one queue is requested per distinct family, the
 * physical device's extensions are enabled, and the device and its
 * swapchain loader are created.
 */
module LogicalDevice {
  import opened Wrappers
  import opened Vk
  import CStringCollection
  import opened PhysicalDevice

  /** `DEFAULT_QUEUE_PRIORITIES`. */
  const DEFAULT_QUEUE_PRIORITIES: seq<real> := [1.0]

  datatype QueueCreateInfo = QueueCreateInfo(queueFamilyIndex: nat, priorities: seq<real>)

  datatype DeviceCreateInfo = DeviceCreateInfo(queueCreateInfos: seq<QueueCreateInfo>, enabledExtensions: seq<Name>)

  /** The swapchain extension's function table, bound to one device. */
  datatype SwapchainLoader = SwapchainLoader(device: Handle)

  /** The logical device; it keeps its physical device alive for its whole lifetime. */
  datatype LogicalDevice = LogicalDevice(handle: Handle, swapchainLoader: SwapchainLoader, physicalDevice: SelectedDevice)

  /** Every requested role has a queue family on the device. */
  predicate AllRolesResolve(d: SelectedDevice, families: seq<QueueFamily>) {
    forall k :: 0 <= k < |families| ==> GetQueueFamilyIndex(d, families[k]).Ok?
  }

  /** `families[k]` is the first requested role without a queue family. */
  predicate FirstUnresolved(d: SelectedDevice, families: seq<QueueFamily>, k: int) {
    && 0 <= k < |families|
    && GetQueueFamilyIndex(d, families[k]).Err?
    && forall j :: 0 <= j < k ==> GetQueueFamilyIndex(d, families[j]).Ok?
  }

  /** The families of the requested roles, as a set. */
  ghost function RoleFamilies(d: SelectedDevice, families: seq<QueueFamily>): set<nat> {
    set k | 0 <= k < |families| && GetQueueFamilyIndex(d, families[k]).Ok? :: GetQueueFamilyIndex(d, families[k]).value
  }

  predicate Distinct(xs: seq<nat>) {
    forall i, j :: 0 <= i < j < |xs| ==> xs[i] != xs[j]
  }

  /** Lists the elements of a set once each, in an unspecified order (a `HashSet` drained into a `Vec`). */
  method SetToSeq(s: set<nat>) returns (xs: seq<nat>)
    ensures Distinct(xs)
    ensures forall x :: x in xs <==> x in s
    ensures |xs| == |s|
  {
    xs := [];
    var rest := s;
    while rest != {}
      invariant rest <= s
      invariant Distinct(xs)
      invariant forall x :: x in xs <==> x in s && x !in rest
      invariant |xs| + |rest| == |s|
      decreases |rest|
    {
      var x :| x in rest;
      xs := xs + [x];
      rest := rest - {x};
    }
  }

  /**
   * `init_unique_queue_family_indices`: inserts each requested role's
   * family into a set; the first role without a family aborts with that
   * role's error.
   */
  method InitUniqueQueueFamilyIndices(d: SelectedDevice, families: seq<QueueFamily>)
    returns (r: Result<seq<nat>, VulkanError>)
    ensures r.Ok? <==> AllRolesResolve(d, families)
    ensures r.Err? ==> exists k :: FirstUnresolved(d, families, k) && r.error == QueueFamilyNotSupported(families[k])
    ensures r.Ok? ==> Distinct(r.value) && forall x :: x in r.value <==> x in RoleFamilies(d, families)
  {
    var unique: set<nat> := {};
    var k := 0;
    while k < |families|
      invariant 0 <= k <= |families|
      invariant forall j :: 0 <= j < k ==> GetQueueFamilyIndex(d, families[j]).Ok?
      invariant unique == RoleFamilies(d, families[..k])
    {
      var index := GetQueueFamilyIndex(d, families[k]);
      if index.Err? {
        return Err(index.error);
      }
      assert families[..k + 1] == families[..k] + [families[k]];
      unique := unique + {index.value};
      k := k + 1;
    }
    assert families[..k] == families;
    var xs := SetToSeq(unique);
    return Ok(xs);
  }

  /** `init_queue_create_infos`: one queue of priority 1.0 per distinct family. */
  function QueueCreateInfos(indices: seq<nat>): (infos: seq<QueueCreateInfo>)
    ensures |infos| == |indices|
    ensures forall k :: 0 <= k < |infos| ==>
      infos[k].queueFamilyIndex == indices[k] && infos[k].priorities == DEFAULT_QUEUE_PRIORITIES
  {
    seq(|indices|, k requires 0 <= k < |indices| => QueueCreateInfo(indices[k], DEFAULT_QUEUE_PRIORITIES))
  }

  /**
   * `get_ready_for_creation` followed by `create_logical_device`. The
   * physical device's extension list is cloned into fresh buffers
   * (`addresses`) and its pointers enabled; `createDevice` is the driver's
   * answer. `attempted` is the create info passed to the driver, if the
   * build got that far.
   */
  method Build(d: SelectedDevice, families: seq<QueueFamily>, addresses: seq<nat>, createDevice: DriverCall<Handle>)
    returns (r: Result<LogicalDevice, VulkanError>, attempted: Option<DeviceCreateInfo>)
    requires CStringCollection.Valid(d.requestedExtensions)
    requires |addresses| == |d.requestedExtensions.strings|
    ensures !AllRolesResolve(d, families) ==> r.Err? && r.error.QueueFamilyNotSupported? && attempted.None?
    ensures AllRolesResolve(d, families) ==> attempted.Some?
    ensures attempted.Some? ==>
      var info := attempted.value;
      && (forall i, j :: 0 <= i < j < |info.queueCreateInfos| ==>
            info.queueCreateInfos[i].queueFamilyIndex != info.queueCreateInfos[j].queueFamilyIndex)
      && (forall x :: x in RoleFamilies(d, families) <==>
            exists q :: q in info.queueCreateInfos && q.queueFamilyIndex == x)
      && (forall q :: q in info.queueCreateInfos ==> q.priorities == [1.0])
      && info.enabledExtensions == CStringCollection.Names(d.requestedExtensions)
    ensures attempted.Some? && createDevice.Err? ==> r == Err(LogicalDeviceCreateError(createDevice.error))
    ensures attempted.Some? && createDevice.Ok? ==>
      r == Ok(LogicalDevice(createDevice.value, SwapchainLoader(createDevice.value), d))
  {
    var unique := InitUniqueQueueFamilyIndices(d, families);
    if unique.Err? {
      return Err(unique.error), None;
    }
    var infos := QueueCreateInfos(unique.value);
    var extensions := CStringCollection.Clone(d.requestedExtensions, addresses);
    var info := DeviceCreateInfo(infos, CStringCollection.Names(extensions));
    attempted := Some(info);
    forall x | x in RoleFamilies(d, families)
      ensures exists q :: q in info.queueCreateInfos && q.queueFamilyIndex == x
    {
      var k :| 0 <= k < |unique.value| && unique.value[k] == x;
      assert infos[k] in info.queueCreateInfos;
    }
    match createDevice
    case Err(e) => r := Err(LogicalDeviceCreateError(e));
    case Ok(h) => r := Ok(LogicalDevice(h, SwapchainLoader(h), d));
  }
}

=== FILE: physical_device.dfy ===
/**
 * Physical-device suitability: the derivation of queue-family indices from
 * the per-family capability flags, the role-superset test over those
 * indices, and the device-extension check.
 *
 * The derivation is a left-to-right fold over the families in enumeration
 * order. Each step tries transfer first, then graphics, compute and sparse
 * binding, and finally asks the surface whether the family can present.
 */
module PhysicalDevice {
  import opened Wrappers
  import opened Vk
  import CStringCollection

  /** One bit of a queue family's capability bitset. */
  datatype QueueFlag = GraphicsBit | ComputeBit | TransferBit | SparseBindingBit | ProtectedBit

  type QueueFlags = set<QueueFlag>

  /** The surface's answer to "can queue family `i` present to me?". */
  type PresentationOracle = nat -> bool

  /**
   * The derived indices. `weaklyDedicatedTransfer` records that some
   * TRANSFER-flagged family has been seen; `stronglyDedicatedTransfer` that a
   * family whose flags are exactly TRANSFER has been seen.
   */
  datatype QueueFamilyIndices = QueueFamilyIndices(
    weaklyDedicatedTransfer: bool,
    stronglyDedicatedTransfer: bool,
    graphics: Option<nat>,
    compute: Option<nat>,
    transfer: Option<nat>,
    sparseBinding: Option<nat>,
    presentation: Option<nat>)

  function DefaultIndices(): QueueFamilyIndices {
    QueueFamilyIndices(false, false, None, None, None, None, None)
  }

  /** Reachable index records never hold the strong flag without the weak one. */
  predicate Consistent(s: QueueFamilyIndices) {
    s.stronglyDedicatedTransfer ==> s.weaklyDedicatedTransfer
  }

  /** Every recorded index names one of the first `n` families. */
  predicate InRange(s: QueueFamilyIndices, n: nat) {
    && (s.graphics.Some? ==> s.graphics.value < n)
    && (s.compute.Some? ==> s.compute.value < n)
    && (s.transfer.Some? ==> s.transfer.value < n)
    && (s.sparseBinding.Some? ==> s.sparseBinding.value < n)
    && (s.presentation.Some? ==> s.presentation.value < n)
  }

  /** `try_set_transfer`: a TRANSFER family takes the transfer index unless an exactly-TRANSFER family already holds it. */
  function TrySetTransfer(s: QueueFamilyIndices, flags: QueueFlags, index: nat): (r: QueueFamilyIndices)
    ensures s.stronglyDedicatedTransfer ==> r == s
    ensures !s.stronglyDedicatedTransfer && TransferBit in flags ==>
      r.transfer == Some(index) && r.weaklyDedicatedTransfer
      && (r.stronglyDedicatedTransfer <==> flags == {TransferBit})
    ensures TransferBit !in flags ==> r == s
    ensures r.graphics == s.graphics && r.compute == s.compute
    ensures r.sparseBinding == s.sparseBinding && r.presentation == s.presentation
  {
    if TransferBit in flags && !s.stronglyDedicatedTransfer then
      var r := s.(transfer := Some(index), weaklyDedicatedTransfer := true);
      if flags == {TransferBit} then r.(stronglyDedicatedTransfer := true) else r
    else
      s
  }

  /** `try_set_not_dedicated_transfer`: graphics and compute families stand in for transfer until a TRANSFER family is seen. */
  function TrySetNotDedicatedTransfer(s: QueueFamilyIndices, index: nat): (r: QueueFamilyIndices)
    ensures s.weaklyDedicatedTransfer ==> r == s
    ensures !s.weaklyDedicatedTransfer ==> r == s.(transfer := Some(index))
  {
    if !s.weaklyDedicatedTransfer then s.(transfer := Some(index)) else s
  }

  /** `try_set_graphics`. */
  function TrySetGraphics(s: QueueFamilyIndices, flags: QueueFlags, index: nat): (r: QueueFamilyIndices)
    ensures r.graphics == (if GraphicsBit in flags then Some(index) else s.graphics)
    ensures r.weaklyDedicatedTransfer == s.weaklyDedicatedTransfer
    ensures r.stronglyDedicatedTransfer == s.stronglyDedicatedTransfer
    ensures r.transfer == (if GraphicsBit in flags && !s.weaklyDedicatedTransfer then Some(index) else s.transfer)
  {
    if GraphicsBit in flags then TrySetNotDedicatedTransfer(s.(graphics := Some(index)), index) else s
  }

  /** `try_set_compute`. */
  function TrySetCompute(s: QueueFamilyIndices, flags: QueueFlags, index: nat): (r: QueueFamilyIndices)
    ensures r.compute == (if ComputeBit in flags then Some(index) else s.compute)
    ensures r.weaklyDedicatedTransfer == s.weaklyDedicatedTransfer
    ensures r.stronglyDedicatedTransfer == s.stronglyDedicatedTransfer
    ensures r.transfer == (if ComputeBit in flags && !s.weaklyDedicatedTransfer then Some(index) else s.transfer)
  {
    if ComputeBit in flags then TrySetNotDedicatedTransfer(s.(compute := Some(index)), index) else s
  }

  /** `try_set_sparse_binding`. */
  function TrySetSparseBinding(s: QueueFamilyIndices, flags: QueueFlags, index: nat): (r: QueueFamilyIndices)
    ensures r.sparseBinding == (if SparseBindingBit in flags then Some(index) else s.sparseBinding)
    ensures r == s.(sparseBinding := r.sparseBinding)
  {
    if SparseBindingBit in flags then s.(sparseBinding := Some(index)) else s
  }

  /** `update_vulkan_family_support`: transfer first, then graphics, compute and sparse binding. */
  function UpdateVulkanFamilySupport(s: QueueFamilyIndices, flags: QueueFlags, index: nat): (r: QueueFamilyIndices)
    ensures r.graphics == (if GraphicsBit in flags then Some(index) else s.graphics)
    ensures r.compute == (if ComputeBit in flags then Some(index) else s.compute)
    ensures r.sparseBinding == (if SparseBindingBit in flags then Some(index) else s.sparseBinding)
    ensures r.transfer == s.transfer || r.transfer == Some(index)
    ensures r.presentation == s.presentation
    ensures Consistent(s) ==> Consistent(r)
  {
    TrySetSparseBinding(TrySetCompute(TrySetGraphics(TrySetTransfer(s, flags, index), flags, index), flags, index), flags, index)
  }

  /** `update_surface_support`. */
  function UpdateSurfaceSupport(s: QueueFamilyIndices, index: nat, presentable: PresentationOracle): (r: QueueFamilyIndices)
    ensures r == s.(presentation := r.presentation)
    ensures r.presentation == (if presentable(index) then Some(index) else s.presentation)
  {
    if presentable(index) then s.(presentation := Some(index)) else s
  }

  /** `update_family_support`: the presentation query runs only when a surface is given. */
  function UpdateFamilySupport(s: QueueFamilyIndices, flags: QueueFlags, index: nat, surface: Option<PresentationOracle>)
    : (r: QueueFamilyIndices)
    ensures r.(presentation := s.presentation) == UpdateVulkanFamilySupport(s, flags, index)
    ensures r.presentation == (if surface.Some? && surface.value(index) then Some(index) else s.presentation)
  {
    var r := UpdateVulkanFamilySupport(s, flags, index);
    match surface
    case Some(presentable) => UpdateSurfaceSupport(r, index, presentable)
    case None => r
  }

  /** The fold over the first `n` families. */
  function FoldFamilies(families: seq<QueueFlags>, n: nat, surface: Option<PresentationOracle>): (r: QueueFamilyIndices)
    requires n <= |families|
    ensures Consistent(r)
    ensures InRange(r, n)
    ensures surface.None? ==> r.presentation.None?
  {
    if n == 0 then DefaultIndices()
    else UpdateFamilySupport(FoldFamilies(families, n - 1, surface), families[n - 1], n - 1, surface)
  }

  /** `QueueFamilyIndices::from_properties`: the index of a family is its enumeration position. */
  function FromProperties(families: seq<QueueFlags>, surface: Option<PresentationOracle>): (r: QueueFamilyIndices)
    ensures Consistent(r)
    ensures InRange(r, |families|)
    ensures surface.None? ==> r.presentation.None?
  {
    FoldFamilies(families, |families|, surface)
  }

  // ---------------------------------------------------------------------
  // Closed-form description of the fold
  // ---------------------------------------------------------------------

  /** The last of the first `n` families whose flags contain `flag`. */
  function LastWith(families: seq<QueueFlags>, n: nat, flag: QueueFlag): (r: Option<nat>)
    requires n <= |families|
    ensures r.Some? ==> r.value < n && flag in families[r.value]
    ensures r.Some? ==> forall j :: r.value < j < n ==> flag !in families[j]
    ensures r.None? ==> forall j :: 0 <= j < n ==> flag !in families[j]
  {
    if n == 0 then None
    else if flag in families[n - 1] then Some(n - 1)
    else LastWith(families, n - 1, flag)
  }

  /** The last of the first `n` families that supports graphics or compute. */
  function LastGraphicsOrCompute(families: seq<QueueFlags>, n: nat): (r: Option<nat>)
    requires n <= |families|
    ensures r.Some? ==> r.value < n && (GraphicsBit in families[r.value] || ComputeBit in families[r.value])
    ensures r.Some? ==> forall j :: r.value < j < n ==> GraphicsBit !in families[j] && ComputeBit !in families[j]
    ensures r.None? ==> forall j :: 0 <= j < n ==> GraphicsBit !in families[j] && ComputeBit !in families[j]
  {
    if n == 0 then None
    else if GraphicsBit in families[n - 1] || ComputeBit in families[n - 1] then Some(n - 1)
    else LastGraphicsOrCompute(families, n - 1)
  }

  /** The first of the first `n` families whose flags are exactly TRANSFER. */
  function FirstExactTransfer(families: seq<QueueFlags>, n: nat): (r: Option<nat>)
    requires n <= |families|
    ensures r.Some? ==> r.value < n && families[r.value] == {TransferBit}
    ensures r.Some? ==> forall j :: 0 <= j < r.value ==> families[j] != {TransferBit}
    ensures r.None? ==> forall j :: 0 <= j < n ==> families[j] != {TransferBit}
  {
    if n == 0 then None
    else if FirstExactTransfer(families, n - 1).Some? then FirstExactTransfer(families, n - 1)
    else if families[n - 1] == {TransferBit} then Some(n - 1)
    else None
  }

  /** The last index below `n` that the surface accepts. */
  function LastPresentable(presentable: PresentationOracle, n: nat): (r: Option<nat>)
    ensures r.Some? ==> r.value < n && presentable(r.value)
    ensures r.Some? ==> forall j :: r.value < j < n ==> !presentable(j)
    ensures r.None? ==> forall j :: 0 <= j < n ==> !presentable(j)
  {
    if n == 0 then None
    else if presentable(n - 1) then Some(n - 1)
    else LastPresentable(presentable, n - 1)
  }

  /**
   * The transfer rule in closed form: the first exactly-TRANSFER family;
   * else the last TRANSFER-flagged family; else the last graphics-or-compute
   * family; else none.
   */
  function ExpectedTransfer(families: seq<QueueFlags>, n: nat): Option<nat>
    requires n <= |families|
  {
    if FirstExactTransfer(families, n).Some? then FirstExactTransfer(families, n)
    else if LastWith(families, n, TransferBit).Some? then LastWith(families, n, TransferBit)
    else LastGraphicsOrCompute(families, n)
  }

  /** The whole record in closed form, as an independent reference for the fold. */
  function ExpectedIndices(families: seq<QueueFlags>, n: nat, surface: Option<PresentationOracle>): QueueFamilyIndices
    requires n <= |families|
  {
    QueueFamilyIndices(
      weaklyDedicatedTransfer := LastWith(families, n, TransferBit).Some?,
      stronglyDedicatedTransfer := FirstExactTransfer(families, n).Some?,
      graphics := LastWith(families, n, GraphicsBit),
      compute := LastWith(families, n, ComputeBit),
      transfer := ExpectedTransfer(families, n),
      sparseBinding := LastWith(families, n, SparseBindingBit),
      presentation := match surface
        case Some(presentable) => LastPresentable(presentable, n)
        case None => None)
  }

  /** One step of the fold, field by field. */
  lemma VulkanStep(s: QueueFamilyIndices, flags: QueueFlags, index: nat)
    requires Consistent(s)
    ensures var r := UpdateVulkanFamilySupport(s, flags, index);
      && Consistent(r)
      && r.weaklyDedicatedTransfer == (s.weaklyDedicatedTransfer || TransferBit in flags)
      && r.stronglyDedicatedTransfer == (s.stronglyDedicatedTransfer || flags == {TransferBit})
      && r.transfer == (
        if s.stronglyDedicatedTransfer then s.transfer
        else if TransferBit in flags then Some(index)
        else if !s.weaklyDedicatedTransfer && (GraphicsBit in flags || ComputeBit in flags) then Some(index)
        else s.transfer)
      && r.graphics == (if GraphicsBit in flags then Some(index) else s.graphics)
      && r.compute == (if ComputeBit in flags then Some(index) else s.compute)
      && r.sparseBinding == (if SparseBindingBit in flags then Some(index) else s.sparseBinding)
      && r.presentation == s.presentation
  {
    if flags == {TransferBit} {
      assert TransferBit in flags;
    }
  }

  /** The closed form over `n` families follows from the closed form over `n - 1` by one fold step. */
  lemma StepMatchesClosedForm(families: seq<QueueFlags>, n: nat, surface: Option<PresentationOracle>)
    requires 0 < n <= |families|
    ensures UpdateFamilySupport(ExpectedIndices(families, n - 1, surface), families[n - 1], n - 1, surface)
      == ExpectedIndices(families, n, surface)
  {
    var s := ExpectedIndices(families, n - 1, surface);
    var e := ExpectedIndices(families, n, surface);
    var flags := families[n - 1];
    if s.stronglyDedicatedTransfer {
      assert LastWith(families, n - 1, TransferBit).Some?;
    }
    VulkanStep(s, flags, n - 1);
    var u := UpdateVulkanFamilySupport(s, flags, n - 1);
    assert u.weaklyDedicatedTransfer == e.weaklyDedicatedTransfer;
    assert u.stronglyDedicatedTransfer == e.stronglyDedicatedTransfer;
    assert u.transfer == e.transfer;
  }

  /** The fold over any prefix equals the closed form over that prefix. */
  lemma {:induction false} FoldMatchesClosedForm(families: seq<QueueFlags>, n: nat, surface: Option<PresentationOracle>)
    requires n <= |families|
    ensures FoldFamilies(families, n, surface) == ExpectedIndices(families, n, surface)
  {
    if n > 0 {
      FoldMatchesClosedForm(families, n - 1, surface);
      StepMatchesClosedForm(families, n, surface);
    }
  }

  /** `from_properties` in closed form. */
  lemma FromPropertiesClosedForm(families: seq<QueueFlags>, surface: Option<PresentationOracle>)
    ensures FromProperties(families, surface) == ExpectedIndices(families, |families|, surface)
    ensures FromProperties(families, surface).transfer == ExpectedTransfer(families, |families|)
    ensures FromProperties(families, surface).graphics == LastWith(families, |families|, GraphicsBit)
    ensures FromProperties(families, surface).compute == LastWith(families, |families|, ComputeBit)
    ensures FromProperties(families, surface).sparseBinding == LastWith(families, |families|, SparseBindingBit)
    ensures surface.None? ==> FromProperties(families, surface).presentation.None?
    ensures surface.Some? ==> FromProperties(families, surface).presentation == LastPresentable(surface.value, |families|)
  {
    FoldMatchesClosedForm(families, |families|, surface);
  }

  /** The strongly-dedicated flag is raised only by a family whose flags are exactly TRANSFER. */
  lemma StronglyDedicatedOnlyByExactTransfer(s: QueueFamilyIndices, flags: QueueFlags, index: nat, surface: Option<PresentationOracle>)
    requires !s.stronglyDedicatedTransfer
    requires UpdateFamilySupport(s, flags, index, surface).stronglyDedicatedTransfer
    ensures flags == {TransferBit}
    ensures UpdateFamilySupport(s, flags, index, surface).transfer == Some(index)
  {
  }

  /** Once the strongly-dedicated flag is set, no later family moves the transfer index. */
  lemma {:induction false} StronglyDedicatedIsSticky(families: seq<QueueFlags>, m: nat, n: nat, surface: Option<PresentationOracle>)
    requires m <= n <= |families|
    requires FoldFamilies(families, m, surface).stronglyDedicatedTransfer
    ensures FoldFamilies(families, n, surface).stronglyDedicatedTransfer
    ensures FoldFamilies(families, n, surface).transfer == FoldFamilies(families, m, surface).transfer
  {
    if n > m {
      StronglyDedicatedIsSticky(families, m, n - 1, surface);
      FoldMatchesClosedForm(families, n - 1, surface);
      var s := FoldFamilies(families, n - 1, surface);
      assert LastWith(families, n - 1, TransferBit).Some?;
      VulkanStep(s, families[n - 1], n - 1);
    }
  }

  /**
   * Within one family transfer is tried before graphics and compute: a
   * family carrying TRANSFER and GRAPHICS takes the transfer index through
   * the transfer rule, unless an exactly-TRANSFER family came before.
   */
  lemma TransferTriedFirst(s: QueueFamilyIndices, flags: QueueFlags, index: nat, surface: Option<PresentationOracle>)
    requires Consistent(s)
    requires TransferBit in flags
    ensures var r := UpdateFamilySupport(s, flags, index, surface);
      (s.stronglyDedicatedTransfer ==> r.transfer == s.transfer) &&
      (!s.stronglyDedicatedTransfer ==> r.transfer == Some(index) && r.weaklyDedicatedTransfer)
  {
  }

  /** The graphics/compute fallback writes transfer only while no TRANSFER family has been seen. */
  lemma FallbackOnlyBeforeTransferFamily(s: QueueFamilyIndices, flags: QueueFlags, index: nat, surface: Option<PresentationOracle>)
    requires TransferBit !in flags
    ensures var r := UpdateFamilySupport(s, flags, index, surface);
      (s.weaklyDedicatedTransfer ==> r.transfer == s.transfer) &&
      (!s.weaklyDedicatedTransfer && (GraphicsBit in flags || ComputeBit in flags) ==> r.transfer == Some(index))
  {
  }

  /** Every recorded index is below the number of families. */
  lemma IndicesInRange(families: seq<QueueFlags>, surface: Option<PresentationOracle>)
    ensures var q := FromProperties(families, surface);
      && (q.graphics.Some? ==> q.graphics.value < |families|)
      && (q.compute.Some? ==> q.compute.value < |families|)
      && (q.transfer.Some? ==> q.transfer.value < |families|)
      && (q.sparseBinding.Some? ==> q.sparseBinding.value < |families|)
      && (q.presentation.Some? ==> q.presentation.value < |families|)
  {
    FromPropertiesClosedForm(families, surface);
  }

  // ---------------------------------------------------------------------
  // Role lookup and the role-superset test
  // ---------------------------------------------------------------------

  /** `get_indice`: the index recorded for a role, read from that role's own field. */
  function GetIndice(q: QueueFamilyIndices, family: QueueFamily): (r: Option<nat>)
    ensures family == Graphics ==> r == q.graphics
    ensures family == Compute ==> r == q.compute
    ensures family == Transfer ==> r == q.transfer
    ensures family == SparseBinding ==> r == q.sparseBinding
    ensures family == Presentation ==> r == q.presentation
  {
    match family
    case Graphics => q.graphics
    case Compute => q.compute
    case Transfer => q.transfer
    case SparseBinding => q.sparseBinding
    case Presentation => q.presentation
  }

  /** `get_family_hash_set`: the roles with an index, never including presentation. */
  function GetFamilySet(q: QueueFamilyIndices): (roles: set<QueueFamily>)
    ensures Presentation !in roles
    ensures forall f :: f in roles <==> f != Presentation && GetIndice(q, f).Some?
  {
    (if q.graphics.Some? then {Graphics} else {})
    + (if q.compute.Some? then {Compute} else {})
    + (if q.transfer.Some? then {Transfer} else {})
    + (if q.sparseBinding.Some? then {SparseBinding} else {})
  }

  /** `does_support_families`: a superset test over `GetFamilySet`. */
  function DoesSupportFamilies(q: QueueFamilyIndices, required: set<QueueFamily>): (b: bool)
    ensures b ==> forall f :: f in required ==> f != Presentation && GetIndice(q, f).Some?
  {
    GetFamilySet(q) >= required
  }

  /** Support means every required role but presentation has an index; requiring presentation always fails. */
  lemma DoesSupportFamiliesMeaning(q: QueueFamilyIndices, required: set<QueueFamily>)
    ensures DoesSupportFamilies(q, required) <==>
      forall f :: f in required ==> f != Presentation && GetIndice(q, f).Some?
    ensures Presentation in required ==> !DoesSupportFamilies(q, required)
  {
  }

  /**
   * A selected physical device as its users see it: its handle, its
   * derived queue-family indices and the extension names it was selected
   * with.
   */
  datatype SelectedDevice = SelectedDevice(
    handle: Handle,
    indices: QueueFamilyIndices,
    requestedExtensions: CStringCollection.Collection)

  /** The index of a role's queue family; a role without one is `QueueFamilyNotSupported`. */
  function GetQueueFamilyIndex(d: SelectedDevice, family: QueueFamily): (r: Result<nat, VulkanError>)
    ensures r.Ok? <==> GetIndice(d.indices, family).Some?
    ensures r.Ok? ==> r.value == GetIndice(d.indices, family).value
    ensures r.Err? ==> r.error == QueueFamilyNotSupported(family)
  {
    match GetIndice(d.indices, family)
    case Some(i) => Ok(i)
    case None => Err(QueueFamilyNotSupported(family))
  }

  // ---------------------------------------------------------------------
  // Device extensions
  // ---------------------------------------------------------------------

  /** `CStr::from_ptr` over a fixed-size name array: the characters before the first NUL. */
  function CStrFromArray(raw: string): (s: string)
    ensures |s| <= |raw| && s == raw[..|s|]
    ensures forall i :: 0 <= i < |s| ==> s[i] != '\0'
    ensures |s| < |raw| ==> raw[|s|] == '\0'
  {
    if |raw| == 0 || raw[0] == '\0' then ""
    else [raw[0]] + CStrFromArray(raw[1..])
  }

  /** A required extension is supported when some device extension name equals it. */
  ghost predicate ExtensionSupported(deviceExtensions: seq<string>, required: string) {
    exists k :: 0 <= k < |deviceExtensions| && CStrFromArray(deviceExtensions[k]) == required
  }

  /** `is_extension_supported`: scans the device's names, stopping at the first equal one. */
  method IsExtensionSupported(deviceExtensions: seq<string>, required: string) returns (found: bool)
    ensures found <==> ExtensionSupported(deviceExtensions, required)
  {
    found := false;
    var k := 0;
    while k < |deviceExtensions|
      invariant 0 <= k <= |deviceExtensions|
      invariant !found
      invariant forall j :: 0 <= j < k ==> CStrFromArray(deviceExtensions[j]) != required
    {
      if CStrFromArray(deviceExtensions[k]) == required {
        found := true;
        return;
      }
      k := k + 1;
    }
  }

  /**
   * `are_required_extensions_supported`: enumerates the device's
   * extensions (a failure becomes an `OperationFailed` error) and returns
   * false at the first required name the device lacks.
   */
  method AreRequiredExtensionsSupported(enumeration: DriverCall<seq<string>>, required: seq<string>)
    returns (r: Result<bool, VulkanError>)
    ensures enumeration.Err? ==> r == Err(OperationFailed("enumerate physical device extensions", enumeration.error))
    ensures enumeration.Ok? ==> r.Ok?
    ensures enumeration.Ok? ==>
      (r.value <==> forall j :: 0 <= j < |required| ==> ExtensionSupported(enumeration.value, required[j]))
  {
    if enumeration.Err? {
      return Err(OperationFailed("enumerate physical device extensions", enumeration.error));
    }
    var device := enumeration.value;
    var j := 0;
    while j < |required|
      invariant 0 <= j <= |required|
      invariant forall i :: 0 <= i < j ==> ExtensionSupported(device, required[i])
    {
      var supported := IsExtensionSupported(device, required[j]);
      if !supported {
        return Ok(false);
      }
      j := j + 1;
    }
    return Ok(true);
  }

  /**
   * The suitability predicate of the device scan: the queue-family test
   * (with the selector's surface) and then, only if that passed, the
   * extension test.
   */
  method IsDeviceSuitable(
    families: seq<QueueFlags>, presentable: PresentationOracle, requiredFamilies: set<QueueFamily>,
    enumeration: DriverCall<seq<string>>, requiredExtensions: seq<string>)
    returns (r: Result<bool, VulkanError>)
    ensures !DoesSupportFamilies(FromProperties(families, Some(presentable)), requiredFamilies) ==> r == Ok(false)
    ensures DoesSupportFamilies(FromProperties(families, Some(presentable)), requiredFamilies) && enumeration.Err? ==>
      r == Err(OperationFailed("enumerate physical device extensions", enumeration.error))
    ensures DoesSupportFamilies(FromProperties(families, Some(presentable)), requiredFamilies) && enumeration.Ok? ==>
      r.Ok?
    ensures r == Ok(true) <==>
      && DoesSupportFamilies(FromProperties(families, Some(presentable)), requiredFamilies)
      && enumeration.Ok?
      && forall j :: 0 <= j < |requiredExtensions| ==> ExtensionSupported(enumeration.value, requiredExtensions[j])
  {
    if !DoesSupportFamilies(FromProperties(families, Some(presentable)), requiredFamilies) {
      return Ok(false);
    }
    r := AreRequiredExtensionsSupported(enumeration, requiredExtensions);
  }

  // ---------------------------------------------------------------------
  // Worked inputs
  // ---------------------------------------------------------------------

  /**
   * `[GRAPHICS, COMPUTE|TRANSFER]`: the later TRANSFER-flagged family takes
   * the transfer index; the graphics family only held it until then.
   */
  lemma GraphicsThenComputeTransfer()
    ensures FromProperties([{GraphicsBit}, {ComputeBit, TransferBit}], None).transfer == Some(1)
    ensures FromProperties([{GraphicsBit}, {ComputeBit, TransferBit}], None).graphics == Some(0)
    ensures !FromProperties([{GraphicsBit}, {ComputeBit, TransferBit}], None).stronglyDedicatedTransfer
  {
    FromPropertiesClosedForm([{GraphicsBit}, {ComputeBit, TransferBit}], None);
    assert {ComputeBit, TransferBit} != {TransferBit} by {
      assert ComputeBit in {ComputeBit, TransferBit};
    }
  }

  /**
   * Two families, `GRAPHICS|TRANSFER` (presentable) and exactly `TRANSFER`
   * (not presentable): family 1 is the strongly dedicated transfer family,
   * family 0 serves graphics and presentation, and {Graphics, Transfer} is
   * supported.
   */
  lemma DedicatedTransferScenario()
    ensures var q := FromProperties([{GraphicsBit, TransferBit}, {TransferBit}], Some(i => i == 0));
      && q.transfer == Some(1) && q.stronglyDedicatedTransfer
      && q.graphics == Some(0) && q.presentation == Some(0)
      && DoesSupportFamilies(q, {Graphics, Transfer})
  {
    var families := [{GraphicsBit, TransferBit}, {TransferBit}];
    FromPropertiesClosedForm(families, Some(i => i == 0));
    assert families[0] != {TransferBit} by {
      assert GraphicsBit in families[0];
    }
  }
}

=== FILE: pipeline.dfy ===
/**
 * The graphics pipeline: fixed-function state derived from the swapchain
 * extent, the shader stage list, the pipeline layout and the pipeline.
 */
module Pipeline {
  import opened Wrappers
  import opened Vk
  import opened Shader

  /** `MAX_SHADER_STAGES`. */
  const MAX_SHADER_STAGES: nat := 3

  datatype Topology = TriangleList
  datatype PolygonMode = Fill
  datatype CullMode = CullNone
  datatype FrontFace = Clockwise
  datatype LogicOp = Copy
  datatype ColorComponent = R | G | B | A

  /** Vertex bindings and attributes are opaque: the engine supplies none. */
  datatype VertexInputState = VertexInputState(bindings: seq<nat>, attributes: seq<nat>)

  datatype InputAssemblyState = InputAssemblyState(topology: Topology, primitiveRestart: bool)

  datatype Viewport = Viewport(x: real, y: real, width: nat, height: nat, minDepth: real, maxDepth: real)

  datatype ViewportState = ViewportState(viewports: seq<Viewport>, scissors: seq<Rect2D>)

  datatype RasterizationState = RasterizationState(
    depthClamp: bool, rasterizerDiscard: bool, polygonMode: PolygonMode, lineWidth: real,
    cullMode: CullMode, frontFace: FrontFace, depthBias: bool)

  datatype MultisampleState = MultisampleState(
    sampleShading: bool, samples: nat, minSampleShading: real, alphaToCoverage: bool, alphaToOne: bool)

  datatype ColorBlendAttachment = ColorBlendAttachment(writeMask: set<ColorComponent>, blendEnable: bool)

  datatype ColorBlendState = ColorBlendState(
    logicOpEnable: bool, logicOp: LogicOp, attachments: seq<ColorBlendAttachment>, blendConstants: seq<real>)

  /** `init_vertex_input_state`: the vertices come from the shaders, not from buffers. */
  function VertexInput(): (s: VertexInputState)
    ensures s.bindings == [] && s.attributes == []
  {
    VertexInputState([], [])
  }

  /** `init_input_assembly_state`. */
  function InputAssembly(): (s: InputAssemblyState)
    ensures s.topology == TriangleList && !s.primitiveRestart
  {
    InputAssemblyState(TriangleList, false)
  }

  /** `init_viewport_state`: one viewport and one scissor, both covering the swapchain image. */
  function ViewportFor(extent: Extent2D): (s: ViewportState)
    ensures |s.viewports| == 1 && |s.scissors| == 1
    ensures s.scissors[0] == Rect2D(Offset2D(0, 0), extent)
    ensures s.viewports[0].width == extent.width && s.viewports[0].height == extent.height
    ensures s.viewports[0].x == 0.0 && s.viewports[0].y == 0.0
  {
    ViewportState([Viewport(0.0, 0.0, extent.width, extent.height, 0.0, 0.0)], [Rect2D(Offset2D(0, 0), extent)])
  }

  /** `init_rasterization_state`. */
  function Rasterization(): (s: RasterizationState)
    ensures s.polygonMode == Fill && s.cullMode == CullNone && s.frontFace == Clockwise
    ensures !s.depthClamp && !s.rasterizerDiscard && !s.depthBias
  {
    RasterizationState(false, false, Fill, 1.0, CullNone, Clockwise, false)
  }

  /** `init_multisample_state`. */
  function Multisample(): (s: MultisampleState)
    ensures s.samples == 1 && !s.sampleShading && !s.alphaToCoverage && !s.alphaToOne
  {
    MultisampleState(false, 1, 1.0, false, false)
  }

  /** `init_color_blend_state`: one attachment written in full, blending off. */
  function ColorBlend(): (s: ColorBlendState)
    ensures |s.attachments| == 1
    ensures s.attachments[0].writeMask == {R, G, B, A} && !s.attachments[0].blendEnable
    ensures !s.logicOpEnable
  {
    ColorBlendState(false, Copy, [ColorBlendAttachment({R, G, B, A}, false)], [0.0, 0.0, 0.0, 0.0])
  }

  /** The order in which stages are listed. */
  function StageRank(s: ShaderStage): nat {
    match s
    case Geometry => 0
    case Vertex => 1
    case Fragment => 2
  }

  /** `push_shader_stage_if_some`. */
  function PushIfSome(stages: seq<ShaderStageCreateInfo>, shader: Option<Shader>): (r: seq<ShaderStageCreateInfo>)
    ensures shader.None? ==> r == stages
    ensures shader.Some? ==> r == stages + [StageCreateInfo(shader.value)]
  {
    match shader
    case None => stages
    case Some(s) => stages + [StageCreateInfo(s)]
  }

  /** A shader in a slot is of that slot's stage (the slots are typed). */
  predicate InSlot(shader: Option<Shader>, stage: ShaderStage) {
    shader.Some? ==> shader.value.stage == stage
  }

  function SlotFor(stage: ShaderStage, geometry: Option<Shader>, vertex: Option<Shader>, fragment: Option<Shader>): Option<Shader> {
    match stage
    case Geometry => geometry
    case Vertex => vertex
    case Fragment => fragment
  }

  /** The stage list of `init_vk_pipeline`: geometry, vertex and fragment shaders pushed if present. */
  function StageList(geometry: Option<Shader>, vertex: Option<Shader>, fragment: Option<Shader>)
    : (stages: seq<ShaderStageCreateInfo>)
    ensures |stages| <= MAX_SHADER_STAGES
  {
    PushIfSome(PushIfSome(PushIfSome([], geometry), vertex), fragment)
  }

  /** Stage ranks strictly increase along the list. */
  predicate Ordered(stages: seq<ShaderStageCreateInfo>) {
    forall i, j :: 0 <= i < j < |stages| ==> StageRank(stages[i].stage) < StageRank(stages[j].stage)
  }

  /** Pushing a shader ranked above everything listed keeps the list ordered. */
  lemma PushKeepsOrder(stages: seq<ShaderStageCreateInfo>, shader: Option<Shader>, stage: ShaderStage)
    requires Ordered(stages) && InSlot(shader, stage)
    requires forall k :: 0 <= k < |stages| ==> StageRank(stages[k].stage) < StageRank(stage)
    ensures Ordered(PushIfSome(stages, shader))
    ensures forall k :: 0 <= k < |PushIfSome(stages, shader)| ==> StageRank(PushIfSome(stages, shader)[k].stage) <= StageRank(stage)
  {
  }

  /** The stage list is ordered geometry, vertex, fragment. */
  lemma StageListOrdered(geometry: Option<Shader>, vertex: Option<Shader>, fragment: Option<Shader>)
    requires InSlot(geometry, Geometry) && InSlot(vertex, Vertex) && InSlot(fragment, Fragment)
    ensures Ordered(StageList(geometry, vertex, fragment))
  {
    var s1 := PushIfSome([], geometry);
    PushKeepsOrder([], geometry, Geometry);
    var s2 := PushIfSome(s1, vertex);
    PushKeepsOrder(s1, vertex, Vertex);
    PushKeepsOrder(s2, fragment, Fragment);
  }

  /** A stage is listed exactly when its shader is attached. */
  lemma StageListListsAttached(geometry: Option<Shader>, vertex: Option<Shader>, fragment: Option<Shader>)
    requires InSlot(geometry, Geometry) && InSlot(vertex, Vertex) && InSlot(fragment, Fragment)
    ensures forall stage: ShaderStage :: SlotFor(stage, geometry, vertex, fragment).Some? <==>
      exists k :: 0 <= k < |StageList(geometry, vertex, fragment)| && StageList(geometry, vertex, fragment)[k].stage == stage
  {
    var s1 := PushIfSome([], geometry);
    var s2 := PushIfSome(s1, vertex);
    var s3 := PushIfSome(s2, fragment);
    assert s3 == StageList(geometry, vertex, fragment);
    forall stage: ShaderStage | SlotFor(stage, geometry, vertex, fragment).Some?
      ensures exists k :: 0 <= k < |s3| && s3[k].stage == stage
    {
      match stage
      case Geometry => assert s3[0].stage == stage;
      case Vertex => assert s3[|s1|].stage == stage;
      case Fragment => assert s3[|s2|].stage == stage;
    }
  }

  /** Every listed entry is the create info of the shader attached for its stage. */
  lemma StageListEntries(geometry: Option<Shader>, vertex: Option<Shader>, fragment: Option<Shader>)
    requires InSlot(geometry, Geometry) && InSlot(vertex, Vertex) && InSlot(fragment, Fragment)
    ensures forall k :: 0 <= k < |StageList(geometry, vertex, fragment)| ==>
      var info := StageList(geometry, vertex, fragment)[k];
      SlotFor(info.stage, geometry, vertex, fragment).Some?
      && info == StageCreateInfo(SlotFor(info.stage, geometry, vertex, fragment).value)
  {
  }

  /**
   * The stage list holds the attached shaders ordered geometry, vertex,
   * fragment, each once: a stage is listed exactly when its shader is
   * attached, and then with that shader's create info.
   */
  lemma StageListShape(geometry: Option<Shader>, vertex: Option<Shader>, fragment: Option<Shader>)
    requires InSlot(geometry, Geometry) && InSlot(vertex, Vertex) && InSlot(fragment, Fragment)
    ensures Ordered(StageList(geometry, vertex, fragment))
    ensures forall stage: ShaderStage :: SlotFor(stage, geometry, vertex, fragment).Some? <==>
      exists k :: 0 <= k < |StageList(geometry, vertex, fragment)| && StageList(geometry, vertex, fragment)[k].stage == stage
    ensures forall k :: 0 <= k < |StageList(geometry, vertex, fragment)| ==>
      var info := StageList(geometry, vertex, fragment)[k];
      SlotFor(info.stage, geometry, vertex, fragment).Some?
      && info == StageCreateInfo(SlotFor(info.stage, geometry, vertex, fragment).value)
  {
    StageListOrdered(geometry, vertex, fragment);
    StageListListsAttached(geometry, vertex, fragment);
    StageListEntries(geometry, vertex, fragment);
  }

  /** A push-constant range of a pipeline layout. */
  datatype PushConstantRange = PushConstantRange(stage: ShaderStage, offset: nat, size: nat)

  datatype LayoutCreateInfo = LayoutCreateInfo(setLayouts: seq<Handle>, pushConstantRanges: seq<PushConstantRange>)

  /** `init_pipeline_layout` passes a default create info: no descriptor sets and no push-constant ranges. */
  const EMPTY_LAYOUT := LayoutCreateInfo([], [])

  datatype GraphicsPipelineCreateInfo = GraphicsPipelineCreateInfo(
    stages: seq<ShaderStageCreateInfo>,
    vertexInput: VertexInputState,
    inputAssembly: InputAssemblyState,
    viewport: ViewportState,
    rasterization: RasterizationState,
    multisample: MultisampleState,
    colorBlend: ColorBlendState,
    layout: Handle,
    renderPass: Handle,
    subpass: nat)

  /** What the builder was given: the device, up to three shaders, the swapchain extent, the render pass and subpass. */
  datatype PipelineConfig = PipelineConfig(
    device: Handle,
    geometry: Option<Shader>, vertex: Option<Shader>, fragment: Option<Shader>,
    extent: Extent2D, renderPass: Handle, subpass: nat)
  {
    predicate Typed() {
      InSlot(geometry, Geometry) && InSlot(vertex, Vertex) && InSlot(fragment, Fragment)
    }
  }

  datatype Pipeline = Pipeline(handle: Handle, layout: Handle, device: Handle)

  /** The build's result and the create infos it passed to the driver, in order. */
  datatype BuildOutcome = BuildOutcome(
    pipeline: Result<Pipeline, VulkanError>,
    layoutRequests: seq<LayoutCreateInfo>,
    pipelineRequests: seq<GraphicsPipelineCreateInfo>)

  /**
   * `build`: the fixed states, then the layout, then exactly one graphics
   * pipeline whose only result is kept. A layout failure is
   * `PipelineLayoutCreateError` and no pipeline is requested; a pipeline
   * failure is `PipelineCreateError`.
   */
  function Build(c: PipelineConfig, createLayout: DriverCall<Handle>, createPipeline: DriverCall<Handle>): (o: BuildOutcome)
    ensures o.layoutRequests == [EMPTY_LAYOUT]
    ensures createLayout.Err? ==>
      o.pipeline == Err(PipelineLayoutCreateError(createLayout.error)) && o.pipelineRequests == []
    ensures createLayout.Ok? ==> |o.pipelineRequests| == 1
    ensures createLayout.Ok? ==>
      var info := o.pipelineRequests[0];
      && info.layout == createLayout.value && info.renderPass == c.renderPass && info.subpass == c.subpass
      && info.stages == StageList(c.geometry, c.vertex, c.fragment)
      && info.vertexInput == VertexInput() && info.inputAssembly == InputAssembly()
      && info.rasterization == Rasterization() && info.multisample == Multisample() && info.colorBlend == ColorBlend()
      && info.viewport == ViewportFor(c.extent)
    ensures createLayout.Ok? && createPipeline.Err? ==> o.pipeline == Err(PipelineCreateError(createPipeline.error))
    ensures createLayout.Ok? && createPipeline.Ok? ==>
      o.pipeline == Ok(Pipeline(createPipeline.value, createLayout.value, c.device))
  {
    match createLayout
    case Err(code) => BuildOutcome(Err(PipelineLayoutCreateError(code)), [EMPTY_LAYOUT], [])
    case Ok(layout) =>
      var info := GraphicsPipelineCreateInfo(
        StageList(c.geometry, c.vertex, c.fragment),
        VertexInput(), InputAssembly(), ViewportFor(c.extent), Rasterization(), Multisample(), ColorBlend(),
        layout, c.renderPass, c.subpass);
      match createPipeline
      case Err(code) => BuildOutcome(Err(PipelineCreateError(code)), [EMPTY_LAYOUT], [info])
      case Ok(p) => BuildOutcome(Ok(Pipeline(p, layout, c.device)), [EMPTY_LAYOUT], [info])
  }

  /** A built pipeline's layout carries no push-constant ranges, whatever shaders were attached. */
  lemma LayoutHasNoPushConstantRanges(c: PipelineConfig, createLayout: DriverCall<Handle>, createPipeline: DriverCall<Handle>)
    ensures forall l :: l in Build(c, createLayout, createPipeline).layoutRequests ==> l.pushConstantRanges == []
  {
  }

  datatype Destroy = DestroyPipeline(device: Handle, pipeline: Handle) | DestroyPipelineLayout(device: Handle, layout: Handle)

  /** `Pipeline::drop`: the pipeline goes first, then the layout it was built with. */
  function Drop(p: Pipeline): (events: seq<Destroy>)
    ensures |events| == 2
    ensures events[0] == DestroyPipeline(p.device, p.handle)
    ensures events[1] == DestroyPipelineLayout(p.device, p.layout)
  {
    [DestroyPipeline(p.device, p.handle), DestroyPipelineLayout(p.device, p.layout)]
  }

  /** Dropping a pipeline that `build` produced destroys the driver's pipeline and then the layout it was built with. */
  lemma DropUndoesBuild(c: PipelineConfig, l: Handle, p: Handle)
    ensures Build(c, Ok(l), Ok(p)).pipeline.Ok?
    ensures Drop(Build(c, Ok(l), Ok(p)).pipeline.value) == [DestroyPipeline(c.device, p), DestroyPipelineLayout(c.device, l)]
  {
    var o := Build(c, Ok(l), Ok(p));
    assert o.pipeline == Ok(Pipeline(p, l, c.device));
  }
}

=== FILE: render_pass.dfy ===
/**
 * The render pass: one colour attachment cleared on load and kept for
 * presentation, one graphics subpass writing it, and one dependency that
 * orders the subpass's colour writes after the presentation engine's use
 * of the image.
 */
module RenderPass {
  import opened Wrappers
  import opened Vk

  datatype LoadOp = LoadClear | LoadDontCare
  datatype StoreOp = StoreStore | StoreDontCare
  datatype ImageLayout = Undefined | ColorAttachmentOptimal | PresentSrc
  datatype BindPoint = GraphicsBindPoint
  datatype Access = ColorAttachmentWrite

  /** A swapchain image format, as the driver numbers it. */
  type Format = nat

  datatype AttachmentDescription = AttachmentDescription(
    format: Format, samples: nat,
    loadOp: LoadOp, storeOp: StoreOp, stencilLoadOp: LoadOp, stencilStoreOp: StoreOp,
    initialLayout: ImageLayout, finalLayout: ImageLayout)

  datatype AttachmentReference = AttachmentReference(attachment: nat, layout: ImageLayout)

  datatype SubpassDescription = SubpassDescription(bindPoint: BindPoint, colorAttachments: seq<AttachmentReference>)

  /** `SUBPASS_EXTERNAL` or the index of a subpass of this render pass. */
  datatype SubpassRef = External | Subpass(index: nat)

  datatype SubpassDependency = SubpassDependency(
    src: SubpassRef, dst: SubpassRef,
    srcStages: set<PipelineStage>, srcAccess: set<Access>,
    dstStages: set<PipelineStage>, dstAccess: set<Access>)

  datatype RenderPassCreateInfo = RenderPassCreateInfo(
    attachments: seq<AttachmentDescription>,
    subpasses: seq<SubpassDescription>,
    dependencies: seq<SubpassDependency>)

  predicate RefersToSubpass(info: RenderPassCreateInfo, r: SubpassRef) {
    r.Subpass? ==> r.index < |info.subpasses|
  }

  /**
   * What the driver requires of a render pass description: every colour
   * reference names an existing attachment, every dependency names
   * existing subpasses, and every attachment has at least one sample.
   */
  predicate WellFormed(info: RenderPassCreateInfo) {
    && (forall a :: a in info.attachments ==> a.samples >= 1)
    && (forall s, ref :: s in info.subpasses && ref in s.colorAttachments ==> ref.attachment < |info.attachments|)
    && (forall d :: d in info.dependencies ==> RefersToSubpass(info, d.src) && RefersToSubpass(info, d.dst))
  }

  /** `init_attachment_descriptions`: the one swapchain-image attachment. */
  function AttachmentDescriptions(format: Format): (a: seq<AttachmentDescription>)
    ensures |a| == 1 && a[0].format == format && a[0].samples == 1
    ensures a[0].loadOp == LoadClear && a[0].storeOp == StoreStore
    ensures a[0].stencilLoadOp == LoadDontCare && a[0].stencilStoreOp == StoreDontCare
    ensures a[0].initialLayout == Undefined && a[0].finalLayout == PresentSrc
  {
    [AttachmentDescription(format, 1, LoadClear, StoreStore, LoadDontCare, StoreDontCare, Undefined, PresentSrc)]
  }

  /** `init_attachment_references`. */
  function AttachmentReferences(): (refs: seq<AttachmentReference>)
    ensures refs == [AttachmentReference(0, ColorAttachmentOptimal)]
  {
    [AttachmentReference(0, ColorAttachmentOptimal)]
  }

  /** `init_subpass_descriptions`. */
  function SubpassDescriptions(): (s: seq<SubpassDescription>)
    ensures |s| == 1 && s[0].bindPoint == GraphicsBindPoint && s[0].colorAttachments == AttachmentReferences()
  {
    [SubpassDescription(GraphicsBindPoint, AttachmentReferences())]
  }

  /** `init_subpass_dependencies`. */
  function SubpassDependencies(): (d: seq<SubpassDependency>)
    ensures |d| == 1 && d[0].src == External && d[0].dst == Subpass(0)
    ensures d[0].srcStages == {ColorAttachmentOutput} && d[0].dstStages == {ColorAttachmentOutput}
    ensures d[0].srcAccess == {} && d[0].dstAccess == {ColorAttachmentWrite}
  {
    [SubpassDependency(External, Subpass(0), {ColorAttachmentOutput}, {}, {ColorAttachmentOutput}, {ColorAttachmentWrite})]
  }

  /** The create info `init_vk_render_pass` passes to the driver. */
  function CreateInfo(format: Format): (info: RenderPassCreateInfo)
    ensures info.attachments == AttachmentDescriptions(format)
    ensures info.subpasses == SubpassDescriptions()
    ensures info.dependencies == SubpassDependencies()
  {
    RenderPassCreateInfo(AttachmentDescriptions(format), SubpassDescriptions(), SubpassDependencies())
  }

  /** The description the builder produces is well formed for every image format. */
  lemma CreateInfoIsWellFormed(format: Format)
    ensures WellFormed(CreateInfo(format))
  {
    var info := CreateInfo(format);
    forall s, ref | s in info.subpasses && ref in s.colorAttachments
      ensures ref.attachment < |info.attachments|
    {
      assert s == info.subpasses[0];
    }
  }

  datatype RenderPass = RenderPass(handle: Handle, device: Handle)

  /** The outcome of `build`, with the create info handed to the driver. */
  datatype BuildOutcome = BuildOutcome(pass: Result<RenderPass, VulkanError>, attempted: RenderPassCreateInfo)

  /**
   * `build`: the driver is handed the attachment, subpass and dependency
   * lists for the swapchain's image format; a driver failure is
   * `RenderPassCreateError`.
   */
  function Build(device: Handle, format: Format, create: DriverCall<Handle>): (o: BuildOutcome)
    ensures o.attempted == CreateInfo(format)
    ensures |o.attempted.attachments| == 1 && o.attempted.attachments[0].format == format
    ensures WellFormed(o.attempted)
    ensures create.Ok? <==> o.pass.Ok?
    ensures o.pass.Ok? ==> o.pass.value == RenderPass(create.value, device)
    ensures o.pass.Err? ==> o.pass.error == RenderPassCreateError(create.error)
  {
    CreateInfoIsWellFormed(format);
    var info := CreateInfo(format);
    match create
    case Err(code) => BuildOutcome(Err(RenderPassCreateError(code)), info)
    case Ok(h) => BuildOutcome(Ok(RenderPass(h, device)), info)
  }
}

=== FILE: render_state.dfy ===
/**
 * Render states: a shared pipeline plus at most one push-constant payload
 * per shader stage, and the builder that creates the pipeline from the
 * shaders it was given.
 */
module RenderState {
  import opened Wrappers
  import opened Vk
  import opened Shader
  import Pipeline
  import CommandBuffer

  type Payload = CommandBuffer.PushPayload

  /** A render state: its pipeline and its per-stage push-constant payloads. */
  datatype RenderState = RenderState(pipeline: Pipeline.Pipeline, shaders: map<ShaderStage, Payload>)

  /** `r` is `rs` with the payload of `stage` set to `payload`: the pipeline and every other stage are untouched. */
  predicate ReplacesOnly(rs: RenderState, r: RenderState, stage: ShaderStage, payload: Payload) {
    && r.pipeline == rs.pipeline
    && r.shaders.Keys == rs.shaders.Keys + {stage}
    && stage in r.shaders && r.shaders[stage] == payload
    && forall s :: s in rs.shaders && s != stage ==> r.shaders[s] == rs.shaders[s]
  }

  /** `HashMap::insert` under one stage. */
  function Insert(rs: RenderState, stage: ShaderStage, payload: Payload): (r: RenderState)
    ensures ReplacesOnly(rs, r, stage, payload)
  {
    rs.(shaders := rs.shaders[stage := payload])
  }

  /** `push_geometry_constants`. */
  function PushGeometryConstants(rs: RenderState, payload: Payload): (r: RenderState)
    ensures ReplacesOnly(rs, r, Geometry, payload)
  {
    Insert(rs, Geometry, payload)
  }

  /** `push_vertex_constants`. */
  function PushVertexConstants(rs: RenderState, payload: Payload): (r: RenderState)
    ensures ReplacesOnly(rs, r, Vertex, payload)
  {
    Insert(rs, Vertex, payload)
  }

  /** `push_fragment_constants`. */
  function PushFragmentConstants(rs: RenderState, payload: Payload): (r: RenderState)
    ensures ReplacesOnly(rs, r, Fragment, payload)
  {
    Insert(rs, Fragment, payload)
  }

  /** `pipeline()`: the state's one shared pipeline. */
  function PipelineOf(rs: RenderState): (p: Pipeline.Pipeline)
    ensures p == rs.pipeline
  {
    rs.pipeline
  }

  /** A map keyed by shader stages has at most three entries. */
  lemma AtMostThreeStages<V>(m: map<ShaderStage, V>)
    ensures |m| <= 3
  {
    var all: set<ShaderStage> := {Geometry, Vertex, Fragment};
    assert m.Keys <= all by {
      forall s | s in m.Keys ensures s in all {
        match s
        case Geometry =>
        case Vertex =>
        case Fragment =>
      }
    }
    SubsetCardinality(m.Keys, all);
  }

  lemma {:induction false} SubsetCardinality<T>(a: set<T>, b: set<T>)
    requires a <= b
    ensures |a| <= |b|
    decreases |b|
  {
    if a != {} {
      var x :| x in a;
      SubsetCardinality(a - {x}, b - {x});
    }
  }

  /** Pushing never removes an entry: the payload map only grows, and never past three. */
  lemma PushNeverShrinks(rs: RenderState, stage: ShaderStage, payload: Payload)
    ensures |rs.shaders| <= |Insert(rs, stage, payload).shaders| <= 3
  {
    var r := Insert(rs, stage, payload);
    assert rs.shaders.Keys <= r.shaders.Keys;
    SubsetCardinality(rs.shaders.Keys, r.shaders.Keys);
    AtMostThreeStages(r.shaders);
  }

  function Entry(m: map<ShaderStage, Payload>, stage: ShaderStage): seq<(ShaderStage, Payload)> {
    if stage in m then [(stage, m[stage])] else []
  }

  lemma EntriesCoverMap(m: map<ShaderStage, Payload>)
    ensures forall stage | stage in m ::
      (stage, m[stage]) in Entry(m, Geometry) + Entry(m, Vertex) + Entry(m, Fragment)
  {
    forall stage | stage in m
      ensures (stage, m[stage]) in Entry(m, Geometry) + Entry(m, Vertex) + Entry(m, Fragment)
    {
      assert (stage, m[stage]) in Entry(m, stage);
      match stage
      case Geometry =>
      case Vertex =>
      case Fragment =>
    }
  }

  /**
   * `iterate_shaders`: every (stage, payload) pair of the map, each once.
   * Rust's hash-map order is unspecified; the model lists geometry,
   * vertex, fragment.
   */
  function IterateShaders(rs: RenderState): (pairs: seq<(ShaderStage, Payload)>)
    ensures forall stage, payload :: (stage, payload) in pairs <==> stage in rs.shaders && rs.shaders[stage] == payload
    ensures forall i, j :: 0 <= i < j < |pairs| ==> pairs[i].0 != pairs[j].0
  {
    EntriesCoverMap(rs.shaders);
    Entry(rs.shaders, Geometry) + Entry(rs.shaders, Vertex) + Entry(rs.shaders, Fragment)
  }

  /** The renderer's pieces a render state's pipeline is built against. */
  datatype RendererView = RendererView(device: Handle, extent: Extent2D, renderPass: Handle)

  /** `size_of` the geometry, vertex and fragment payload types. */
  datatype PayloadSizes = PayloadSizes(geometry: nat, vertex: nat, fragment: nat)

  function SizeOf(sizes: PayloadSizes, stage: ShaderStage): nat {
    match stage
    case Geometry => sizes.geometry
    case Vertex => sizes.vertex
    case Fragment => sizes.fragment
  }

  datatype RenderStateBuilder = RenderStateBuilder(
    renderer: RendererView,
    geometry: Option<Shader>, vertex: Option<Shader>, fragment: Option<Shader>,
    sizes: PayloadSizes)

  /**
   * The pipeline builder as `init_pipeline` configures it, with the push-constant
   * sizes registered through `push_constants_size`.
   */
  datatype PipelineRequest = PipelineRequest(config: Pipeline.PipelineConfig, pushConstantSizes: map<ShaderStage, nat>)

  function AddIfSome(req: PipelineRequest, stage: ShaderStage, shader: Option<Shader>, sizes: PayloadSizes): PipelineRequest {
    match shader
    case None => req
    case Some(s) =>
      var c := req.config;
      var c' := match stage
        case Geometry => c.(geometry := Some(s))
        case Vertex => c.(vertex := Some(s))
        case Fragment => c.(fragment := Some(s));
      PipelineRequest(c', req.pushConstantSizes[stage := SizeOf(sizes, stage)])
  }

  /** The slot of `stage` in the builder. */
  function Supplied(b: RenderStateBuilder, stage: ShaderStage): Option<Shader> {
    Pipeline.SlotFor(stage, b.geometry, b.vertex, b.fragment)
  }

  /**
   * `add_shaders_to_pipeline_if_some` and `init_pipeline`: exactly the
   * supplied shaders are attached, each registering its payload type's
   * size; the pipeline is for subpass 0 of the renderer's render pass.
   */
  function Request(b: RenderStateBuilder): (req: PipelineRequest)
    ensures req.config.device == b.renderer.device && req.config.extent == b.renderer.extent
    ensures req.config.renderPass == b.renderer.renderPass && req.config.subpass == 0
    ensures req.config.geometry == b.geometry && req.config.vertex == b.vertex && req.config.fragment == b.fragment
    ensures forall stage :: stage in req.pushConstantSizes <==> Supplied(b, stage).Some?
    ensures forall stage :: stage in req.pushConstantSizes ==> req.pushConstantSizes[stage] == SizeOf(b.sizes, stage)
  {
    var empty := PipelineRequest(Pipeline.PipelineConfig(b.renderer.device, None, None, None,
                                                         b.renderer.extent, b.renderer.renderPass, 0), map[]);
    AddIfSome(AddIfSome(AddIfSome(empty, Geometry, b.geometry, b.sizes), Vertex, b.vertex, b.sizes),
              Fragment, b.fragment, b.sizes)
  }

  /** `build`: the pipeline's failure surfaces through the rendering error; success starts with no payloads. */
  function Build(b: RenderStateBuilder, createLayout: DriverCall<Handle>, createPipeline: DriverCall<Handle>)
    : (r: Result<RenderState, RenderingError>)
    ensures var built := Pipeline.Build(Request(b).config, createLayout, createPipeline).pipeline;
      && (r.Ok? <==> built.Ok?)
      && (r.Ok? ==> r.value.shaders == map[] && r.value.pipeline == built.value)
      && (r.Err? ==> r.error == Vulkan(built.error))
  {
    var pipeline :- Lift(Pipeline.Build(Request(b).config, createLayout, createPipeline).pipeline);
    Ok(RenderState(pipeline, map[]))
  }
}

=== FILE: renderer.dfy ===
/**
 * The renderer's frame pacing. Two frame slots each own a command buffer,
 * an image-acquired semaphore, an image-rendered semaphore and a fence.
 * A frame waits for and resets its slot's fence, acquires a swapchain
 * image, re-records the slot's command buffer, submits it, presents the
 * image and only then moves on to the other slot. GPU work is an abstract
 * log of queue operations; each fence's state is tracked explicitly.
 */
module Renderer {
  import opened Wrappers
  import opened Vk
  import opened Synchronization
  import CommandPool
  import opened CommandBuffer
  import Framebuffers
  import RenderState

  /** `FRAMES_IN_FLIGHT`. */
  const FRAMES_IN_FLIGHT: nat := 2

  /** The vertex count every render state is drawn with. */
  const VERTICES_PER_DRAW: nat := 3

  /** A frame slot and the commands its buffer last finished recording. */
  datatype FrameSlot = FrameSlot(
    commandBuffer: CommandPool.CommandBuffer,
    imageAcquired: Semaphore,
    imageRendered: Semaphore,
    fence: Fence,
    recorded: seq<Command>)

  /** The operations the renderer hands to the GPU, in order. */
  datatype QueueOp =
    | Acquire(swapchain: Handle, timeoutNanos: nat, signalSemaphore: Handle)
    | Submit(queue: Handle, waitSemaphore: Handle, waitStage: PipelineStage,
             commandBuffer: Handle, signalSemaphore: Handle, fence: Handle)
    | Present(queue: Handle, waitSemaphore: Handle, swapchain: Handle, imageIndex: nat)

  datatype Renderer = Renderer(
    device: Handle,
    swapchain: Handle,
    renderPass: Handle,
    framebuffers: Framebuffers.Framebuffers,
    slots: seq<FrameSlot>,
    currentFrame: nat,
    queueLog: seq<QueueOp>)

  /** There are exactly `FRAMES_IN_FLIGHT` slots and the current frame names one of them. */
  predicate Valid(r: Renderer) {
    |r.slots| == FRAMES_IN_FLIGHT && r.currentFrame < FRAMES_IN_FLIGHT
  }

  // ---------------------------------------------------------------------
  // Construction of the synchronisation objects
  // ---------------------------------------------------------------------

  /**
   * The error of the j-th synchronisation object creation: per slot, an
   * image-acquired semaphore, an image-rendered semaphore, then a fence.
   */
  function CreationError(j: nat, code: VkResult): VulkanError {
    if j % 3 == 2 then FenceCreateError(code) else SemaphoreCreateError(code)
  }

  /** Creation j is the first to fail. */
  predicate FirstCreationFailure(create: nat -> DriverCall<Handle>, j: int) {
    && 0 <= j < 3 * FRAMES_IN_FLIGHT
    && create(j).Err?
    && forall i :: 0 <= i < j ==> create(i).Ok?
  }

  /** Slot k holds the k-th command buffer and the objects of creations 3k, 3k+1 and 3k+2. */
  predicate SlotFromCreations(s: FrameSlot, k: nat, buffers: seq<Handle>, create: nat -> DriverCall<Handle>)
    requires k < |buffers|
  {
    && s.commandBuffer == CommandPool.CommandBuffer(buffers[k], true)
    && create(3 * k).Ok? && s.imageAcquired == Semaphore(create(3 * k).value)
    && create(3 * k + 1).Ok? && s.imageRendered == Semaphore(create(3 * k + 1).value)
    && create(3 * k + 2).Ok? && s.fence == Fence(create(3 * k + 2).value, Signaled)
    && s.recorded == []
  }

  /**
   * The tail of `Renderer::new`: `FRAMES_IN_FLIGHT` command buffers are
   * allocated, submitted once each time they are recorded, then per slot
   * two semaphores and a fence that starts ready. `allocate` and
   * `create(j)` are the driver's answers; the first failure aborts.
   */
  method New(device: Handle, swapchain: Handle, renderPass: Handle, framebuffers: Framebuffers.Framebuffers,
             pool: CommandPool.CommandPool, allocate: DriverCall<seq<Handle>>, create: nat -> DriverCall<Handle>)
    returns (r: Result<Renderer, RenderingError>)
    requires allocate.Ok? ==> |allocate.value| == FRAMES_IN_FLIGHT
    ensures allocate.Err? ==> r == Err(Vulkan(CommandBufferAllocateError(allocate.error)))
    ensures r.Ok? <==> allocate.Ok? && forall j :: 0 <= j < 3 * FRAMES_IN_FLIGHT ==> create(j).Ok?
    ensures r.Ok? ==> Valid(r.value) && r.value.currentFrame == 0 && r.value.queueLog == []
    ensures r.Ok? ==> r.value.framebuffers == framebuffers && r.value.renderPass == renderPass
    ensures r.Ok? ==> r.value.swapchain == swapchain && r.value.device == device
    ensures r.Ok? ==> forall k :: 0 <= k < FRAMES_IN_FLIGHT ==> SlotFromCreations(r.value.slots[k], k, allocate.value, create)
    ensures r.Err? && allocate.Ok? ==>
      exists j :: FirstCreationFailure(create, j) && r.error == Vulkan(CreationError(j, create(j).error))
  {
    var buffers :- Lift(CommandPool.AllocateCommandBuffers(pool, FRAMES_IN_FLIGHT, true, allocate));
    var slots: seq<FrameSlot> := [];
    var k := 0;
    while k < FRAMES_IN_FLIGHT
      invariant 0 <= k <= FRAMES_IN_FLIGHT && |slots| == k
      invariant forall i :: 0 <= i < 3 * k ==> create(i).Ok?
      invariant forall i :: 0 <= i < k ==> SlotFromCreations(slots[i], i, allocate.value, create)
    {
      var acquired := NewSemaphore(create(3 * k));
      if acquired.Err? {
        assert FirstCreationFailure(create, 3 * k);
        return Err(Vulkan(acquired.error));
      }
      var rendered := NewSemaphore(create(3 * k + 1));
      if rendered.Err? {
        assert FirstCreationFailure(create, 3 * k + 1);
        return Err(Vulkan(rendered.error));
      }
      var fence := NewFence(Ready, create(3 * k + 2));
      if fence.Err? {
        assert FirstCreationFailure(create, 3 * k + 2);
        return Err(Vulkan(fence.error));
      }
      slots := slots + [FrameSlot(buffers[k], acquired.value, rendered.value, fence.value, [])];
      k := k + 1;
    }
    r := Ok(Renderer(device, swapchain, renderPass, framebuffers, slots, 0, []));
  }

  // ---------------------------------------------------------------------
  // The recorded command stream
  // ---------------------------------------------------------------------

  /** One push per (stage, payload) pair, in the order given. */
  function PushCommands(pipeline: Handle, pairs: seq<(ShaderStage, RenderState.Payload)>): (cs: seq<Command>)
    ensures |cs| == |pairs|
  {
    seq(|pairs|, k requires 0 <= k < |pairs| => PushConstant(pipeline, pairs[k].0, pairs[k].1))
  }

  /** What one render state contributes: bind its pipeline, push each payload, draw a triangle. */
  function StateCommands(s: RenderState.RenderState): seq<Command> {
    [BindPipeline(GraphicsBindPoint, s.pipeline.handle)]
      + PushCommands(s.pipeline.handle, RenderState.IterateShaders(s))
      + [Draw(VERTICES_PER_DRAW, 1, 0, 0)]
  }

  function StatesCommands(states: seq<RenderState.RenderState>): seq<Command> {
    if states == [] then [] else StateCommands(states[0]) + StatesCommands(states[1..])
  }

  /** The whole stream a frame records into its slot's buffer. */
  function ExpectedStream(r: Renderer, imageIndex: nat, states: seq<RenderState.RenderState>): seq<Command>
    requires imageIndex < |r.framebuffers.handles|
  {
    [BeginRenderPass(r.renderPass, r.framebuffers.handles[imageIndex], Rect2D(Offset2D(0, 0), r.framebuffers.extent),
                     RENDER_CLEAR_VALUES, Inline)]
      + StatesCommands(states)
      + [EndRenderPass]
  }

  /** The push loop of `record_render_state_to_buffer`: one push per pair, appended after what was already recorded. */
  function PushAll(rec: Recorder, pipeline: Handle, pairs: seq<(ShaderStage, RenderState.Payload)>): (r: Recorder)
    ensures r.buffer == rec.buffer && r.recording == rec.recording && r.beginFlags == rec.beginFlags
    ensures |r.commands| == |rec.commands| + |pairs| && rec.commands <= r.commands
    decreases |pairs|
  {
    if pairs == [] then rec else PushAll(Push(rec, pipeline, pairs[0].0, pairs[0].1), pipeline, pairs[1..])
  }

  /** `record_render_state_to_buffer`: bind, one push per stored stage, one draw, after what was already recorded. */
  function RecordRenderState(rec: Recorder, s: RenderState.RenderState): (r: Recorder)
    ensures r.buffer == rec.buffer && r.recording == rec.recording && r.beginFlags == rec.beginFlags
    ensures |r.commands| == |rec.commands| + |RenderState.IterateShaders(s)| + 2 && rec.commands <= r.commands
  {
    var p := RenderState.PipelineOf(s).handle;
    DrawVertices(PushAll(Bind(rec, p), p, RenderState.IterateShaders(s)), VERTICES_PER_DRAW)
  }

  /** The loop over the render states in `rerecord_command_buffer`. */
  function RecordRenderStates(rec: Recorder, states: seq<RenderState.RenderState>): (r: Recorder)
    ensures r.buffer == rec.buffer && r.recording == rec.recording && r.beginFlags == rec.beginFlags
    decreases |states|
  {
    if states == [] then rec else RecordRenderStates(RecordRenderState(rec, states[0]), states[1..])
  }

  lemma {:induction false} PushAllAppends(rec: Recorder, pipeline: Handle, pairs: seq<(ShaderStage, RenderState.Payload)>)
    ensures PushAll(rec, pipeline, pairs) == rec.(commands := rec.commands + PushCommands(pipeline, pairs))
    decreases |pairs|
  {
    if pairs != [] {
      var next := Push(rec, pipeline, pairs[0].0, pairs[0].1);
      PushAllAppends(next, pipeline, pairs[1..]);
      assert PushCommands(pipeline, pairs) == [PushConstant(pipeline, pairs[0].0, pairs[0].1)] + PushCommands(pipeline, pairs[1..]);
    }
  }

  /** Recording one render state appends exactly its reference commands. */
  lemma RecordRenderStateAppends(rec: Recorder, s: RenderState.RenderState)
    ensures RecordRenderState(rec, s) == rec.(commands := rec.commands + StateCommands(s))
  {
    var p := s.pipeline.handle;
    var pairs := RenderState.IterateShaders(s);
    PushAllAppends(Bind(rec, p), p, pairs);
    assert rec.commands + [BindPipeline(GraphicsBindPoint, p)] + PushCommands(p, pairs) + [Draw(VERTICES_PER_DRAW, 1, 0, 0)]
        == rec.commands + StateCommands(s);
  }

  /** Recording the render states appends exactly their reference stream and changes nothing else. */
  lemma {:induction false} RecordRenderStatesAppends(rec: Recorder, states: seq<RenderState.RenderState>)
    ensures RecordRenderStates(rec, states) == rec.(commands := rec.commands + StatesCommands(states))
    decreases |states|
  {
    if states == [] {
      assert rec.commands + StatesCommands(states) == rec.commands;
    } else {
      var head := StateCommands(states[0]);
      var tail := StatesCommands(states[1..]);
      var next := RecordRenderState(rec, states[0]);
      RecordRenderStateAppends(rec, states[0]);
      RecordRenderStatesAppends(next, states[1..]);
      assert RecordRenderStates(rec, states) == RecordRenderStates(next, states[1..]);
      assert StatesCommands(states) == head + tail;
      assert next.commands + tail == rec.commands + StatesCommands(states) by {
        assert next.commands == rec.commands + head;
      }
    }
  }

  // ---------------------------------------------------------------------
  // One frame
  // ---------------------------------------------------------------------

  /** The driver's answers during one frame; queue lookups are the logical device's. */
  datatype FrameDriver = FrameDriver(
    waitFailure: Option<VkResult>,
    reset: DriverCall<()>,
    acquire: DriverCall<nat>,
    begin: DriverCall<()>,
    end: DriverCall<()>,
    graphicsQueue: Result<Handle, VulkanError>,
    submit: DriverCall<()>,
    presentationQueue: Result<Handle, VulkanError>,
    present: DriverCall<()>)

  /** Replaces the current slot. */
  function WithCurrentSlot(r: Renderer, s: FrameSlot): (r': Renderer)
    requires Valid(r)
    ensures Valid(r') && r'.currentFrame == r.currentFrame && r'.queueLog == r.queueLog
    ensures r'.slots[r.currentFrame] == s
    ensures forall k :: 0 <= k < |r.slots| && k != r.currentFrame ==> r'.slots[k] == r.slots[k]
    ensures r'.framebuffers == r.framebuffers && r'.renderPass == r.renderPass && r'.swapchain == r.swapchain
  {
    r.(slots := r.slots[r.currentFrame := s])
  }

  /** The slot of the current frame. */
  function Current(r: Renderer): FrameSlot
    requires Valid(r)
  {
    r.slots[r.currentFrame]
  }

  /**
   * `wait_for_current_frame_to_complete`: wait on the slot's fence with an
   * unbounded timeout, then reset it. The renderer is returned as the
   * failure left it.
   */
  function WaitForCurrentFrame(r: Renderer, d: FrameDriver): (b: Blocking<(Renderer, Result<(), RenderingError>)>)
    requires Valid(r)
    ensures b.Blocked? <==> Current(r).fence.state == Unsignaled && d.waitFailure.None?
    ensures b.Done? ==> Valid(b.result.0) && b.result.0.currentFrame == r.currentFrame && b.result.0.queueLog == r.queueLog
    ensures b.Done? ==> forall k :: 0 <= k < |r.slots| && k != r.currentFrame ==> b.result.0.slots[k] == r.slots[k]
    ensures b.Done? && b.result.1.Ok? ==> Current(b.result.0) == Current(r).(fence := Current(r).fence.(state := Unsignaled))
    ensures b.Done? && b.result.1.Ok? <==> b.Done? && d.waitFailure.None? && d.reset.Ok?
    ensures b.Done? ==> b.result.0.framebuffers == r.framebuffers && b.result.0.renderPass == r.renderPass
    ensures b.Done? ==> b.result.0.swapchain == r.swapchain
  {
    var slot := Current(r);
    match Wait(slot.fence, U64_MAX, d.waitFailure)
    case Blocked => Blocked
    case Done(Err(e)) => Done((r, Err(Vulkan(e))))
    case Done(Ok(waited)) =>
      var r1 := WithCurrentSlot(r, slot.(fence := waited));
      match Reset(waited, d.reset)
      case Err(e) => Done((r1, Err(Vulkan(e))))
      case Ok(reset) => Done((WithCurrentSlot(r, slot.(fence := reset)), Ok(())))
  }

  /** `acquire_next_image`: the image is acquired signalling the slot's image-acquired semaphore. */
  function AcquireNextImage(r: Renderer, d: FrameDriver): (a: Result<(Renderer, nat), RenderingError>)
    requires Valid(r)
    ensures d.acquire.Err? ==> a == Err(AcquireImageError(d.acquire.error))
    ensures d.acquire.Ok? ==> a == Ok((r.(queueLog := r.queueLog + [Acquire(r.swapchain, U64_MAX, Current(r).imageAcquired.handle)]), d.acquire.value))
  {
    match d.acquire
    case Err(code) => Err(AcquireImageError(code))
    case Ok(index) => Ok((r.(queueLog := r.queueLog + [Acquire(r.swapchain, U64_MAX, Current(r).imageAcquired.handle)]), index))
  }

  /**
   * `rerecord_command_buffer`. An image index with no framebuffer panics in
   * `Framebuffers::handle`; a failed end panics in the recorder's drop.
   */
  function RerecordCommandBuffer(r: Renderer, imageIndex: nat, states: seq<RenderState.RenderState>, d: FrameDriver)
    : (t: Termination<Result<Renderer, RenderingError>>)
    requires Valid(r)
    ensures d.begin.Err? ==> t == Returned(Err(Vulkan(CommandBufferRecordError(d.begin.error))))
    ensures d.begin.Ok? ==> (t.Panicked? <==> imageIndex >= |r.framebuffers.handles| || d.end.Err?)
    ensures t.Returned? && t.value.Ok? ==>
      imageIndex < |r.framebuffers.handles|
      && t.value.value == WithCurrentSlot(r, Current(r).(recorded := ExpectedStream(r, imageIndex, states)))
  {
    match CommandBuffer.New(Current(r).commandBuffer, d.begin)
    case Err(e) => Returned(Err(Vulkan(e)))
    case Ok(rec) =>
      if imageIndex >= |r.framebuffers.handles| then Panicked("index out of bounds")
      else
        var begun := BeginPass(rec, r.renderPass, r.framebuffers, imageIndex);
        var drawn := RecordRenderStates(begun, states);
        RecordRenderStatesAppends(begun, states);
        var ended := EndPass(drawn);
        match EndRecording(ended, d.end)
        case Panicked(m) => Panicked(m)
        case Returned(Err(e)) => Returned(Err(Vulkan(e)))
        case Returned(Ok(commands)) => Returned(Ok(WithCurrentSlot(r, Current(r).(recorded := commands))))
  }

  /**
   * `submit_for_rendering`: the slot's buffer waits for its image at
   * colour-attachment output and signals its image-rendered semaphore and
   * its fence, which now has work pending.
   */
  function SubmitForRendering(r: Renderer, d: FrameDriver): (s: Result<Renderer, RenderingError>)
    requires Valid(r)
    ensures d.graphicsQueue.Err? ==> s == Err(Vulkan(d.graphicsQueue.error))
    ensures d.graphicsQueue.Ok? && d.submit.Err? ==> s == Err(RenderImageError(d.submit.error))
    ensures s.Ok? ==> d.graphicsQueue.Ok? && d.submit.Ok?
    ensures s.Ok? ==> var slot := Current(r);
      s.value == WithCurrentSlot(r, slot.(fence := slot.fence.(state := Pending))).(queueLog := r.queueLog +
        [Submit(d.graphicsQueue.value, slot.imageAcquired.handle, ColorAttachmentOutput,
                slot.commandBuffer.handle, slot.imageRendered.handle, slot.fence.handle)])
  {
    match d.graphicsQueue
    case Err(e) => Err(Vulkan(e))
    case Ok(queue) =>
      var slot := Current(r);
      match d.submit
      case Err(code) => Err(RenderImageError(code))
      case Ok(_) =>
        var op := Submit(queue, slot.imageAcquired.handle, ColorAttachmentOutput,
                         slot.commandBuffer.handle, slot.imageRendered.handle, slot.fence.handle);
        Ok(WithCurrentSlot(r, slot.(fence := slot.fence.(state := Pending))).(queueLog := r.queueLog + [op]))
  }

  /** `submit_for_presentation`: present the acquired image once its rendering has signalled. */
  function SubmitForPresentation(r: Renderer, imageIndex: nat, d: FrameDriver): (s: Result<Renderer, RenderingError>)
    requires Valid(r)
    ensures d.presentationQueue.Err? ==> s == Err(Vulkan(d.presentationQueue.error))
    ensures d.presentationQueue.Ok? && d.present.Err? ==> s == Err(PresentImageError(d.present.error))
    ensures s.Ok? ==> d.presentationQueue.Ok? && d.present.Ok?
    ensures s.Ok? ==> s.value == r.(queueLog := r.queueLog +
      [Present(d.presentationQueue.value, Current(r).imageRendered.handle, r.swapchain, imageIndex)])
  {
    match d.presentationQueue
    case Err(e) => Err(Vulkan(e))
    case Ok(queue) =>
      match d.present
      case Err(code) => Err(PresentImageError(code))
      case Ok(_) => Ok(r.(queueLog := r.queueLog + [Present(queue, Current(r).imageRendered.handle, r.swapchain, imageIndex)]))
  }

  /** `advance_frame`: round-robin over the slots. */
  function AdvanceFrame(r: Renderer): (r': Renderer)
    requires Valid(r)
    ensures Valid(r') && r'.slots == r.slots && r'.queueLog == r.queueLog
    ensures r'.currentFrame != r.currentFrame
    ensures r'.currentFrame == (r.currentFrame + 1) % FRAMES_IN_FLIGHT
  {
    r.(currentFrame := (r.currentFrame + 1) % FRAMES_IN_FLIGHT)
  }

  /** How `render` ends: never (blocked on a fence), by panicking, or by returning with the renderer's new state. */
  datatype Outcome = NeverReturns | Panics(message: string) | Returns(renderer: Renderer, result: Result<(), RenderingError>)

  /** `render`: wait/reset → acquire → record → submit → present → advance; any error returns at once. */
  function Render(r: Renderer, states: seq<RenderState.RenderState>, d: FrameDriver): (o: Outcome)
    requires Valid(r)
    ensures o.NeverReturns? <==> Current(r).fence.state == Unsignaled && d.waitFailure.None?
    ensures o.Returns? ==> Valid(o.renderer)
    ensures o.Returns? && o.result.Ok? ==> o.renderer.currentFrame == (r.currentFrame + 1) % FRAMES_IN_FLIGHT
    ensures o.Returns? && o.result.Err? ==> o.renderer.currentFrame == r.currentFrame
  {
    match WaitForCurrentFrame(r, d)
    case Blocked => NeverReturns
    case Done((r1, Err(e))) => Returns(r1, Err(e))
    case Done((r1, Ok(_))) =>
      match AcquireNextImage(r1, d)
      case Err(e) => Returns(r1, Err(e))
      case Ok((r2, imageIndex)) =>
        match RerecordCommandBuffer(r2, imageIndex, states, d)
        case Panicked(m) => Panics(m)
        case Returned(Err(e)) => Returns(r2, Err(e))
        case Returned(Ok(r3)) =>
          match SubmitForRendering(r3, d)
          case Err(e) => Returns(r3, Err(e))
          case Ok(r4) =>
            match SubmitForPresentation(r4, imageIndex, d)
            case Err(e) => Returns(r4, Err(e))
            case Ok(r5) => Returns(AdvanceFrame(r5), Ok(()))
  }

  /**
   * Frame accounting: `render` blocks exactly when the slot's fence has no
   * work that will signal it; when it returns, the slots are still valid,
   * only the current slot changed, and the current frame advanced exactly
   * when the frame succeeded.
   */
  lemma RenderAccounting(r: Renderer, states: seq<RenderState.RenderState>, d: FrameDriver)
    requires Valid(r)
    ensures Render(r, states, d).NeverReturns? <==> Current(r).fence.state == Unsignaled && d.waitFailure.None?
    ensures var o := Render(r, states, d);
      o.Returns? ==> (
        && Valid(o.renderer)
        && (o.result.Err? ==> o.renderer.currentFrame == r.currentFrame)
        && (o.result.Ok? ==> o.renderer.currentFrame == (r.currentFrame + 1) % FRAMES_IN_FLIGHT)
        && (forall k :: 0 <= k < FRAMES_IN_FLIGHT && k != r.currentFrame ==> o.renderer.slots[k] == r.slots[k]))
  {
  }

  /**
   * A successful frame: the acquired image had a framebuffer, the slot's
   * buffer holds the reference stream, its fence has work pending, and
   * the GPU was handed exactly acquire, submit and present, chained
   * through the slot's semaphores and fence.
   */
  lemma RenderSuccess(r: Renderer, states: seq<RenderState.RenderState>, d: FrameDriver)
    requires Valid(r)
    requires Render(r, states, d).Returns? && Render(r, states, d).result.Ok?
    ensures d.acquire.Ok? && d.graphicsQueue.Ok? && d.presentationQueue.Ok?
    ensures d.acquire.value < |r.framebuffers.handles|
    ensures var r' := Render(r, states, d).renderer;
      var slot := Current(r);
      var slot' := r'.slots[r.currentFrame];
      && slot'.recorded == ExpectedStream(r, d.acquire.value, states)
      && slot'.fence == slot.fence.(state := Pending)
      && r'.queueLog == r.queueLog + [
           Acquire(r.swapchain, U64_MAX, slot.imageAcquired.handle),
           Submit(d.graphicsQueue.value, slot.imageAcquired.handle, ColorAttachmentOutput,
                  slot.commandBuffer.handle, slot.imageRendered.handle, slot.fence.handle),
           Present(d.presentationQueue.value, slot.imageRendered.handle, r.swapchain, d.acquire.value)]
  {
    var b := WaitForCurrentFrame(r, d);
    var r1 := b.result.0;
    var r2 := AcquireNextImage(r1, d).value.0;
    var index := d.acquire.value;
    var r3 := RerecordCommandBuffer(r2, index, states, d).value.value;
    var r4 := SubmitForRendering(r3, d).value;
    assert r4.queueLog == r.queueLog + [Acquire(r.swapchain, U64_MAX, Current(r).imageAcquired.handle)] +
      [Submit(d.graphicsQueue.value, Current(r).imageAcquired.handle, ColorAttachmentOutput,
              Current(r).commandBuffer.handle, Current(r).imageRendered.handle, Current(r).fence.handle)];
  }

  /**
   * A frame that fails after its fence was reset but before anything was
   * submitted leaves the slot's fence unsignalled and the frame not
   * advanced, so the next `render` waits on that same fence forever.
   */
  lemma FailureAfterResetStallsNextFrame(r: Renderer, states: seq<RenderState.RenderState>, d: FrameDriver,
                                         nextStates: seq<RenderState.RenderState>, next: FrameDriver)
    requires Valid(r)
    requires Current(r).fence.state != Unsignaled && d.waitFailure.None? && d.reset.Ok?
    requires d.acquire.Err? || d.begin.Err? || d.graphicsQueue.Err? || d.submit.Err?
    requires next.waitFailure.None?
    requires !Render(r, states, d).Panics?
    ensures Render(r, states, d).Returns? && Render(r, states, d).result.Err?
    ensures var r' := Render(r, states, d).renderer;
      && Valid(r') && r'.currentFrame == r.currentFrame
      && Current(r').fence.state == Unsignaled
      && Render(r', nextStates, next).NeverReturns?
  {
  }

  /** After two successful frames the renderer is back on the slot it started from. */
  lemma TwoFramesReturnToStart(r: Renderer, s1: seq<RenderState.RenderState>, d1: FrameDriver,
                               s2: seq<RenderState.RenderState>, d2: FrameDriver)
    requires Valid(r)
    requires Render(r, s1, d1).Returns? && Render(r, s1, d1).result.Ok?
    requires Valid(Render(r, s1, d1).renderer)
    requires Render(Render(r, s1, d1).renderer, s2, d2).Returns? && Render(Render(r, s1, d1).renderer, s2, d2).result.Ok?
    ensures Render(Render(r, s1, d1).renderer, s2, d2).renderer.currentFrame == r.currentFrame
  {
    RenderAccounting(r, s1, d1);
    RenderAccounting(Render(r, s1, d1).renderer, s2, d2);
  }

  /** `render` panics only after a successful acquire, for an image without a framebuffer or a failed end of recording. */
  lemma RenderPanics(r: Renderer, states: seq<RenderState.RenderState>, d: FrameDriver)
    requires Valid(r)
    ensures Render(r, states, d).Panics? <==>
      && Current(r).fence.state != Unsignaled && d.waitFailure.None? && d.reset.Ok?
      && d.acquire.Ok? && d.begin.Ok?
      && (d.acquire.value >= |r.framebuffers.handles| || d.end.Err?)
  {
  }

  /** `Drop for Renderer`: waits for the device to go idle and panics if it cannot. */
  function Drop(waitIdle: DriverCall<()>): (t: Termination<()>)
    ensures t.Panicked? <==> waitIdle.Err?
  {
    match waitIdle
    case Err(_) => Termination.Panicked("called `Result::unwrap()` on an `Err` value: DeviceWaitIdleError")
    case Ok(_) => Termination.Returned(())
  }
}

=== FILE: shader.dfy ===
/**
 * Shader modules: loading a SPIR-V file into a byte/word double-view
 * buffer, creating the module from the word view, and the per-stage
 * create info (stage flag and the entry point `main`).
 *
 * The file is given as its contents plus the answers of the file system:
 * whether `open` and `metadata` succeed and the length metadata reports.
 * `read` may return fewer bytes than asked for; the k-th call's count is
 * chosen by the `chunk` oracle, and it returns 0 only when the file or the
 * slice it was handed is exhausted.
 */
module Shader {
  import opened Wrappers
  import opened Vk
  import DoubleTypeBuffer

  const U8_LAYOUT := DoubleTypeBuffer.TypeLayout(1, 1)
  const U32_LAYOUT := DoubleTypeBuffer.TypeLayout(4, 4)

  /** `(bytes + size_of::<u32>() - 1) / size_of::<u32>()`: the number of words the bytes need. */
  function WordLength(byteCount: nat): (n: nat)
    ensures 4 * n >= byteCount
    ensures 4 * n < byteCount + 4
  {
    (byteCount + 4 - 1) / 4
  }

  /** The word length is the least word count that holds every byte. */
  lemma WordLengthIsCeiling(byteCount: nat, m: nat)
    requires 4 * m >= byteCount
    ensures WordLength(byteCount) <= m
  {
  }

  /** File lengths are a signed 64-bit `off_t`, so they stay below 2^63. */
  const MAX_FILE_LENGTH: nat := 0x7FFF_FFFF_FFFF_FFFF

  /**
   * `create_buffer_for_file`: a u8/u32 buffer for a file of `byteCount`
   * bytes. Below 2^63 bytes neither `usize` product of the allocation can
   * overflow.
   */
  function BufferForFile(byteCount: nat, base: nat): (b: DoubleTypeBuffer.Buffer)
    requires 0 < byteCount <= MAX_FILE_LENGTH
    ensures DoubleTypeBuffer.AsSlice(b, U8_LAYOUT).Returned? && DoubleTypeBuffer.AsSlice(b, U32_LAYOUT).Returned?
    ensures DoubleTypeBuffer.AsSlice(b, U8_LAYOUT).value.length == 4 * WordLength(byteCount)
    ensures DoubleTypeBuffer.AsSlice(b, U32_LAYOUT).value.length == WordLength(byteCount)
    ensures DoubleTypeBuffer.AsSlice(b, U8_LAYOUT).value.length >= byteCount
  {
    assert DoubleTypeBuffer.NoOverflow(U8_LAYOUT, byteCount, U32_LAYOUT, WordLength(byteCount));
    DoubleTypeBuffer.WithLengths(U8_LAYOUT, byteCount, U32_LAYOUT, WordLength(byteCount), base)
  }

  function Min(a: nat, b: nat): nat {
    if a <= b then a else b
  }

  /** What one `read` returns: 0 when nothing is left to read or no room is left, otherwise between 1 and the smaller of the two. */
  function ReadCount(room: nat, remaining: nat, hint: nat): (n: nat)
    ensures n <= room && n <= remaining
    ensures n == 0 <==> room == 0 || remaining == 0
  {
    if room == 0 || remaining == 0 then 0 else 1 + hint % Min(room, remaining)
  }

  /**
   * `read_file_to_buffer`: reads into the byte view from `current` onwards
   * until a read returns 0. The bytes read land in order at the start of
   * the view; the bytes after them are never written.
   */
  method ReadFileToBuffer(file: seq<byte>, buffer: seq<byte>, chunk: nat -> nat)
    returns (filled: seq<byte>, current: nat)
    ensures current == Min(|file|, |buffer|)
    ensures |filled| == |buffer|
    ensures filled[..current] == file[..current]
    ensures filled[current..] == buffer[current..]
  {
    filled := buffer;
    current := 0;
    var eofReached := false;
    var calls := 0;
    while !eofReached
      invariant current <= |file| && current <= |buffer|
      invariant |filled| == |buffer|
      invariant filled[..current] == file[..current]
      invariant filled[current..] == buffer[current..]
      invariant eofReached ==> current == Min(|file|, |buffer|)
      decreases Min(|file|, |buffer|) - current, if eofReached then 0 else 1
    {
      var bytesRead := ReadCount(|buffer| - current, |file| - current, chunk(calls));
      filled := filled[..current] + file[current..current + bytesRead] + filled[current + bytesRead..];
      current := current + bytesRead;
      eofReached := bytesRead == 0;
      calls := calls + 1;
    }
  }

  /** The byte string behind `SHADER_STAGE_ENTRY_POINT_NAME`. */
  const ENTRY_POINT_BYTES: string := "main\0"

  /** `CStr::from_bytes_with_nul`: succeeds exactly when the only NUL is the last byte. */
  function CStrFromBytesWithNul(bytes: string): (r: Option<string>)
    ensures r.Some? ==> bytes == r.value + "\0"
    ensures r.Some? ==> forall i :: 0 <= i < |r.value| ==> r.value[i] != '\0'
    ensures r.None? <==> !(|bytes| > 0 && bytes[|bytes| - 1] == '\0' && forall i :: 0 <= i < |bytes| - 1 ==> bytes[i] != '\0')
  {
    if |bytes| > 0 && bytes[|bytes| - 1] == '\0' && forall i :: 0 <= i < |bytes| - 1 ==> bytes[i] != '\0' then
      Some(bytes[..|bytes| - 1])
    else
      None
  }

  /** The entry point is `main`, and the `unwrap` on it never panics. */
  lemma EntryPointIsMain()
    ensures CStrFromBytesWithNul(ENTRY_POINT_BYTES) == Some("main")
  {
    assert ENTRY_POINT_BYTES[..4] == "main";
  }

  /** The three stage wrappers. */
  datatype ShaderKind = VertexShader | FragmentShader | GeometryShader

  /** The stage flag each wrapper passes to `Shader::from_file`. */
  function StageOf(kind: ShaderKind): (s: ShaderStage)
    ensures s == Vertex <==> kind == VertexShader
    ensures s == Fragment <==> kind == FragmentShader
    ensures s == Geometry <==> kind == GeometryShader
  {
    match kind
    case VertexShader => Vertex
    case FragmentShader => Fragment
    case GeometryShader => Geometry
  }

  /** A loaded shader module and its stage. */
  datatype Shader = Shader(shaderModule: Handle, stage: ShaderStage)

  /** `vk::PipelineShaderStageCreateInfo` as the engine fills it. */
  datatype ShaderStageCreateInfo = ShaderStageCreateInfo(shaderModule: Handle, entryPoint: string, stage: ShaderStage)

  /** `shader_stage_create_info_builder`. */
  function StageCreateInfo(s: Shader): (info: ShaderStageCreateInfo)
    ensures info.shaderModule == s.shaderModule && info.stage == s.stage
    ensures CStrFromBytesWithNul(ENTRY_POINT_BYTES) == Some(info.entryPoint)
  {
    EntryPointIsMain();
    ShaderStageCreateInfo(s.shaderModule, "main", s.stage)
  }

  /** What the module is created from: the word view and the bytes behind it. */
  datatype ModuleCode = ModuleCode(wordCount: nat, bytes: seq<byte>)

  /**
   * `VertexShader::from_file` and its siblings, through `Shader::from_file`:
   * open the file and read its length (a failure of either is
   * `ShaderOpenFileError`), read it into a fresh buffer whose initial
   * contents are `uninitialised`, then create the module from the word view
   * (a failure is `ShaderCreateError`). `code` is what the driver was given.
   */
  method FromFile(
    kind: ShaderKind, openedFile: Result<seq<byte>, nat>, metadataLength: Result<nat, nat>,
    base: nat, uninitialised: seq<byte>, chunk: nat -> nat, createModule: DriverCall<Handle>)
    returns (r: Result<Shader, VulkanError>, code: Option<ModuleCode>)
    requires metadataLength.Ok? ==> 0 < metadataLength.value <= MAX_FILE_LENGTH
    requires metadataLength.Ok? ==> |uninitialised| == 4 * WordLength(metadataLength.value)
    ensures openedFile.Err? ==> r == Err(ShaderOpenFileError(openedFile.error)) && code.None?
    ensures openedFile.Ok? && metadataLength.Err? ==> r == Err(ShaderOpenFileError(metadataLength.error)) && code.None?
    ensures openedFile.Ok? && metadataLength.Ok? ==> code.Some?
    ensures code.Some? ==>
      && code.value.wordCount == WordLength(metadataLength.value)
      && 4 * code.value.wordCount == |code.value.bytes|
      && var n := Min(|openedFile.value|, metadataLength.value);
         code.value.bytes[..n] == openedFile.value[..n]
    ensures code.Some? && createModule.Err? ==> r == Err(ShaderCreateError(createModule.error))
    ensures code.Some? && createModule.Ok? ==> r == Ok(Shader(createModule.value, StageOf(kind)))
  {
    if openedFile.Err? {
      return Err(ShaderOpenFileError(openedFile.error)), None;
    }
    if metadataLength.Err? {
      return Err(ShaderOpenFileError(metadataLength.error)), None;
    }
    var length := metadataLength.value;
    var buffer := BufferForFile(length, base);
    var filled, current := ReadFileToBuffer(openedFile.value, uninitialised, chunk);
    var n := Min(|openedFile.value|, length);
    assert n <= current;
    assert filled[..n] == filled[..current][..n];
    code := Some(ModuleCode(DoubleTypeBuffer.AsSlice(buffer, U32_LAYOUT).value.length, filled));
    match createModule
    case Err(e) => r := Err(ShaderCreateError(e));
    case Ok(h) => r := Ok(Shader(h, StageOf(kind)));
  }
}

=== FILE: state.dfy ===
/**
 * The engine's Vulkan state: the loader entry, the instance (with the
 * debug extension and the Khronos validation layer in debug mode), the
 * extension loaders and, in debug mode only, the debug messenger.
 */
module VulkanState {
  import opened Wrappers
  import opened Vk
  import CStringCollection
  import Instance
  import DebugUtils

  /** The application and engine name the instance is created with. */
  const ENGINE_NAME: Name := "Magmacraft"

  const ENGINE_VERSION := Instance.Version(0, 0, 0)

  /** The validation layer enabled in debug mode. */
  const VALIDATION_LAYER: Name := "VK_LAYER_KHRONOS_validation"

  /** The name of the debug-utils instance extension. */
  const DEBUG_UTILS_EXTENSION: Name := "VK_EXT_debug_utils"

  /** The debug-utils and surface function tables, both bound to the instance. */
  datatype ExtensionLoaders = ExtensionLoaders(instance: Handle)

  datatype VulkanState = VulkanState(
    entry: Handle,
    instance: Instance.Instance,
    loaders: ExtensionLoaders,
    debugMessenger: Option<DebugUtils.DebugMessenger>)

  /** The driver's answers while the state is built; loading and instance errors are opaque. */
  datatype StateDriver = StateDriver(
    entry: Result<Handle, nat>,
    layerEnumeration: DriverCall<seq<string>>,
    createInstance: Result<Handle, nat>,
    createMessenger: DriverCall<Handle>,
    extensionAddress: nat,
    layerAddress: nat)

  /** `add_instance_debug_extension`: the debug-utils extension is appended in debug mode only. */
  function AddInstanceDebugExtension(debugMode: bool, extensions: CStringCollection.Collection, address: nat)
    : (r: CStringCollection.Collection)
    requires CStringCollection.Valid(extensions)
    ensures CStringCollection.Valid(r)
    ensures debugMode ==> CStringCollection.Names(r) == CStringCollection.Names(extensions) + [DEBUG_UTILS_EXTENSION]
    ensures !debugMode ==> r == extensions
  {
    if debugMode then CStringCollection.Push(extensions, DEBUG_UTILS_EXTENSION, address) else extensions
  }

  /** The validation layers `init_instance` asks for: the Khronos layer in debug mode, none otherwise. */
  function ValidationLayers(debugMode: bool, address: nat): (r: CStringCollection.Collection)
    ensures CStringCollection.Valid(r)
    ensures CStringCollection.Names(r) == if debugMode then [VALIDATION_LAYER] else []
  {
    if debugMode then CStringCollection.Push(CStringCollection.New(), VALIDATION_LAYER, address)
    else CStringCollection.New()
  }

  /** The instance builder `init_instance` configures. */
  function InstanceRequest(debugMode: bool, extensions: CStringCollection.Collection, d: StateDriver)
    : (c: Instance.InstanceConfig)
    requires CStringCollection.Valid(extensions)
    ensures c.name == ENGINE_NAME && c.version == ENGINE_VERSION
    ensures Instance.DebugMode(c) <==> debugMode
    ensures CStringCollection.Names(c.validationLayers) == if debugMode then [VALIDATION_LAYER] else []
    ensures CStringCollection.Names(c.extensions) ==
      CStringCollection.Names(extensions) + (if debugMode then [DEBUG_UTILS_EXTENSION] else [])
  {
    Instance.InstanceConfig(ENGINE_NAME, ENGINE_VERSION,
      AddInstanceDebugExtension(debugMode, extensions, d.extensionAddress),
      ValidationLayers(debugMode, d.layerAddress))
  }

  /** The instance can be created: its layer is available in debug mode and the driver agrees. */
  ghost predicate InstanceSucceeds(debugMode: bool, d: StateDriver) {
    && d.createInstance.Ok?
    && (debugMode ==> d.layerEnumeration.Ok? && Instance.LayerAvailable(d.layerEnumeration.value, VALIDATION_LAYER))
  }

  /**
   * `VulkanStateBuilder::build`: entry → debug extension → instance →
   * loaders → messenger, the first failure aborting the rest.
   * `instanceRequest` is the instance builder's configuration if the build
   * got that far; `messengerAttempted` says whether a messenger was asked for.
   */
  method Build(debugMode: bool, extensions: CStringCollection.Collection, d: StateDriver)
    returns (r: Result<VulkanState, VulkanError>, instanceRequest: Option<Instance.InstanceConfig>, messengerAttempted: bool)
    requires CStringCollection.Valid(extensions)
    ensures d.entry.Err? ==> r == Err(LibraryLoadError(d.entry.error)) && instanceRequest.None? && !messengerAttempted
    ensures d.entry.Ok? ==> instanceRequest == Some(InstanceRequest(debugMode, extensions, d))
    ensures d.entry.Ok? ==> (messengerAttempted <==> debugMode && InstanceSucceeds(debugMode, d))
    ensures d.entry.Ok? && !InstanceSucceeds(debugMode, d) ==> r.Err?
    ensures d.entry.Ok? && debugMode && d.layerEnumeration.Err? ==>
      r == Err(ValidationLayersError(d.layerEnumeration.error))
    ensures d.entry.Ok? && debugMode && d.layerEnumeration.Ok? &&
      !Instance.LayerAvailable(d.layerEnumeration.value, VALIDATION_LAYER)
      ==> r == Err(ValidationLayersNotAvailable)
    ensures d.entry.Ok? && d.createInstance.Err? &&
      (debugMode ==> d.layerEnumeration.Ok? && Instance.LayerAvailable(d.layerEnumeration.value, VALIDATION_LAYER))
      ==> r == Err(InstanceCreateError(d.createInstance.error))
    ensures d.entry.Ok? && InstanceSucceeds(debugMode, d) ==> (r.Ok? <==> !debugMode || d.createMessenger.Ok?)
    ensures r.Ok? ==> r.value.instance == Instance.Instance(d.createInstance.value)
    ensures r.Ok? ==> r.value.loaders == ExtensionLoaders(d.createInstance.value)
    ensures r.Ok? ==> (r.value.debugMessenger.Some? <==> debugMode)
    ensures messengerAttempted && d.createMessenger.Err? ==>
      r == Err(OperationFailed("create debug messenger", d.createMessenger.error))
  {
    messengerAttempted := false;
    if d.entry.Err? {
      return Err(LibraryLoadError(d.entry.error)), None, false;
    }
    var config := InstanceRequest(debugMode, extensions, d);
    instanceRequest := Some(config);
    var layers := CStringCollection.Names(config.validationLayers);
    assert '\0' !in config.name;
    var instance, attempted := Instance.Build(config, d.layerEnumeration, d.createInstance);
    if instance.Err? {
      if debugMode && d.layerEnumeration.Ok? {
        if Instance.LayerAvailable(d.layerEnumeration.value, VALIDATION_LAYER) {
          assert forall j :: 0 <= j < |layers| ==> Instance.LayerAvailable(d.layerEnumeration.value, layers[j]);
        } else {
          assert !Instance.LayerAvailable(d.layerEnumeration.value, layers[0]);
        }
      }
      return Err(instance.error), instanceRequest, false;
    }
    if debugMode {
      assert Instance.LayerAvailable(d.layerEnumeration.value, layers[0]);
    }
    var loaders := ExtensionLoaders(instance.value.handle);
    var messenger: Option<DebugUtils.DebugMessenger> := None;
    if debugMode {
      messengerAttempted := true;
      var created := DebugUtils.NewMessenger(instance.value.handle, d.createMessenger);
      if created.Err? {
        return Err(created.error), instanceRequest, true;
      }
      messenger := Some(created.value);
    }
    r := Ok(VulkanState(d.entry.value, instance.value, loaders, messenger));
  }
}

=== FILE: synchronization.dfy ===
/**
 * Fence and semaphore wrappers. A fence's GPU-side state is tracked
 * explicitly: signalled, unsignalled with no work that will signal it, or
 * unsignalled with submitted work that will signal it when it completes.
 */
module Synchronization {
  import opened Wrappers
  import opened Vk

  /** The status the engine asks a fence to start in, and the answer of `status()`. */
  datatype FenceStatus = Ready | NotReady

  datatype FenceCreateFlag = SignaledBit

  datatype FenceState = Signaled | Unsignaled | Pending

  datatype Fence = Fence(handle: Handle, state: FenceState)

  datatype Semaphore = Semaphore(handle: Handle)

  /** `Semaphore::new`: a failure is `SemaphoreCreateError`. */
  function NewSemaphore(create: DriverCall<Handle>): (r: Result<Semaphore, VulkanError>)
    ensures create.Ok? <==> r.Ok?
    ensures r.Ok? ==> r.value.handle == create.value
    ensures r.Err? ==> r.error == SemaphoreCreateError(create.error)
  {
    match create
    case Ok(h) => Ok(Semaphore(h))
    case Err(e) => Err(SemaphoreCreateError(e))
  }

  /** `Fence::create_flags`: SIGNALED exactly for a fence asked to start ready. */
  function CreateFlags(status: FenceStatus): (flags: set<FenceCreateFlag>)
    ensures SignaledBit in flags <==> status == Ready
    ensures status == NotReady ==> flags == {}
  {
    if status == Ready then {SignaledBit} else {}
  }

  /** The state a fence created with `flags` starts in. */
  function InitialState(flags: set<FenceCreateFlag>): (st: FenceState)
    ensures st == Signaled <==> SignaledBit in flags
    ensures st != Pending
  {
    if SignaledBit in flags then Signaled else Unsignaled
  }

  /** `Fence::new`: a failure is `FenceCreateError`; a fence asked to be ready starts signalled. */
  function NewFence(status: FenceStatus, create: DriverCall<Handle>): (r: Result<Fence, VulkanError>)
    ensures create.Ok? <==> r.Ok?
    ensures r.Ok? ==> r.value.handle == create.value
    ensures r.Ok? ==> (r.value.state == Signaled <==> status == Ready)
    ensures r.Ok? ==> (r.value.state == Unsignaled <==> status == NotReady)
    ensures r.Err? ==> r.error == FenceCreateError(create.error)
  {
    match create
    case Ok(h) => Ok(Fence(h, InitialState(CreateFlags(status))))
    case Err(e) => Err(FenceCreateError(e))
  }

  /** `Fence::status`: success is `Ready`, `NOT_READY` is `NotReady`, any other code is an error. */
  function Status(query: DriverCall<()>): (r: Result<FenceStatus, VulkanError>)
    ensures query.Ok? ==> r == Ok(Ready)
    ensures query == Err(NOT_READY) ==> r == Ok(NotReady)
    ensures query.Err? && query.error != NOT_READY ==> r == Err(FenceGetStatusError(query.error))
  {
    match query
    case Ok(_) => Ok(Ready)
    case Err(code) => if code == NOT_READY then Ok(NotReady) else Err(FenceGetStatusError(code))
  }

  /** `Fence::reset`: a failure is `FenceResetError`; success leaves the fence unsignalled. */
  function Reset(f: Fence, call: DriverCall<()>): (r: Result<Fence, VulkanError>)
    ensures call.Ok? ==> r == Ok(f.(state := Unsignaled))
    ensures call.Err? ==> r == Err(FenceResetError(call.error))
  {
    match call
    case Ok(_) => Ok(f.(state := Unsignaled))
    case Err(code) => Err(FenceResetError(code))
  }

  /** The arguments of `wait_for_fences`. */
  datatype WaitRequest = WaitRequest(fences: seq<Handle>, waitAll: bool, timeoutNanos: nat)

  /** The conversion of a `Duration` to the driver's u64 nanoseconds. */
  function WaitArguments(f: Fence, timeoutNanos: nat): (r: Result<WaitRequest, VulkanError>)
    ensures timeoutNanos > U64_MAX <==> r == Err(FenceTimeoutTooLargeError)
    ensures r.Ok? ==> r.value == WaitRequest([f.handle], true, timeoutNanos)
  {
    if timeoutNanos > U64_MAX then Err(FenceTimeoutTooLargeError)
    else Ok(WaitRequest([f.handle], true, timeoutNanos))
  }

  /** How a blocking call ends: with a result, or never. */
  datatype Blocking<+T> = Done(result: T) | Blocked

  /**
   * `Fence::wait`. `failure` is a driver failure (device loss, say), which
   * becomes `FenceWaitError`. Otherwise a fence with pending work is waited
   * out and ends signalled, while a fence nothing will signal times out:
   * `TIMEOUT` for a finite timeout, never returning for `u64::MAX`.
   */
  function Wait(f: Fence, timeoutNanos: nat, failure: Option<VkResult>): (r: Blocking<Result<Fence, VulkanError>>)
    ensures timeoutNanos > U64_MAX ==> r == Done(Err(FenceTimeoutTooLargeError))
    ensures timeoutNanos <= U64_MAX && failure.Some? ==> r == Done(Err(FenceWaitError(failure.value)))
    ensures timeoutNanos <= U64_MAX && failure.None? && f.state != Unsignaled ==>
      r == Done(Ok(f.(state := Signaled)))
    ensures r.Done? && r.result.Ok? ==> r.result.value.state == Signaled && r.result.value.handle == f.handle
    ensures r.Blocked? <==> timeoutNanos == U64_MAX && failure.None? && f.state == Unsignaled
  {
    match WaitArguments(f, timeoutNanos)
    case Err(e) => Done(Err(e))
    case Ok(_) =>
      if failure.Some? then Done(Err(FenceWaitError(failure.value)))
      else if f.state != Unsignaled then Done(Ok(f.(state := Signaled)))
      else if timeoutNanos == U64_MAX then Blocked
      else Done(Err(FenceWaitError(TIMEOUT)))
  }

  /** The largest representable timeout is accepted; one nanosecond more is refused without waiting. */
  lemma TimeoutBoundary(f: Fence)
    ensures WaitArguments(f, U64_MAX).Ok?
    ensures WaitArguments(f, U64_MAX + 1) == Err(FenceTimeoutTooLargeError)
  {
  }
}

=== FILE: vk.dfy ===
/**
 * Vocabulary shared by every component: opaque driver handles, driver
 * result codes, the queue-family roles, shader stages, and the two error
 * enumerations of the engine (`VulkanError`, `RenderingError`).
 */
module Vk {
  import opened Wrappers

  /** Every driver object (device, fence, pipeline, image view, ...) is an opaque handle. */
  type Handle = nat

  /** A native status code returned by a failing driver call. */
  datatype VkResult = VkResult(code: int)

  /** Status codes from section "Return Codes" of the Vulkan specification. */
  const NOT_READY := VkResult(1)
  const TIMEOUT := VkResult(2)

  /** The outcome of a driver call: its value, or the status code it failed with. */
  type DriverCall<T> = Result<T, VkResult>

  newtype byte = b: int | 0 <= b < 256

  const U32_MODULUS: nat := 0x1_0000_0000
  const U64_MAX: nat := 0xFFFF_FFFF_FFFF_FFFF

  datatype Extent2D = Extent2D(width: nat, height: nat)
  datatype Offset2D = Offset2D(x: int, y: int)
  datatype Rect2D = Rect2D(offset: Offset2D, extent: Extent2D)

  /** The roles a queue family can play for the engine. */
  datatype QueueFamily = Graphics | Compute | Transfer | SparseBinding | Presentation

  /** The three programmable stages the engine attaches. */
  datatype ShaderStage = Geometry | Vertex | Fragment

  /** Pipeline stages named in synchronisation scopes. */
  datatype PipelineStage = ColorAttachmentOutput

  /** A Rust `String` or `&str`; its UTF-8 bytes compare equal exactly when the strings do. */
  type Name = string

  /** Errors of the Vulkan layer. Sources that are not driver status codes are opaque numbers. */
  datatype VulkanError =
    | LibraryLoadError(loadError: nat)
    | CreateDebugMessengerError(result: VkResult)
    | ValidationLayersNotAvailable
    | ValidationLayersError(result: VkResult)
    | InstanceCreateError(instanceError: nat)
    | InstanceExtensionsCreationError(nulPosition: nat) // the byte offset of the first NUL, as `NulError` reports it
    | EnumeratePhysicalDevicesError(result: VkResult)
    | PhysicalDevicePropertiesError(result: VkResult)
    | QueueFamilyNotSupported(queueFamily: QueueFamily)
    | EnumeratePhysicalDeviceExtensionsError(result: VkResult)
    | PhysicalDeviceSelectError
    | SuitableDeviceNotFound
    | LogicalDeviceCreateError(result: VkResult)
    | LogicalDeviceGetDeviceQueueError
    | LogicalDeviceWaitIdleError(result: VkResult)
    | SwapchainCreateError(result: VkResult)
    | SwapchainGetImagesError(result: VkResult)
    | ShaderCreateError(result: VkResult)
    | ShaderOpenFileError(ioError: nat)
    | RenderPassCreateError(result: VkResult)
    | PipelineCreateError(result: VkResult)
    | PipelineLayoutCreateError(result: VkResult)
    | ImageViewCreateError(result: VkResult)
    | FramebuffersCreateError(result: VkResult)
    | CommandPoolCreateError(result: VkResult)
    | CommandBufferAllocateError(result: VkResult)
    | CommandBufferRecordError(result: VkResult)
    | SemaphoreCreateError(result: VkResult)
    | FenceCreateError(result: VkResult)
    | FenceGetStatusError(result: VkResult)
    | FenceTimeoutTooLargeError
    | FenceWaitError(result: VkResult)
    | FenceResetError(result: VkResult)
      /** Used by the device enumeration and debug-messenger code, though the error enumeration does not declare it. */
    | OperationFailed(operation: string, result: VkResult)

  /** Errors of the rendering layer; a `VulkanError` converts into the first variant. */
  datatype RenderingError =
    | Vulkan(source: VulkanError)
    | AcquireImageError(result: VkResult)
    | RenderImageError(result: VkResult)
    | PresentImageError(result: VkResult)
    | DeviceWaitIdleError(result: VkResult)

  /** How a call ends: it returns normally, or the process panics. */
  datatype Termination<+T> = Returned(value: T) | Panicked(message: string)

  /** Maps a failed driver call to the error variant the caller wraps it in. */
  function MapDriverError<T, E>(call: DriverCall<T>, wrap: VkResult -> E): (r: Result<T, E>)
    ensures call.Ok? ==> r == Ok(call.value)
    ensures call.Err? ==> r == Err(wrap(call.error))
  {
    match call
    case Ok(v) => Ok(v)
    case Err(code) => Err(wrap(code))
  }

  /** Lifts a Vulkan-layer result into the rendering layer (Rust's `?` through `From`). */
  function Lift<T>(r: Result<T, VulkanError>): (l: Result<T, RenderingError>)
    ensures r.Ok? <==> l.Ok?
    ensures r.Ok? ==> l.value == r.value
    ensures r.Err? ==> l.error == Vulkan(r.error)
  {
    match r
    case Ok(v) => Ok(v)
    case Err(e) => Err(Vulkan(e))
  }
}

=== FILE: wrappers.dfy ===
/** Failure-compatible Option and Result datatypes used throughout the model. */
module Wrappers {

  /** An optional value: Rust's `Option<T>`. */
  datatype Option<+T> = None | Some(value: T)

  /** A value or an error: Rust's `Result<T, E>`; usable with `:-`. */
  datatype Result<+T, +E> = Ok(value: T) | Err(error: E) {

    predicate IsFailure() {
      Err?
    }

    function PropagateFailure<U>(): Result<U, E>
      requires Err?
    {
      Err(error)
    }

    function Extract(): T
      requires Ok?
    {
      value
    }
  }
}
